=== FILE: README.md ===
# Registro de Clientes — a verified model

A Dafny model of the customer-order registry: a React front end in which
staff register orders, browse and search the list, edit and delete them,
and an Express controller that stores them through Mongoose. The model
covers:

- **the REST controller** (`ClienteController`): creation with its
  required-field check, trimming and date cast; the paginated list with
  JavaScript `parseInt` semantics for the query and the page summary;
  lookup, update and deletion by id. The database is a map from id to
  document, and the id validator and the date cast are parameters.
- **the reply handling the two client-state hooks share** (`ApiClient`):
  which of the four list envelopes is read, how records are normalised,
  the error texts, and how the record is taken out of an update or a
  creation reply.
- **the hook behind the client list** (`EmpleadoHook`): loading,
  searching, selecting, the confirmed delete, and the optimistic edit with
  its reconciliation and rollback.
- **the second hook** (`ClienteHook`): its alias-adding normalisation,
  update, add, delete and search.
- **the list page** (`ClientList`): the order-date sort, eight rows per
  page, the guarded page change, the compressed strip of page links, and
  the return to page 1 when the search or the order changes.
- **the registration page** (`RegistrationForm`): validation, the
  `0000-0000` phone formatter, error clearing, the request body, and the
  reset and error alert after the server answers.
- **the edit dialog** (`EditModal`): loading a record into the form,
  editing, and the body the save button hands on.
- **both ends of the HTTP exchange together** (`Wire`): what the browser
  reads out of the replies the controller actually produces.

JavaScript values are a `Json` datatype with integer numbers, and a record
is a `map<string, Json>`: an absent key is `undefined`. Truthiness, `||`,
object spread (of objects, and of strings and arrays by index), `trim`, `toLowerCase` (Latin-1), `includes`, `join` and
`String(n)` are defined once, in `JsValue` and `JsText`. Each network call
is an oracle argument `Reply`: `Received(status, data)` for a 2xx reply,
`Failed(...)` for an HTTP error, a missing response, or an exception in
the caller's own code. React state updates are pure transitions on a
`State` value.

The list page `Pages/Clientes.jsx` destructures `empleados`,
`filterEmpleados`, `selectEmpleado` and the other names that
`hooks/Empleados/hooks/useDataEmpleado.jsx` returns. Its import line,
however, names `hooks/useDataCliente.jsx`, whose return value has none of
those names. Taken literally, every one of them is `undefined`, and each
render throws at `Pages/Clientes.jsx:79`, where the page computes its page
count from `filterClientes.length`. The model follows the evident intent: the page is
driven by `EmpleadoHook` (see `ClientList.VisibleRows`).

## Model

| member | source | states |
|---|---|---|
| `JsValue.SpreadIndexes` | Registro-de-Clientes/src/hooks/Empleados/hooks/useDataEmpleado.jsx:244-245 | Spreading a string or an array yields its indices, in decimal, as keys, each holding its element (a one-character string for a string). |
| `JsValue.Indexed` | Registro-de-Clientes/src/hooks/Empleados/hooks/useDataEmpleado.jsx:244-245 | The keys of a spread array are exactly the decimal indices below its length. |
| `JsValue.IndexedHolds` | Registro-de-Clientes/src/hooks/Empleados/hooks/useDataEmpleado.jsx:244-245 | The key of index `i` holds element `i`: no later index overwrites it. |
| `JsValue.IndexKeysAreIndices` | Registro-de-Clientes/src/hooks/Empleados/hooks/useDataEmpleado.jsx:244-245 | Every key of a spread array is the decimal form of one of its indices. |
| `ApiClient.SelectEnvelope` | Registro-de-Clientes/src/hooks/Empleados/hooks/useDataEmpleado.jsx:46-66 | The list is taken from the first of four places that holds an array: the reply itself, `data.clientes`, `clientes`, then `data`. A reply with none of them is refused with "Formato de datos no válido". |
| `ApiClient.NestedEnvelopeWins` | Registro-de-Clientes/src/hooks/Empleados/hooks/useDataEmpleado.jsx:50-57 | A reply holding both a `data.clientes` array and a `clientes` array is read from `data.clientes`. |
| `ApiClient.NormalizeItems` | Registro-de-Clientes/src/hooks/Empleados/hooks/useDataEmpleado.jsx:77-90 | Each element is normalised with its index, and the output has the input's length. One `null` element makes the whole load fail with the TypeError of reading a field of `null`. |
| `ApiClient.FetchErrorMessage` | Registro-de-Clientes/src/hooks/Empleados/hooks/useDataEmpleado.jsx:101-108 | A failure that mentions "Network", or has code ERR_NETWORK, shows the connection message. An HTTP error shows its status and the server's message, or "Error desconocido". Any other failure, a timeout included, shows "Error al cargar clientes: " and its own message. |
| `ApiClient.LoadList` | Registro-de-Clientes/src/hooks/Empleados/hooks/useDataEmpleado.jsx:28-114 | The load succeeds exactly when a 2xx reply has a known envelope with no `null` element. It then yields the normalised records in order. A failed request, an unknown envelope and a `null` element each give the message the page shows for that failure. |
| `ApiClient.HttpErrorReportsStatus` | Registro-de-Clientes/src/hooks/Empleados/hooks/useDataEmpleado.jsx:102-105 | axios's message for an HTTP error never contains "Network", so a server error is never mistaken for a lost connection. |
| `ApiClient.UpdatedRecordAsWritten` | Registro-de-Clientes/src/hooks/Empleados/hooks/useDataEmpleado.jsx:241 | As written: reading the record out of a `null` update reply throws. Otherwise it is `cliente`, else `data`, else the reply itself. |
| `ApiClient.UpdatedRecord` | Registro-de-Clientes/src/hooks/useDataCliente.jsx:129 | Corrected: the `data.cliente` envelope is also looked into. A reply without that envelope is read exactly as written. |
| `ApiClient.CreatedRecordAsWritten` | Registro-de-Clientes/src/hooks/useDataCliente.jsx:194 | As written: the created record is `data`, else the reply itself. A `null` reply throws. |
| `ApiClient.CreatedRecord` | Registro-de-Clientes/src/hooks/useDataCliente.jsx:194 | Corrected: `data.cliente` is looked into first. A reply without it is read exactly as written. |
| `EmpleadoHook.Normalize` | Registro-de-Clientes/src/hooks/Empleados/hooks/useDataEmpleado.jsx:77-90 | Every other field is kept. The four text fields default to "" and `fechaPedido` to `null`. `_id` is always truthy: the record's `_id`, else its `id`, else `temp-<index>`. |
| `EmpleadoHook.NormalizeIdempotent` | Registro-de-Clientes/src/hooks/Empleados/hooks/useDataEmpleado.jsx:80-89 | Normalising a normalised record again, at any index, changes nothing. |
| `EmpleadoHook.FetchClientes` | Registro-de-Clientes/src/hooks/Empleados/hooks/useDataEmpleado.jsx:28-114 | Loading always ends. Success replaces the list with the normalised records and clears the error. Failure empties the list and sets the error. Nothing else in the state changes: the selection, the search and the flags keep their values. |
| `EmpleadoHook.FilterClientes` | Registro-de-Clientes/src/hooks/Empleados/hooks/useDataEmpleado.jsx:122-127 | Exactly the records whose name, product, phone or address contain the search term, ignoring case, each as often as in the list. |
| `EmpleadoHook.ConfirmDelete` | Registro-de-Clientes/src/hooks/Empleados/hooks/useDataEmpleado.jsx:152-174 | With no selection, or a failed request, only the error is set. After a successful delete, no record with the selected `_id` remains, every other record stays in order and as often as before, the selection, detail view and confirmation close, and the delete success alert shows; nothing else changes. |
| `EmpleadoHook.DeleteWithoutSelectionIgnoresReply` | Registro-de-Clientes/src/hooks/Empleados/hooks/useDataEmpleado.jsx:152-156 | Without a selection the id read throws before any request, so the server's answer cannot matter. |
| `EmpleadoHook.SelectCliente` | Registro-de-Clientes/src/hooks/Empleados/hooks/useDataEmpleado.jsx:329-341 | A record with a truthy `_id` becomes the selection and opens the detail view. Anything else only sets the error. |
| `EmpleadoHook.SelectThenDeleteRemovesIt` | Registro-de-Clientes/src/hooks/Empleados/hooks/useDataEmpleado.jsx:152-174 | Selecting a record with a truthy `_id` and then confirming the delete with a successful reply removes every record with that `_id` from the list, and the selection and detail view close. |
| `EmpleadoHook.Overlay` | Registro-de-Clientes/src/hooks/Empleados/hooks/useDataEmpleado.jsx:199-203 | The optimistic record has every key of either record, the changed values, and the original `_id`. |
| `EmpleadoHook.BeginEdit` | Registro-de-Clientes/src/hooks/Empleados/hooks/useDataEmpleado.jsx:181-223 | With no selection, or a selection without a truthy `_id`, only the matching error is set. Otherwise the selection and exactly the entries with its `_id` show the optimistic record, the modal closes and saving starts. Nothing else changes. |
| `EmpleadoHook.SaveErrorMessage` | Registro-de-Clientes/src/hooks/Empleados/hooks/useDataEmpleado.jsx:295-303 | A missing response gives the "not saved" connection text. An exception gives its own message. |
| `EmpleadoHook.Reconciled` | Registro-de-Clientes/src/hooks/Empleados/hooks/useDataEmpleado.jsx:241-247 | The server's fields override the optimistic record, and the original `_id` is kept. |
| `EmpleadoHook.SettleEdit` | Registro-de-Clientes/src/hooks/Empleados/hooks/useDataEmpleado.jsx:225-312 | The saved record is read as written at line 241. A failure, or a `null` reply, rolls the selection and the edited entries back to the original record, shows the error and reopens the modal. A success writes the reconciled record back only if it differs from the optimistic one and shows the edit success alert; apart from the list and the selection nothing else changes. Saving ends either way. |
| `EmpleadoHook.SettleEditCorrected` | Registro-de-Clientes/src/hooks/Empleados/hooks/useDataEmpleado.jsx:225-312 | The same settlement with the saved record read from inside `data.cliente` (`ApiClient.UpdatedRecord`): the same rollback, and the same write-back of the reconciled record, with the same success alert and nothing else changed. |
| `EmpleadoHook.SaveEdit` | Registro-de-Clientes/src/hooks/Empleados/hooks/useDataEmpleado.jsx:181-313 | A save that starts always ends with saving off. A save refused before the request leaves only the error. |
| `EmpleadoHook.ConditionalWriteBackIsUnconditional` | Registro-de-Clientes/src/hooks/Empleados/hooks/useDataEmpleado.jsx:251-268 | Skipping the write-back when nothing differs has the same effect as always writing the reconciled record over the original list. |
| `EmpleadoHook.RollbackRestores` | Registro-de-Clientes/src/hooks/Empleados/hooks/useDataEmpleado.jsx:282-293 | After a failed save the list and the selection are exactly as before the edit, whenever the list agreed with the selection. |
| `Search.FilterBy` | Registro-de-Clientes/src/hooks/Empleados/hooks/useDataEmpleado.jsx:122-127 | The kept records are exactly those whose lower-cased, space-joined fields contain the lower-cased term, each as often as in the input. |
| `Search.FilterByPreservesOrder` | Registro-de-Clientes/src/hooks/Empleados/hooks/useDataEmpleado.jsx:122-127 | The search keeps the records' relative order. |
| `Search.EmptyTermKeepsAll` | Registro-de-Clientes/src/hooks/Empleados/hooks/useDataEmpleado.jsx:122-127 | An empty search box shows the whole list, unchanged. |
| `Search.TermCaseIgnored` | Registro-de-Clientes/src/hooks/Empleados/hooks/useDataEmpleado.jsx:126 | The case of the search term does not matter. |
| `ClienteHook.WithAliases` | Registro-de-Clientes/src/hooks/useDataCliente.jsx:195-206 | Each English alias is the first truthy of its Spanish source and itself, else its default. Every other field is kept. |
| `ClienteHook.NormalizeListed` | Registro-de-Clientes/src/hooks/useDataCliente.jsx:66-80 | The aliases, with the misspelt `firtsName` accepted, plus a truthy `_id` taken from `_id`, `id` or the index. All other fields are kept. |
| `ClienteHook.ListedAliases` | Registro-de-Clientes/src/hooks/useDataCliente.jsx:69-78 | The aliases of a loaded record in terms of its fields: `firstName` from `nombre`, `phone` from `telefono`, `address` from `dirrecion`, `birthDate` from `fechaPedido`, and so on. |
| `ClienteHook.NormalizeListedIdempotent` | Registro-de-Clientes/src/hooks/useDataCliente.jsx:66-80 | Normalising a loaded record again, at any index, changes nothing. |
| `ClienteHook.FetchClients` | Registro-de-Clientes/src/hooks/useDataCliente.jsx:27-100 | Same envelope and error handling as the other hook, with this hook's normalisation. Loading always ends, and only the list and the error change. |
| `ClienteHook.CallError` | Registro-de-Clientes/src/hooks/useDataCliente.jsx:166-169 | The error a failed call returns is the server's truthy `message`, else the call's default text. |
| `ClienteHook.UpdatePayload` | Registro-de-Clientes/src/hooks/useDataCliente.jsx:108-115 | The update body holds exactly the truthy ones of the six editable fields, unchanged. |
| `ClienteHook.NormalizeUpdated` | Registro-de-Clientes/src/hooks/useDataCliente.jsx:132-144 | The saved record gets the aliases, and its `_id` falls back to the id the call was made with. |
| `ClienteHook.UpdateClient` | Registro-de-Clientes/src/hooks/useDataCliente.jsx:103-171 | The saved record is read as written at line 129. On success, exactly the entries with that `_id`, and the selection when it is that record, become that record normalised, which is returned. On failure nothing changes and the error is returned. |
| `ClienteHook.UpdateClientCorrected` | Registro-de-Clientes/src/hooks/useDataCliente.jsx:103-171 | The same update with the saved record read from inside `data.cliente` (`ApiClient.UpdatedRecord`). |
| `ClienteHook.AddPayload` | Registro-de-Clientes/src/hooks/useDataCliente.jsx:178-185 | The creation body always has the six fields, each from its Spanish or English source, and its `estado` is never falsy. |
| `ClienteHook.AddClient` | Registro-de-Clientes/src/hooks/useDataCliente.jsx:174-218 | The created record is read as written at line 194. On success exactly one record, that record normalised, is appended and returned. On failure nothing changes. |
| `ClienteHook.AddClientCorrected` | Registro-de-Clientes/src/hooks/useDataCliente.jsx:174-218 | The same creation with the created record read from inside `data.cliente` (`ApiClient.CreatedRecord`). |
| `ClienteHook.DeleteClient` | Registro-de-Clientes/src/hooks/useDataCliente.jsx:221-243 | On success no entry with that id remains, and the others keep their order and their number of occurrences. The selection closes only when it was the deleted record. Nothing but the list, the selection and the detail view changes. On failure nothing changes. |
| `ClienteHook.FilteredClients` | Registro-de-Clientes/src/hooks/useDataCliente.jsx:246-251 | Exactly the records whose seven search fields contain the term, ignoring case, each as often as in the list. |
| `ClienteHook.UpdateKeepsSelectionListed` | Registro-de-Clientes/src/hooks/useDataCliente.jsx:149-159 | An update keeps the selection one of the listed records. |
| `ClienteHook.AddKeepsSelectionListed` | Registro-de-Clientes/src/hooks/useDataCliente.jsx:208 | An add keeps the selection one of the listed records. |
| `ClienteHook.DeleteKeepsSelectionListed` | Registro-de-Clientes/src/hooks/useDataCliente.jsx:227-232 | A delete keeps the selection one of the listed records, clearing it when its record goes. |
| `ClienteHook.DeleteAbsentIdKeepsList` | Registro-de-Clientes/src/hooks/useDataCliente.jsx:227 | Deleting an id no listed record carries leaves the list as it was. |
| `ClientList.SortedClientes` | Registro-de-Clientes/src/Pages/Clientes.jsx:58-68 | The result is a permutation of the filtered list. "Newest" puts order dates descending, "Oldest" ascending, and any other choice keeps the list. |
| `ClientList.OldestIsStable` | Registro-de-Clientes/src/Pages/Clientes.jsx:63-64 | Records with equal order dates keep their relative order under "Oldest". |
| `ClientList.NewestIsStable` | Registro-de-Clientes/src/Pages/Clientes.jsx:61-62 | Records with equal order dates keep their relative order under "Newest". |
| `ClientList.TotalPages` | Registro-de-Clientes/src/Pages/Clientes.jsx:79 | The page count is the least number of eight-row pages that holds every match. It is zero only when there are none. |
| `ClientList.PageItems` | Registro-de-Clientes/src/Pages/Clientes.jsx:71-76 | Page `p` shows rows `8(p-1)` onwards, at most eight: eight on a full page, the remainder on the last, none past the end. |
| `ClientList.VisibleRows` | Registro-de-Clientes/src/Pages/Clientes.jsx:58-76 | At most eight rows are shown, each one of the hook's records and each matching the search. |
| `ClientList.PagesUpToPrefix` | Registro-de-Clientes/src/Pages/Clientes.jsx:71-76 | The first `n` pages together are exactly the first `8n` rows. |
| `ClientList.PagesCoverAll` | Registro-de-Clientes/src/Pages/Clientes.jsx:71-79 | Pages 1 to `totalPages` together are the whole sorted list: each row is shown exactly once. |
| `ClientList.RowOnOnePage` | Registro-de-Clientes/src/Pages/Clientes.jsx:71-76 | Row `i` appears on page `i/8+1`, at position `i%8`, and on no other page. |
| `ClientList.AcceptedPageIsNotEmpty` | Registro-de-Clientes/src/Pages/Clientes.jsx:79-86 | Every page the page change accepts has rows to show. |
| `ClientList.ChangePage` | Registro-de-Clientes/src/Pages/Clientes.jsx:82-86 | A request within 1..totalPages is taken. Any other request leaves the current page alone. |
| `ClientList.PageRun` | Registro-de-Clientes/src/Pages/Clientes.jsx:94-96 | The consecutive pages from `lo` to `hi`, empty when `hi < lo`. |
| `ClientList.PageNumbers` | Registro-de-Clientes/src/Pages/Clientes.jsx:89-122 | With at most five pages, all are listed. Otherwise 6 or 7 links run from the first page to the last, strictly increasing and within range, with a marker exactly where pages are skipped. The current page and its neighbours are always shown, and the strip has seven links exactly when the current page is strictly inside 4..totalPages-3. |
| `ClientList.StripNearStart` | Registro-de-Clientes/src/Pages/Clientes.jsx:98-103 | The strip for a current page up to 3 is well formed and shows the current page and its neighbours. |
| `ClientList.StripNearEnd` | Registro-de-Clientes/src/Pages/Clientes.jsx:104-109 | The strip for a current page near the end is well formed and shows the current page and its neighbours. |
| `ClientList.StripInMiddle` | Registro-de-Clientes/src/Pages/Clientes.jsx:110-118 | The strip for a middle page is well formed and shows the current page and its neighbours. |
| `ClientList.SetSearchTerm` | Registro-de-Clientes/src/Pages/Clientes.jsx:124-127 | A new search term sends the list to page 1. Retyping the same term keeps the page. |
| `ClientList.SetSortBy` | Registro-de-Clientes/src/Pages/Clientes.jsx:124-127 | A new order sends the list to page 1. Choosing the same order keeps the page. |
| `ClientList.GoToPage` | Registro-de-Clientes/src/Pages/Clientes.jsx:82-86 | Clicking a page link applies the guarded change against the current matches' page count. The search and the order stay. |
| `ClientList.CurrentPageStaysPositive` | Registro-de-Clientes/src/Pages/Clientes.jsx:82-127 | No transition moves the current page below 1. |
| `ClientList.NewSearchShowsFirstPage` | Registro-de-Clientes/src/Pages/Clientes.jsx:124-127 | After a new search the first eight matches are shown, whatever page was shown before. |
| `RegistrationForm.ValidateForm` | Registro-de-Clientes/src/Pages/RegistroClientes.jsx:33-57 | An entry exists exactly for each missing field, and holds that field's message. A text is missing when blank; the date only when empty. |
| `RegistrationForm.ErrorFields` | Registro-de-Clientes/src/Pages/RegistroClientes.jsx:103-112 | The fields with an entry, each once. |
| `RegistrationForm.FormatPhone` | Registro-de-Clientes/src/Pages/RegistroClientes.jsx:63-74 | Fewer than four digits are kept as they are. From four on, the result is the first four digits, a hyphen, and at most four more. It is at most nine characters. |
| `RegistrationForm.FormatPhoneKeepsDigits` | Registro-de-Clientes/src/Pages/RegistroClientes.jsx:67-73 | A formatted phone's digits are the first eight digits typed. |
| `RegistrationForm.FormatPhoneIdempotent` | Registro-de-Clientes/src/Pages/RegistroClientes.jsx:63-74 | Formatting a formatted phone changes nothing. |
| `RegistrationForm.HandleInputChange` | Registro-de-Clientes/src/Pages/RegistroClientes.jsx:60-88 | Only the edited field changes, formatted if it is the phone. Its error entry is blanked and the other entries are kept. |
| `RegistrationForm.Payload` | Registro-de-Clientes/src/Pages/RegistroClientes.jsx:124-131 | The body has exactly the five fields and `estado`, which is "pendiente". |
| `RegistrationForm.PayloadCarriesForm` | Registro-de-Clientes/src/Pages/RegistroClientes.jsx:124-131 | Each field travels under its own key, trimmed unless it is the date. |
| `RegistrationForm.Submit` | Registro-de-Clientes/src/Pages/RegistroClientes.jsx:91-131 | A submit is refused exactly when some field is missing; the alert then lists the missing fields' labels in validation order. Otherwise the payload is sent and loading starts. The new entries replace the shown ones either way, and nothing else in the page state changes. |
| `RegistrationForm.SomeErrorIffMissing` | Registro-de-Clientes/src/Pages/RegistroClientes.jsx:96-100 | Validation reports something exactly when a field is missing. |
| `RegistrationForm.ServerMessage` | Registro-de-Clientes/src/Pages/RegistroClientes.jsx:174 | The server's `message`, else its `error`, else "Error del servidor". |
| `RegistrationForm.SubmitErrorMessage` | Registro-de-Clientes/src/Pages/RegistroClientes.jsx:170-199 | 400 shows the server's message, and 401, 404 and 500 show fixed texts. Other statuses show the status and the message. No response and setup errors have texts of their own. |
| `RegistrationForm.OtherStatusIsNamed` | Registro-de-Clientes/src/Pages/RegistroClientes.jsx:170-199 | For an HTTP error whose status is not 400, 401, 404 or 500, the alert text contains the status written in decimal. |
| `RegistrationForm.Settle` | Registro-de-Clientes/src/Pages/RegistroClientes.jsx:148-206 | A 200 or 201 reply empties the form and the entries and announces the creation. Another success status changes nothing. A failure keeps the form and shows why. Loading ends every time. |
| `RegistrationForm.ResetFormIsRefused` | Registro-de-Clientes/src/Pages/RegistroClientes.jsx:155-163 | The emptied form refuses to submit and lists all five fields in order. |
| `RegistrationForm.EmptyFormLacksAll` | Registro-de-Clientes/src/Pages/RegistroClientes.jsx:33-57 | Every field of the empty form has an entry, and they come in validation order. |
| `RegistrationForm.SentFieldsAreFilled` | Registro-de-Clientes/src/Pages/RegistroClientes.jsx:124-131 | A sent request carries no blank field, and its texts have no surrounding white space. |
| `EditModal.DateForInput` | Registro-de-Clientes/src/hooks/Empleados/EditEmployeeModal.jsx:19-28 | A falsy or missing date fills the input with "". |
| `EditModal.Load` | Registro-de-Clientes/src/hooks/Empleados/EditEmployeeModal.jsx:30-36 | The form has exactly the five inputs. Each text is the record's truthy value, else "", and the date is the formatted date. |
| `EditModal.Opened` | Registro-de-Clientes/src/hooks/Empleados/EditEmployeeModal.jsx:14-46 | The form is reloaded only while the dialog is open with a record. Otherwise it is left alone. |
| `EditModal.HandleInputChange` | Registro-de-Clientes/src/hooks/Empleados/EditEmployeeModal.jsx:73-79 | The named input takes the typed text, and every other input keeps its value. |
| `EditModal.RetypingRestores` | Registro-de-Clientes/src/hooks/Empleados/EditEmployeeModal.jsx:73-79 | Typing an input's old text back restores the form exactly. |
| `EditModal.EditsCommute` | Registro-de-Clientes/src/hooks/Empleados/EditEmployeeModal.jsx:73-79 | Edits to two different inputs give the same form in either order. |
| `EditModal.FirstUntrimmable` | Registro-de-Clientes/src/hooks/Empleados/EditEmployeeModal.jsx:91-106 | Finds a truthy non-string text input, on which `trim` throws, exactly when there is one. |
| `EditModal.TextPayload` | Registro-de-Clientes/src/hooks/Empleados/EditEmployeeModal.jsx:91-106 | Exactly the non-blank text inputs are sent, trimmed. |
| `EditModal.Body` | Registro-de-Clientes/src/hooks/Empleados/EditEmployeeModal.jsx:88-112 | The body holds the sent texts, plus the converted date when there is one. |
| `EditModal.SentDate` | Registro-de-Clientes/src/hooks/Empleados/EditEmployeeModal.jsx:107-112 | A date is sent exactly when the input is filled. Its conversion fails exactly when the filled date is invalid. |
| `EditModal.HandleSave` | Registro-de-Clientes/src/hooks/Empleados/EditEmployeeModal.jsx:82-126 | Saving throws exactly when a text has no `trim` or the date is invalid. It says "no changes" exactly when no text is sent and the date is empty. Otherwise `onSave` gets a non-empty body. |
| `EditModal.BlankIsNeverSent` | Registro-de-Clientes/src/hooks/Empleados/EditEmployeeModal.jsx:91-106 | A blank text input never reaches the body. |
| `EditModal.TextPayloadIsStable` | Registro-de-Clientes/src/hooks/Empleados/EditEmployeeModal.jsx:91-106 | Building the text body from a body already built changes nothing. |
| `EditModal.LoadThenSaveSendsRecordTexts` | Registro-de-Clientes/src/hooks/Empleados/EditEmployeeModal.jsx:30-106 | Opening a record and saving unedited sends exactly the record's own non-blank texts. The "" put in place of a missing value is never sent. |
| `EditModal.TextPayloadCongruent` | Registro-de-Clientes/src/hooks/Empleados/EditEmployeeModal.jsx:91-106 | Two forms that send the same texts send the same text body. |
| `EditModal.LoadedNonStringCrashes` | Registro-de-Clientes/src/hooks/Empleados/EditEmployeeModal.jsx:30-92 | A record with a truthy non-string text field cannot be saved unedited: the handler throws. |
| `ClienteController.DigitValue` | backend/src/controller/clienteController.js:69-70 | A character's digit value: below 10 exactly for an ASCII digit. |
| `ClienteController.ParamOr` | backend/src/controller/clienteController.js:69-70 | A parameter that reads as NaN or 0 gives the default. Otherwise it gives the number read. |
| `ClienteController.ParseIntReadsDecimal` | backend/src/controller/clienteController.js:69-70 | `parseInt` reads back every integer written in decimal. |
| `ClienteController.ParseIntIgnoresTrailing` | backend/src/controller/clienteController.js:69-70 | Text after the leading digits is ignored: any integer written in decimal and followed by text that does not start with a digit reads back as that integer (for 0, the text must not start with `x` or `X`, which would make a hexadecimal prefix). |
| `ClienteController.ParseIntReadsHex` | backend/src/controller/clienteController.js:69-70 | A `0x` prefix reads base 16: "0x1A" is 26. |
| `ClienteController.ParseIntRefuses` | backend/src/controller/clienteController.js:69-70 | A bare "0x", or text without a leading digit, is NaN. |
| `ClienteController.FirstNonString` | backend/src/controller/clienteController.js:34-39 | Finds the first field that would be trimmed but is not a string, exactly when one exists. |
| `ClienteController.NewDoc` | backend/src/controller/clienteController.js:33-40 | The new document has the new id, the texts trimmed and the cast date, and nothing else. |
| `ClienteController.Create` | backend/src/controller/clienteController.js:19-60 | 400 exactly when a required field is falsy. 201 exactly when all are present, the texts are strings and the date casts; the document is then stored under the new id and returned. Anything else is 500. The store changes only on 201. |
| `ClienteController.BlankFieldIsStoredEmpty` | backend/src/controller/clienteController.js:24-34 | The presence check runs before trimming, so an all-space name is accepted and stored as "". |
| `ClienteController.CeilDiv` | backend/src/controller/clienteController.js:108 | `Math.ceil(n / d)`: the least number of pages of size `d` that hold `n`. |
| `ClienteController.Window` | backend/src/controller/clienteController.js:83-87 | `skip`/`limit`: at most `limit` documents from index `skip` on, in collection order. |
| `ClienteController.ListPage` | backend/src/controller/clienteController.js:82-124 | The page is the window at `(page-1)*limit`. An empty window reports zero totals and no flags. Otherwise the totals are the collection size and its page count, with `hasNextPage` and `hasPrevPage`. |
| `ClienteController.List` | backend/src/controller/clienteController.js:66-132 | Missing, NaN or 0 parameters fall back to page 1 and size 50. A page below 1 or a size outside 1..100 is refused with 400. Anything else is served. |
| `ClienteController.HasNextMeansMoreDocs` | backend/src/controller/clienteController.js:108-120 | On a non-empty page, `hasNextPage` holds exactly when documents remain after it. |
| `ClienteController.DocumentIsListedOnItsPage` | backend/src/controller/clienteController.js:69-89 | The pages partition the collection: document `j` is listed on page `j/limit+1` at position `j%limit`. |
| `ClienteController.ListByNumber` | backend/src/controller/clienteController.js:69-80 | Asking for a valid page and size by their decimal numbers serves exactly that page. |
| `ClienteController.PageHolds` | backend/src/controller/clienteController.js:83-87 | Position `i` of page `p` is document `(p-1)*limit+i`. |
| `ClienteController.PastTheEndReportsNone` | backend/src/controller/clienteController.js:91-105 | Past the last page the summary reports zero documents, however many exist. |
| `ClienteController.GetById` | backend/src/controller/clienteController.js:138-169 | 400 exactly for a malformed id, 404 exactly for an unknown one, and otherwise 200 with the stored document. |
| `ClienteController.FirstPutThrow` | backend/src/controller/clienteController.js:221-226 | Finds a field the update would set but cannot trim, exactly when there is one. |
| `ClienteController.Changes` | backend/src/controller/clienteController.js:216-226 | Names, product and phone are written when truthy; address and status whenever present, even as "". The date is written when given. Texts are trimmed, and no other field is written. |
| `ClienteController.PutDate` | backend/src/controller/clienteController.js:223 | A date is written exactly when the body's date is truthy. The cast may fail. |
| `ClienteController.Put` | backend/src/controller/clienteController.js:193-249 | 400 for a malformed id and 404 for an unknown one. 500 when a set field cannot be trimmed or the date cannot be cast. Otherwise the changes are merged into the document and returned with 200. The store changes only on 200. |
| `ClienteController.PutTouchesOnlyItsFields` | backend/src/controller/clienteController.js:216-233 | An update leaves every field it does not set, `_id` included, and every other document as it was. |
| `ClienteController.EmptyPutChangesNothing` | backend/src/controller/clienteController.js:216-233 | An update with an empty body returns the document unchanged and leaves the store as it was. |
| `ClienteController.PutIsIdempotent` | backend/src/controller/clienteController.js:216-233 | Sending the same update twice has the effect of sending it once. |
| `ClienteController.Delete` | backend/src/controller/clienteController.js:255-289 | 400 for a malformed id and 404 for an unknown one, leaving the store. Otherwise exactly that document is removed and its id, name and product are reported. |
| `ClienteController.CreateKeepsWellKeyed` | backend/src/controller/clienteController.js:33-43 | After a creation every stored document still holds its own id. |
| `ClienteController.PutKeepsWellKeyed` | backend/src/controller/clienteController.js:216-233 | After an update every stored document still holds its own id. |
| `ClienteController.DeleteKeepsWellKeyed` | backend/src/controller/clienteController.js:269 | After a deletion every stored document still holds its own id. |
| `ClienteController.DeleteReportsId` | backend/src/controller/clienteController.js:279-289 | A successful deletion reports the id it removed. |
| `ClienteController.CreatedIsFound` | backend/src/controller/clienteController.js:138-169 | A created document is found under its new id. |
| `ClienteController.DeletedIsGone` | backend/src/controller/clienteController.js:269-277 | A deleted document is no longer found, and every other one still is. |
| `Wire.ListReplyEnvelope` | Registro-de-Clientes/src/hooks/Empleados/hooks/useDataEmpleado.jsx:50-53 | The hooks find the controller's list reply under `data.clientes`. |
| `Wire.ServedPageLoads` | Registro-de-Clientes/src/hooks/Empleados/hooks/useDataEmpleado.jsx:41-93 | Every page the controller serves loads in the browser as exactly its documents, each normalised with its index. |
| `Wire.SubmittedFormIsStored` | backend/src/controller/clienteController.js:21-43 | Every request the registration page sends is created with 201 when its `fechaPedido` casts to a date (`toDate` succeeds), and the stored texts are the ones the page sent. |
| `Wire.SentBodyPassesChecks` | backend/src/controller/clienteController.js:24-30 | The registration body has every required field, as a non-empty string. |
| `Wire.UpdateReplyAsWrittenKeepsWrapper` | Registro-de-Clientes/src/hooks/Empleados/hooks/useDataEmpleado.jsx:241-247 | As written, the record taken from the controller's update reply is the wrapper `{cliente: ...}`: its only key is `cliente`. |
| `Wire.UpdateReplyIsUnwrapped` | Registro-de-Clientes/src/hooks/useDataCliente.jsx:129 | The corrected unwrapping yields the updated document itself. |
| `Wire.CreateReplyAsWrittenKeepsWrapper` | Registro-de-Clientes/src/hooks/useDataCliente.jsx:194-206 | As written, the record taken from the controller's creation reply is the wrapper `{cliente: ...}`. |
| `Wire.CreateReplyIsUnwrapped` | Registro-de-Clientes/src/hooks/useDataCliente.jsx:194 | The corrected unwrapping yields the created document itself. |
| `Wire.EditAsWrittenAddsWrapperField` | Registro-de-Clientes/src/hooks/Empleados/hooks/useDataEmpleado.jsx:241-247 | As written, saving an edit against the controller's update reply leaves the optimistic record with an added `cliente` field. None of the saved document's values replaces a field. |
| `Wire.EditCorrectedMergesDocument` | Registro-de-Clientes/src/hooks/Empleados/hooks/useDataEmpleado.jsx:243-247 | With the corrected unwrap, every field of the saved document except `_id` lands in the selected record. |
| `Wire.UpdateAsWrittenBlanksRecord` | Registro-de-Clientes/src/hooks/useDataCliente.jsx:129-151 | As written, `updateClient` against the controller's reply replaces the listed record with one whose aliases are all defaults (`""`, `null`, `"pendiente"`), under the updated id. |
| `Wire.UpdateCorrectedKeepsDocument` | Registro-de-Clientes/src/hooks/useDataCliente.jsx:129-142 | With the corrected unwrap, the returned record is the saved document, normalised. |
| `Wire.AddAsWrittenAppendsBlank` | Registro-de-Clientes/src/hooks/useDataCliente.jsx:194-208 | As written, `addClient` against the controller's reply appends a record without `_id` whose aliases are all defaults. |
| `Wire.AddCorrectedAppendsDocument` | Registro-de-Clientes/src/hooks/useDataCliente.jsx:194-208 | With the corrected unwrap, the appended record is the created document with its aliases, and it keeps the document's `_id`. |
| `Wire.WrapperAliasesAreDefaults` | Registro-de-Clientes/src/hooks/useDataCliente.jsx:195-206 | A record holding only the `cliente` wrapper gets every alias at its default. |

## Left out

- The database, the network and Express. The collection is a map from id to document, and the list receives it already in `createdAt`-descending order. `save`, `findById`, `findByIdAndUpdate` and `findByIdAndDelete` are map operations.
- Mongoose schema validation (`runValidators`), timestamps and `__v`: the schema is not part of this model.
- Replies caused by a database failure: the 500s of the list, lookup and delete handlers, and the 500 of create and update beyond the `trim` and date-cast failures modelled.
- The `CastError` branch of `getClienteById` (clienteController.js:173-179): the id has already passed the validity check there. `mongoose.Types.ObjectId.isValid` is the parameter `validId`.
- Dates. `new Date(...)`, `toISOString`, the subtraction in the sort comparators and the `RangeError` of an invalid date are the parameters `toDate`, `dateOf`, `formatDate` and `toIso`.
- `ClientList.SortedClientes`: the order is modelled only for records whose order date parses. `dateOf` gives every record an integer key. In the page (Clientes.jsx:62-64), a record with neither `fechaPedido` nor `createdAt`, or one whose date does not parse, yields `NaN`. `EmpleadoHook.Normalize` can produce such a record, since it sets `fechaPedido` to `null`. The comparator then returns `NaN`, which counts as 0 and makes the comparator inconsistent, so the order JavaScript produces is implementation-defined. That case is not modelled.
- Query parameters given more than once (arrays), and numbers beyond `parseInt`'s 53-bit precision: numbers are unbounded integers, with no floating point.
- `ClienteController.TrimError`: the exact V8 wording of the `TypeError` for `trim` on a non-string is approximated.
- React rendering, the components, SweetAlert and `alert` dialogs, `console` output, navigation (`handleContinue`, `handleBackToMenu`), `useEffect` scheduling, and the three-second `setTimeout` that hides the success alert. Effects are explicit transitions: `EditModal.Opened`, `ClientList.SetSearchTerm`, `ClientList.SetSortBy`.
- The one-line alert toggles of the hooks (`handleOptionsClick`, `handleEdit`, `handleDelete`, `cancelDelete`, `close*`), `refresh*`, `clearSearch` and `getStats`: they set a flag or call a modelled operation.
- The `Array.isArray(prev)` fallbacks in the hooks: list state is a sequence in the model, so the non-array branches cannot arise.
- `sortedClients` of `useDataCliente.jsx` (lines 254-267): it orders by `localeCompare` and by the date inside an ObjectId, and no page in this model reads it. The hook's list is modelled in the order it was loaded.
- The second effect of the edit dialog (EditEmployeeModal.jsx:49-71): it performs the same load as the first under an extra `!uploading` guard, so `EditModal.Load` covers it.
- `toLowerCase` covers Basic Latin and Latin-1 only, which is enough for Spanish text. Full Unicode case mapping is not modelled.
- Strings are sequences of Unicode code points, not of UTF-16 code units as in JavaScript. Lengths and the index keys of a spread string (`JsValue.Spread`, `JsValue.SpreadIndexes`) therefore differ from JavaScript's only for characters outside the Basic Multilingual Plane, which JavaScript counts as two units (two keys, each holding a lone surrogate).
- `ClientList.VisibleRows`: states only that the rows come from the hook's list and match the search. Their order and the cut to a page are stated by `ClientList.SortedClientes` and `ClientList.PageItems`.
- `EmpleadoHook.SaveEdit`: states only that the saving indicator ends off and the refusals. The full behaviour of the two halves is stated by `EmpleadoHook.BeginEdit` and `EmpleadoHook.SettleEdit`.
- `EmpleadoHook.SaveErrorMessage`: the text for an HTTP error is not stated in the contract, only computed.

## Findings

The hook transitions `EmpleadoHook.SettleEdit` (and so `EmpleadoHook.SaveEdit`),
`ClienteHook.UpdateClient` and `ClienteHook.AddClient` read the replies as
written. Each has a twin ending in `Corrected` that reads them with the
corrected unwrap, and `Wire` states what both make of the controller's
actual replies.

| source | as written | input that shows it | evidently intended | confidence | as-written member | corrected member |
|---|---|---|---|---|---|---|
| Registro-de-Clientes/src/hooks/Empleados/hooks/useDataEmpleado.jsx:241 | the saved record is `response.data.cliente`, else `response.data.data`, else `response.data` (the same expression is at useDataCliente.jsx:129) | the controller's 200 update reply `{success, message, data: {cliente: doc}}` yields `{cliente: doc}`, a record with no `_id`, `nombre` or other field of `doc`. In `updateClient` the list entry then becomes a record of empty aliases under the old id. | the document inside `data.cliente` | high; not executed | `ApiClient.UpdatedRecordAsWritten`, `EmpleadoHook.SettleEdit`, `ClienteHook.UpdateClient`, `Wire.UpdateReplyAsWrittenKeepsWrapper`, `Wire.EditAsWrittenAddsWrapperField`, `Wire.UpdateAsWrittenBlanksRecord` | `ApiClient.UpdatedRecord`, `EmpleadoHook.SettleEditCorrected`, `ClienteHook.UpdateClientCorrected`, `Wire.UpdateReplyIsUnwrapped`, `Wire.EditCorrectedMergesDocument`, `Wire.UpdateCorrectedKeepsDocument` |
| Registro-de-Clientes/src/hooks/useDataCliente.jsx:194 | the created record is `response.data.data`, else `response.data` | the controller's 201 reply `{success, message, data: {cliente: doc}}` yields `{cliente: doc}`. The appended record has empty aliases and no `_id`. | the document inside `data.cliente` | high; not executed | `ApiClient.CreatedRecordAsWritten`, `ClienteHook.AddClient`, `Wire.CreateReplyAsWrittenKeepsWrapper`, `Wire.AddAsWrittenAppendsBlank` | `ApiClient.CreatedRecord`, `ClienteHook.AddClientCorrected`, `Wire.CreateReplyIsUnwrapped`, `Wire.AddCorrectedAppendsDocument` |

=== FILE: api_client.dfy ===
/**
  What both client-state hooks do with the replies of the REST API: the
  outcome of an HTTP call, the choice among the four list-envelope
  shapes, the error text a failed list fetch shows, and the extraction of
  the saved record from the reply to an update or a creation.
*/
module ApiClient {
  import opened Results
  import opened JsValue
  import JsText

  /** Why an HTTP call (or the code handling its reply) failed. */
  datatype Failure =
    | HttpError(status: int, data: Json)         // a reply arrived with a status outside 2xx
    | NoResponse(code: string, message: string)  // the request went out and nothing came back
    | Thrown(message: string)                    // an exception raised by the caller's own code
  {
    /** `error.message`. */
    function Message(): string {
      match this
      case HttpError(status, _) => "Request failed with status code " + JsText.IntToString(status)
      case NoResponse(_, m) => m
      case Thrown(m) => m
    }

    /** `error.code` ("" when the error carries none). */
    function Code(): string {
      match this
      case HttpError(status, _) => if status >= 500 then "ERR_BAD_RESPONSE" else "ERR_BAD_REQUEST"
      case NoResponse(c, _) => c
      case Thrown(_) => ""
    }
  }

  /** The settled result of an HTTP call: a 2xx reply, or a failure. */
  datatype Reply = Received(status: int, data: Json) | Failed(failure: Failure)

  /** The error raised when the list reply has none of the known shapes. */
  const BadEnvelope := "Formato de datos no válido"

  /** The TypeError raised by reading property `k` of `null`. */
  function NullRead(k: string): Failure {
    Thrown("Cannot read properties of null (reading '" + k + "')")
  }

  /** The array found by following `path` through nested objects, if there is one. */
  function ArrayAt(v: Json, path: seq<string>): Option<seq<Json>>
    decreases |path|
  {
    if path == [] then (if v.Arr? then Some(v.items) else None)
    else if v.Obj? && path[0] in v.fields then ArrayAt(v.fields[path[0]], path[1..])
    else None
  }

  /** Where a list of records may sit in a reply, in the order they are tried. */
  const EnvelopePaths: seq<seq<string>> := [[], ["data", "clientes"], ["clientes"], ["data"]]

  /**
    The record array of a list reply: the reply itself when it is an array,
    else `data.clientes`, else `clientes`, else `data` when that is an array;
    any other reply is refused.
  */
  function SelectEnvelope(body: Json): (r: Result<seq<Json>, string>)
    ensures r.Err? <==> forall k :: 0 <= k < |EnvelopePaths| ==> ArrayAt(body, EnvelopePaths[k]).None?
    ensures r.Err? ==> r.error == BadEnvelope
    ensures r.Ok? ==> exists k :: 0 <= k < |EnvelopePaths| && ArrayAt(body, EnvelopePaths[k]) == Some(r.value)
                        && forall j :: 0 <= j < k ==> ArrayAt(body, EnvelopePaths[j]).None?
  {
    EnvelopePathsUnfold(body);
    if body.Arr? then
      Ok(body.items)
    else if Truthy(body) && TruthyOpt(Prop(body, "data"))
            && OptProp(Prop(body, "data"), "clientes").Some?
            && OptProp(Prop(body, "data"), "clientes").value.Arr? then
      Ok(OptProp(Prop(body, "data"), "clientes").value.items)
    else if Truthy(body) && Prop(body, "clientes").Some? && Prop(body, "clientes").value.Arr? then
      Ok(Prop(body, "clientes").value.items)
    else if Truthy(body) && Prop(body, "data").Some? && Prop(body, "data").value.Arr? then
      Ok(Prop(body, "data").value.items)
    else
      Err(BadEnvelope)
  }

  lemma EnvelopePathsUnfold(body: Json)
    ensures ArrayAt(body, EnvelopePaths[0]) == if body.Arr? then Some(body.items) else None
    ensures ArrayAt(body, EnvelopePaths[1]) ==
      if body.Obj? && "data" in body.fields then ArrayAt(body.fields["data"], ["clientes"]) else None
    ensures ArrayAt(body, EnvelopePaths[2]) == ClientesArray(body)
    ensures body.Obj? && "data" in body.fields ==> ArrayAt(body.fields["data"], ["clientes"]) == ClientesArray(body.fields["data"])
    ensures ArrayAt(body, EnvelopePaths[3]) ==
      if body.Obj? && "data" in body.fields && body.fields["data"].Arr? then Some(body.fields["data"].items) else None
  {
    assert EnvelopePaths[1][1..] == ["clientes"];
    assert ["clientes"][1..] == [];
    assert EnvelopePaths[3][1..] == [];
  }

  function ClientesArray(v: Json): Option<seq<Json>> {
    if v.Obj? && "clientes" in v.fields && v.fields["clientes"].Arr? then Some(v.fields["clientes"].items) else None
  }

  /** A reply holding both `data.clientes` and `clientes` arrays is read from `data.clientes`. */
  lemma NestedEnvelopeWins(inner: seq<Json>, outer: seq<Json>, rest: map<string, Json>)
    ensures SelectEnvelope(Obj(rest["data" := Obj(map["clientes" := Arr(inner)])]["clientes" := Arr(outer)])) == Ok(inner)
  {
    var body := Obj(rest["data" := Obj(map["clientes" := Arr(inner)])]["clientes" := Arr(outer)]);
    assert Prop(body, "data") == Some(Obj(map["clientes" := Arr(inner)]));
  }

  /**
    `items.map((item, index) => normalize(item, index))`, where reading a
    field of a `null` element throws and fails the whole load.
  */
  function NormalizeItems(items: seq<Json>, normalize: (Record, nat) -> Record): (r: Result<seq<Record>, Failure>)
    ensures r.Err? <==> exists i :: 0 <= i < |items| && items[i].Null?
    ensures r.Err? ==> r.error == NullRead("nombre")
    ensures r.Ok? ==> |r.value| == |items| && forall i :: 0 <= i < |items| ==> r.value[i] == normalize(Spread(items[i]), i)
  {
    NormalizeFrom(items, 0, normalize)
  }

  function NormalizeFrom(items: seq<Json>, start: nat, normalize: (Record, nat) -> Record): (r: Result<seq<Record>, Failure>)
    requires start <= |items|
    ensures r.Err? <==> exists i :: start <= i < |items| && items[i].Null?
    ensures r.Err? ==> r.error == NullRead("nombre")
    ensures r.Ok? ==> |r.value| == |items| - start
                      && forall i :: start <= i < |items| ==> r.value[i - start] == normalize(Spread(items[i]), i)
    decreases |items| - start
  {
    if start == |items| then Ok([])
    else if items[start].Null? then Err(NullRead("nombre"))
    else match NormalizeFrom(items, start + 1, normalize)
      case Err(e) => Err(e)
      case Ok(rest) => Ok([normalize(Spread(items[start]), start)] + rest)
  }

  const ConnectionError := "No se puede conectar al servidor. " + "Verifica que esté ejecutándose en https://sistemaderegistro2.onrender.com"

  /** The error text both hooks show when loading the list fails. */
  function FetchErrorMessage(f: Failure): (m: string)
    ensures JsText.Contains(f.Message(), "Network") || f.Code() == "ERR_NETWORK" ==> m == ConnectionError
    ensures f.HttpError? ==> m == "Error del servidor: " + JsText.IntToString(f.status) + " - "
                                  + ToStr(Or(OptProp(Some(f.data), "message"), Str("Error desconocido")))
    ensures !f.HttpError? && !JsText.Contains(f.Message(), "Network") && f.Code() != "ERR_NETWORK" ==>
              m == "Error al cargar clientes: " + f.Message()
  {
    HttpErrorIsNotNetwork(f);
    if JsText.Contains(f.Message(), "Network") || f.Code() == "ERR_NETWORK" then
      ConnectionError
    else if f.HttpError? then
      "Error del servidor: " + JsText.IntToString(f.status) + " - "
        + ToStr(Or(OptProp(Some(f.data), "message"), Str("Error desconocido")))
    else
      "Error al cargar clientes: " + f.Message()
  }

  /**
    The whole list load both hooks perform: pick the envelope, normalise
    every record, and on any failure produce the message the page shows.
  */
  function LoadList(reply: Reply, normalize: (Record, nat) -> Record): (r: Result<seq<Record>, string>)
    ensures r.Ok? <==> reply.Received? && SelectEnvelope(reply.data).Ok?
                       && forall i :: 0 <= i < |SelectEnvelope(reply.data).value| ==> !SelectEnvelope(reply.data).value[i].Null?
    ensures r.Ok? ==> var items := SelectEnvelope(reply.data).value;
              |r.value| == |items| && forall i :: 0 <= i < |items| ==> r.value[i] == normalize(Spread(items[i]), i)
    ensures reply.Failed? ==> r == Err(FetchErrorMessage(reply.failure))
    ensures reply.Received? && SelectEnvelope(reply.data).Err? ==> r == Err(FetchErrorMessage(Thrown(BadEnvelope)))
    ensures reply.Received? && SelectEnvelope(reply.data).Ok? ==>
              var items := SelectEnvelope(reply.data).value;
              (exists i :: 0 <= i < |items| && items[i].Null?) ==> r == Err(FetchErrorMessage(NullRead("nombre")))
  {
    match reply
    case Failed(f) => Err(FetchErrorMessage(f))
    case Received(_, body) =>
      match SelectEnvelope(body)
      case Err(msg) => Err(FetchErrorMessage(Thrown(msg)))
      case Ok(items) =>
        match NormalizeItems(items, normalize)
        case Err(f) => Err(FetchErrorMessage(f))
        case Ok(rs) => Ok(rs)
  }

  /** An HTTP error's message never mentions the network, so it is reported with its status. */
  lemma HttpErrorReportsStatus(status: int, data: Json)
    ensures FetchErrorMessage(HttpError(status, data)) != ConnectionError
  {
    var m := FetchErrorMessage(HttpError(status, data));
    assert m[0] == 'E';
    assert ConnectionError[0] == 'N';
  }

  lemma HttpErrorIsNotNetwork(f: Failure)
    ensures f.HttpError? ==> !JsText.Contains(f.Message(), "Network") && f.Code() != "ERR_NETWORK"
  {
    if f.HttpError? {
      StatusMessageHasNoNetwork(f.status);
      assert f.Message() == HttpError(f.status, Null).Message();
    }
  }

  /** The message axios gives an HTTP error has no capital N, hence no "Network". */
  lemma StatusMessageHasNoNetwork(status: int)
    ensures !JsText.Contains(HttpError(status, Null).Message(), "Network")
  {
    var prefix := "Request failed with status code ";
    var num := JsText.IntToString(status);
    var m := HttpError(status, Null).Message();
    assert m == prefix + num;
    assert forall k :: 0 <= k < |prefix| ==> prefix[k] != 'N';
    forall k | 0 <= k < |num| ensures num[k] != 'N' {
      IntToStringAlphabet(status, k);
    }
    assert forall k :: 0 <= k < |m| ==> m[k] != 'N' by {
      forall k | 0 <= k < |m| ensures m[k] != 'N' {
        if k < |prefix| { assert m[k] == prefix[k]; } else { assert m[k] == num[k - |prefix|]; }
      }
    }
    forall i: nat | i <= |m| ensures !JsText.OccursAt(m, "Network", i) {
      if i + 7 <= |m| {
        assert m[i..i + 7][0] == m[i];
      }
    }
  }

  lemma IntToStringAlphabet(n: int, k: int)
    requires 0 <= k < |JsText.IntToString(n)|
    ensures JsText.IntToString(n)[k] == '-' || JsText.IsDigit(JsText.IntToString(n)[k])
  {
  }

  /** What a settled request resolves to: its failure, or the record `unwrap` reads out of the reply. */
  function Settled(reply: Reply, unwrap: Json -> Result<Json, Failure>): Result<Json, Failure> {
    if reply.Failed? then Err(reply.failure) else unwrap(reply.data)
  }

  /** The records carrying the id `id` (`undefined` matches records without `_id`). */
  function IdIs(id: Option<Json>): Record -> bool {
    c => Get(c, "_id") == id
  }

  function IdIsNot(id: Option<Json>): Record -> bool {
    c => Get(c, "_id") != id
  }

  /**
    As written: `response.data.cliente || response.data.data || response.data`,
    the record an update reply carries; reading it from a `null` body throws.
  */
  function UpdatedRecordAsWritten(data: Json): (r: Result<Json, Failure>)
    ensures data.Null? <==> r.Err?
  {
    if data.Null? then Err(NullRead("cliente"))
    else Ok(Or(Prop(data, "cliente"), Or(Prop(data, "data"), data)))
  }

  /**
    The record an update reply carries, also looking inside the
    `data.cliente` envelope the server answers with, before falling back to
    the lookups written in the hooks.
  */
  function UpdatedRecord(data: Json): (r: Result<Json, Failure>)
    ensures data.Null? <==> r.Err?
    ensures (!data.Null? && !TruthyOpt(Prop(data, "cliente")) && !TruthyOpt(OptProp(Prop(data, "data"), "cliente")))
              ==> r == UpdatedRecordAsWritten(data)
  {
    if data.Null? then Err(NullRead("cliente"))
    else if TruthyOpt(Prop(data, "cliente")) then Ok(Prop(data, "cliente").value)
    else if TruthyOpt(OptProp(Prop(data, "data"), "cliente")) then Ok(OptProp(Prop(data, "data"), "cliente").value)
    else UpdatedRecordAsWritten(data)
  }

  /** As written: `response.data.data || response.data`, the record a creation reply carries. */
  function CreatedRecordAsWritten(data: Json): (r: Result<Json, Failure>)
    ensures data.Null? <==> r.Err?
  {
    if data.Null? then Err(NullRead("data"))
    else Ok(Or(Prop(data, "data"), data))
  }

  /** The record a creation reply carries, looking inside the `data.cliente` envelope first. */
  function CreatedRecord(data: Json): (r: Result<Json, Failure>)
    ensures data.Null? <==> r.Err?
    ensures !data.Null? && !TruthyOpt(OptProp(Prop(data, "data"), "cliente")) ==> r == CreatedRecordAsWritten(data)
  {
    if data.Null? then Err(NullRead("data"))
    else if TruthyOpt(OptProp(Prop(data, "data"), "cliente")) then Ok(OptProp(Prop(data, "data"), "cliente").value)
    else CreatedRecordAsWritten(data)
  }
}

=== FILE: client_list.dfy ===
/**
  The client list page (`Pages/Clientes.jsx`): the order-date sort, the
  fixed eight-row pages, the guarded page change, the compressed strip of
  page links, and the return to the first page when the search or the
  sort changes. Dates are compared through an abstract `dateOf` that maps
  the raw date value to a number, as `new Date(...)` arithmetic does.
*/
module ClientList {
  import opened Results
  import opened JsValue
  import Seqs
  import Sorting
  import Search
  import EmpleadoHook

  const ItemsPerPage := 8
  const MaxVisiblePages := 5

  /** The date a record is ordered by: `fechaPedido`, falling back to `createdAt`. */
  function SortDate(r: Record): Option<Json> {
    OrOpt(Get(r, "fechaPedido"), Get(r, "createdAt"))
  }

  function OldestKey(dateOf: Option<Json> -> int): Record -> int {
    r => dateOf(SortDate(r))
  }

  function NewestKey(dateOf: Option<Json> -> int): Record -> int {
    r => -dateOf(SortDate(r))
  }

  /**
    `getSortedClientes`: a sorted copy of the filtered list, newest order
    date first for "Newest", oldest first for "Oldest"; any other choice
    keeps the list as it is. Records with the same date keep their order.
  */
  function SortedClientes(filtered: seq<Record>, sortBy: string, dateOf: Option<Json> -> int): (r: seq<Record>)
    ensures multiset(r) == multiset(filtered) && |r| == |filtered|
    ensures sortBy == "Newest" ==>
              forall i, j :: 0 <= i < j < |r| ==> dateOf(SortDate(r[i])) >= dateOf(SortDate(r[j]))
    ensures sortBy == "Oldest" ==>
              forall i, j :: 0 <= i < j < |r| ==> dateOf(SortDate(r[i])) <= dateOf(SortDate(r[j]))
    ensures sortBy != "Newest" && sortBy != "Oldest" ==> r == filtered
  {
    if sortBy == "Newest" then
      var r := Sorting.SortBy(filtered, NewestKey(dateOf));
      assert forall i, j :: 0 <= i < j < |r| ==> NewestKey(dateOf)(r[i]) <= NewestKey(dateOf)(r[j]);
      r
    else if sortBy == "Oldest" then
      var r := Sorting.SortBy(filtered, OldestKey(dateOf));
      assert forall i, j :: 0 <= i < j < |r| ==> OldestKey(dateOf)(r[i]) <= OldestKey(dateOf)(r[j]);
      r
    else filtered
  }

  /** The records whose order date is `d`. */
  function DateIs(dateOf: Option<Json> -> int, d: int): Record -> bool {
    r => dateOf(SortDate(r)) == d
  }

  /** Among records with the same order date, "Oldest" keeps the order of the filtered list. */
  lemma OldestIsStable(filtered: seq<Record>, dateOf: Option<Json> -> int, d: int)
    ensures Seqs.Filter(SortedClientes(filtered, "Oldest", dateOf), DateIs(dateOf, d))
         == Seqs.Filter(filtered, DateIs(dateOf, d))
  {
    assert SortedClientes(filtered, "Oldest", dateOf) == Sorting.SortBy(filtered, OldestKey(dateOf));
    Sorting.SortByKeepsOrderWithin(filtered, OldestKey(dateOf), d, DateIs(dateOf, d));
  }

  /** Among records with the same order date, "Newest" keeps the order of the filtered list too. */
  lemma NewestIsStable(filtered: seq<Record>, dateOf: Option<Json> -> int, d: int)
    ensures Seqs.Filter(SortedClientes(filtered, "Newest", dateOf), DateIs(dateOf, d))
         == Seqs.Filter(filtered, DateIs(dateOf, d))
  {
    assert SortedClientes(filtered, "Newest", dateOf) == Sorting.SortBy(filtered, NewestKey(dateOf));
    Sorting.SortByKeepsOrderWithin(filtered, NewestKey(dateOf), -d, DateIs(dateOf, d));
  }

  /** `Math.ceil(n / itemsPerPage)`. */
  function TotalPages(n: nat): (r: nat)
    ensures r * ItemsPerPage >= n
    ensures r > 0 ==> (r - 1) * ItemsPerPage < n
    ensures r == 0 <==> n == 0
  {
    (n + ItemsPerPage - 1) / ItemsPerPage
  }

  /** `getCurrentPageClientes`: the rows shown on page `page` (counted from 1). */
  function PageItems(sorted: seq<Record>, page: int): (r: seq<Record>)
    requires page >= 1
    ensures |r| <= ItemsPerPage
    ensures |r| == if (page - 1) * ItemsPerPage >= |sorted| then 0
                   else if page * ItemsPerPage <= |sorted| then ItemsPerPage
                   else |sorted| - (page - 1) * ItemsPerPage
    ensures forall j :: 0 <= j < |r| ==> r[j] == sorted[(page - 1) * ItemsPerPage + j]
  {
    var start := (page - 1) * ItemsPerPage;
    Seqs.Slice(sorted, start, start + ItemsPerPage)
  }

  /**
    The rows the page renders: the hook's search result, in the chosen
    order, cut to the current page. Every row is one of the hook's records
    and matches the search term.
  */
  function VisibleRows(s: EmpleadoHook.State, page: int, dateOf: Option<Json> -> int): (r: seq<Record>)
    requires page >= 1
    ensures |r| <= ItemsPerPage
    ensures forall i :: 0 <= i < |r| ==> r[i] in s.clientes && Search.Matches(r[i], EmpleadoHook.TextFields, s.searchTerm)
  {
    var filtered := EmpleadoHook.FilterClientes(s.clientes, s.searchTerm);
    var sorted := SortedClientes(filtered, s.sortBy, dateOf);
    var r := PageItems(sorted, page);
    assert forall i :: 0 <= i < |r| ==> r[i] in filtered by {
      forall i | 0 <= i < |r| ensures r[i] in filtered {
        assert r[i] in multiset(sorted);
      }
    }
    r
  }

  /** Pages 1 to `n`, one after the other. */
  function PagesUpTo(sorted: seq<Record>, n: nat): seq<Record> {
    if n == 0 then [] else PagesUpTo(sorted, n - 1) + PageItems(sorted, n)
  }

  function Min(a: int, b: int): int {
    if a <= b then a else b
  }

  /** The first `n` pages are exactly the first `8n` rows. */
  lemma {:induction false} PagesUpToPrefix(sorted: seq<Record>, n: nat)
    ensures PagesUpTo(sorted, n) == sorted[..Min(n * ItemsPerPage, |sorted|)]
  {
    if n > 0 {
      PagesUpToPrefix(sorted, n - 1);
      var lo := Min((n - 1) * ItemsPerPage, |sorted|);
      var hi := Min(n * ItemsPerPage, |sorted|);
      assert PageItems(sorted, n) == sorted[lo..hi];
      assert sorted[..lo] + sorted[lo..hi] == sorted[..hi];
    }
  }

  /** Every row is shown exactly once: pages 1 to `totalPages` together are the whole sorted list. */
  lemma PagesCoverAll(sorted: seq<Record>)
    ensures PagesUpTo(sorted, TotalPages(|sorted|)) == sorted
  {
    PagesUpToPrefix(sorted, TotalPages(|sorted|));
  }

  /** Row `i` of the sorted list is row `i % 8` of page `i / 8 + 1`, and of no other page. */
  lemma RowOnOnePage(sorted: seq<Record>, i: nat, page: int)
    requires i < |sorted| && page >= 1
    ensures sorted[i] == PageItems(sorted, i / ItemsPerPage + 1)[i % ItemsPerPage]
    ensures (page - 1) * ItemsPerPage <= i < page * ItemsPerPage <==> page == i / ItemsPerPage + 1
  {
  }

  /** A page the page change accepts always has rows to show. */
  lemma AcceptedPageIsNotEmpty(sorted: seq<Record>, page: int)
    requires 1 <= page <= TotalPages(|sorted|)
    ensures |PageItems(sorted, page)| > 0
  {
  }

  /** `handlePageChange`: a request outside 1..totalPages leaves the current page alone. */
  function ChangePage(current: int, page: int, totalPages: nat): (r: int)
    ensures 1 <= page <= totalPages ==> r == page
    ensures !(1 <= page <= totalPages) ==> r == current
  {
    if page >= 1 && page <= totalPages then page else current
  }

  /** An entry of the page strip: a page number or the `'...'` marker for hidden pages. */
  datatype PageLink = Page(n: int) | Gap

  /** The consecutive pages `lo..hi`. */
  function PageRun(lo: int, hi: int): (r: seq<PageLink>)
    ensures |r| == if hi < lo then 0 else hi - lo + 1
    ensures forall i :: 0 <= i < |r| ==> r[i] == Page(lo + i)
    decreases hi - lo
  {
    if hi < lo then [] else [Page(lo)] + PageRun(lo + 1, hi)
  }

  /**
    A well-formed strip: it starts at page 1 and ends at the last page, its
    numbers climb strictly within 1..totalPages, two numbers side by side
    are consecutive pages, and a marker sits between two numbers that skip
    at least one page.
  */
  predicate WellFormedStrip(r: seq<PageLink>, totalPages: nat) {
    && |r| >= 1
    && r[0] == Page(1) && r[|r| - 1] == Page(totalPages)
    && (forall i :: 0 <= i < |r| && r[i].Page? ==> 1 <= r[i].n <= totalPages)
    && (forall i, j :: 0 <= i < j < |r| && r[i].Page? && r[j].Page? ==> r[i].n < r[j].n)
    && (forall i :: 0 <= i < |r| - 1 && r[i].Page? && r[i + 1].Page? ==> r[i + 1].n == r[i].n + 1)
    && (forall i :: 0 < i < |r| - 1 && r[i].Gap? ==> r[i - 1].Page? && r[i + 1].Page? && r[i + 1].n > r[i - 1].n + 1)
  }

  /** The strip shows page `p`. */
  predicate Shows(r: seq<PageLink>, p: int) {
    exists i :: 0 <= i < |r| && r[i] == Page(p)
  }

  /**
    `getPageNumbers`: every page when there are at most five; otherwise the
    first page, the last page, and a window near the current page, with
    markers for the hidden stretches.
  */
  function PageNumbers(totalPages: nat, current: int): (r: seq<PageLink>)
    ensures totalPages <= MaxVisiblePages ==> r == PageRun(1, totalPages)
    ensures totalPages > MaxVisiblePages ==>
              && 6 <= |r| <= 7
              && WellFormedStrip(r, totalPages)
              && (1 <= current <= totalPages ==> Shows(r, current))
              && (2 <= current <= totalPages ==> Shows(r, current - 1))
              && (1 <= current < totalPages ==> Shows(r, current + 1))
              && (|r| == 7 <==> 3 < current < totalPages - 2)
  {
    if totalPages <= MaxVisiblePages then
      PageRun(1, totalPages)
    else if current <= 3 then
      StripNearStart(totalPages, current);
      PageRun(1, 4) + [Gap, Page(totalPages)]
    else if current >= totalPages - 2 then
      StripNearEnd(totalPages, current);
      [Page(1), Gap] + PageRun(totalPages - 3, totalPages)
    else
      StripInMiddle(totalPages, current);
      [Page(1), Gap] + PageRun(current - 1, current + 1) + [Gap, Page(totalPages)]
  }

  lemma StripNearStart(totalPages: nat, current: int)
    requires totalPages > MaxVisiblePages && current <= 3
    ensures var r := PageRun(1, 4) + [Gap, Page(totalPages)];
            && WellFormedStrip(r, totalPages)
            && (1 <= current ==> Shows(r, current) && Shows(r, current + 1))
            && (2 <= current ==> Shows(r, current - 1))
  {
    var r := PageRun(1, 4) + [Gap, Page(totalPages)];
    if 1 <= current {
      assert r[current - 1] == Page(current) && r[current] == Page(current + 1);
    }
    if 2 <= current {
      assert r[current - 2] == Page(current - 1);
    }
  }

  lemma StripNearEnd(totalPages: nat, current: int)
    requires totalPages > MaxVisiblePages && 3 < current && current >= totalPages - 2
    ensures var r := [Page(1), Gap] + PageRun(totalPages - 3, totalPages);
            && WellFormedStrip(r, totalPages)
            && (current <= totalPages ==> Shows(r, current) && Shows(r, current - 1))
            && (current < totalPages ==> Shows(r, current + 1))
  {
    var r := [Page(1), Gap] + PageRun(totalPages - 3, totalPages);
    if current <= totalPages {
      assert r[current - totalPages + 5] == Page(current);
      assert r[current - totalPages + 4] == Page(current - 1);
    }
    if current < totalPages {
      assert r[current - totalPages + 6] == Page(current + 1);
    }
  }

  lemma StripInMiddle(totalPages: nat, current: int)
    requires totalPages > MaxVisiblePages && 3 < current < totalPages - 2
    ensures var r := [Page(1), Gap] + PageRun(current - 1, current + 1) + [Gap, Page(totalPages)];
            && WellFormedStrip(r, totalPages)
            && Shows(r, current) && Shows(r, current - 1) && Shows(r, current + 1)
  {
    var r := [Page(1), Gap] + PageRun(current - 1, current + 1) + [Gap, Page(totalPages)];
    assert r[2] == Page(current - 1) && r[3] == Page(current) && r[4] == Page(current + 1);
  }

  /** The part of the page state the list reads: the search, the sort and the current page. */
  datatype ListView = ListView(searchTerm: string, sortBy: string, currentPage: int)

  const InitialView := ListView("", "Newest", 1)

  /** Typing in the search box: a new term sends the list back to page 1. */
  function SetSearchTerm(v: ListView, term: string): (r: ListView)
    ensures r.searchTerm == term && r.sortBy == v.sortBy
    ensures r.currentPage == if term != v.searchTerm then 1 else v.currentPage
  {
    if term != v.searchTerm then v.(searchTerm := term, currentPage := 1) else v
  }

  /** Choosing an order: a new order sends the list back to page 1. */
  function SetSortBy(v: ListView, sortBy: string): (r: ListView)
    ensures r.sortBy == sortBy && r.searchTerm == v.searchTerm
    ensures r.currentPage == if sortBy != v.sortBy then 1 else v.currentPage
  {
    if sortBy != v.sortBy then v.(sortBy := sortBy, currentPage := 1) else v
  }

  /** Clicking a page link, with the page count of the rows the search currently lets through. */
  function GoToPage(v: ListView, page: int, matching: nat): (r: ListView)
    ensures r.searchTerm == v.searchTerm && r.sortBy == v.sortBy
    ensures r.currentPage == ChangePage(v.currentPage, page, TotalPages(matching))
  {
    v.(currentPage := ChangePage(v.currentPage, page, TotalPages(matching)))
  }

  /** No transition ever moves the list below page 1. */
  lemma CurrentPageStaysPositive(v: ListView, term: string, sortBy: string, page: int, matching: nat)
    requires v.currentPage >= 1
    ensures SetSearchTerm(v, term).currentPage >= 1
    ensures SetSortBy(v, sortBy).currentPage >= 1
    ensures GoToPage(v, page, matching).currentPage >= 1
  {
  }

  /** After any new search, whatever page was shown, the first page of the new matches is shown. */
  lemma NewSearchShowsFirstPage(v: ListView, term: string, sorted: seq<Record>)
    requires term != v.searchTerm
    ensures PageItems(sorted, SetSearchTerm(v, term).currentPage) == sorted[..Min(ItemsPerPage, |sorted|)]
  {
  }
}

=== FILE: cliente_controller.dfy ===
/**
  The REST handlers of the backend (`backend/src/controller/clienteController.js`)
  over an abstract document store: a map from id to stored record. The
  database is reduced to what the handlers observe of it: `validId` stands
  for the ObjectId format check, `toDate` for the cast of a date value the
  database performs when it writes (its error text included), and `newId`
  for the id a creation receives. The list handler sees the collection as a
  sequence already in the order the query sorts it (newest first).
*/
module ClienteController {
  import opened Results
  import opened JsValue
  import JsText

  type Store = map<string, Record>

  /** The `pagination` object of a list reply; the two flags are absent from an empty page. */
  datatype Pagination = Pagination(
    currentPage: int,
    totalPages: int,
    totalClientes: int,
    clientesPerPage: int,
    hasNextPage: Option<bool>,
    hasPrevPage: Option<bool>)

  /** The JSON body of each kind of reply. */
  datatype Body =
    | Rejected(message: string, error: string)
    | Created(cliente: Record)
    | Listed(message: string, clientes: seq<Record>, pagination: Pagination)
    | Found(cliente: Record)
    | Updated(cliente: Record)
    | Deleted(id: Option<Json>, nombre: Option<Json>, producto: Option<Json>)

  datatype Response = Response(status: int, body: Body)

  const MissingFields := "Faltan campos requeridos"
  const AllRequired := "Todos los campos son obligatorios: nombre, producto, fechaPedido, telefono, dirrecion"
  const CreatedMessage := "Cliente agregado exitosamente"
  const CreateFailed := "Error interno del servidor al agregar cliente"
  const BadPaging := "Par" + "á" + "metros de paginaci" + "ó" + "n inv" + "á" + "lidos"
  const PagingRule := "La p" + "á" + "gina debe ser >= 1 y el l" + "í" + "mite entre 1-100"
  const NoneFound := "No se encontraron clientes"
  const Listed_ := "Clientes obtenidos exitosamente"
  const InvalidId := "ID de cliente inv" + "á" + "lido"
  const InvalidIdFormat := "El ID proporcionado no tiene un formato v" + "á" + "lido"
  const NotFound := "Cliente no encontrado"
  const FoundMessage := "Cliente obtenido exitosamente"
  const UpdatedMessage := "Cliente actualizado correctamente"
  const UpdateFailed := "Error interno del servidor al actualizar cliente"
  const DeletedMessage := "Cliente eliminado correctamente"

  function NoSuchId(id: string): string {
    "No existe un cliente con el ID: " + id
  }

  /** The message of the `TypeError` that calling `trim` on a non-string raises. */
  function TrimError(k: string, v: Json): string {
    if v.Null? then "Cannot read properties of null (reading 'trim')" else k + ".trim is not a function"
  }

  // ---------------------------------------------------------------------
  // Query parameters
  // ---------------------------------------------------------------------

  /** The value of a character as a digit in bases up to 36; 36 for a character that is no digit. */
  function DigitValue(c: char): (v: nat)
    ensures v <= 36
    ensures JsText.IsDigit(c) <==> v < 10
    ensures JsText.IsDigit(c) ==> v == c as int - '0' as int
  {
    if '0' <= c <= '9' then c as int - '0' as int
    else if 'a' <= c <= 'z' then c as int - 'a' as int + 10
    else if 'A' <= c <= 'Z' then c as int - 'A' as int + 10
    else 36
  }

  /** The longest prefix of `s` made of digits of the given base. */
  function DigitRun(s: string, radix: nat): (r: string)
    ensures |r| <= |s| && r == s[..|r|]
    ensures forall i :: 0 <= i < |r| ==> DigitValue(r[i]) < radix
    ensures |r| < |s| ==> DigitValue(s[|r|]) >= radix
  {
    if s == [] || DigitValue(s[0]) >= radix then [] else [s[0]] + DigitRun(s[1..], radix)
  }

  /** The number a run of digits denotes, most significant first. */
  function DigitsValue(ds: string, radix: nat): nat {
    if ds == [] then 0 else DigitsValue(ds[..|ds| - 1], radix) * radix + DigitValue(ds[|ds| - 1])
  }

  /**
    `parseInt(q)` without a radix: leading white space and one sign are
    skipped, a `0x`/`0X` prefix selects base 16, and the longest run of
    digits that follows is read; no digit at all is NaN (`None`), as is an
    absent parameter.
  */
  function ParseInt(q: Option<string>): Option<int> {
    if q.None? then None else ParseSigned(JsText.TrimStart(q.value))
  }

  /** The number at the start of `s`, after an optional sign. */
  function ParseSigned(s: string): Option<int> {
    if |s| > 0 && s[0] == '-' then
      match ParseUnsigned(s[1..])
      case None => None
      case Some(v) => Some(-(v as int))
    else if |s| > 0 && s[0] == '+' then ParseUnsigned(s[1..])
    else ParseUnsigned(s)
  }

  /** `t` starts with the prefix of a hexadecimal number. */
  predicate HexPrefix(t: string) {
    |t| >= 2 && t[0] == '0' && (t[1] == 'x' || t[1] == 'X')
  }

  /** The unsigned number at the start of `t`, hexadecimal after `0x`, else decimal. */
  function ParseUnsigned(t: string): Option<nat> {
    if HexPrefix(t) then ReadDigits(t[2..], 16) else ReadDigits(t, 10)
  }

  /** The value of the longest run of digits at the start of `u`; `None` when there is none. */
  function ReadDigits(u: string, radix: nat): Option<nat> {
    var ds := DigitRun(u, radix);
    if ds == [] then None else Some(DigitsValue(ds, radix))
  }

  /** `parseInt(q) || fallback`: NaN and 0 fall back. */
  function ParamOr(q: Option<string>, fallback: int): (r: int)
    ensures ParseInt(q).None? || ParseInt(q) == Some(0) ==> r == fallback
    ensures ParseInt(q).Some? && ParseInt(q) != Some(0) ==> r == ParseInt(q).value
  {
    match ParseInt(q)
    case None => fallback
    case Some(v) => if v == 0 then fallback else v
  }

  lemma DigitValueOfDigitChar(d: nat)
    requires d < 10
    ensures DigitValue(JsText.DigitChar(d)) == d
  {
  }

  /** Reading back the decimal rendering of a natural number gives the number. */
  lemma {:induction false} DigitsValueOfNatToString(n: nat)
    ensures DigitRun(JsText.NatToString(n), 10) == JsText.NatToString(n)
    ensures DigitsValue(JsText.NatToString(n), 10) == n
  {
    var s := JsText.NatToString(n);
    DigitRunOfDigits(s);
    if n >= 10 {
      DigitsValueOfNatToString(n / 10);
      DigitValueOfDigitChar(n % 10);
      assert s[..|s| - 1] == JsText.NatToString(n / 10);
    } else {
      DigitValueOfDigitChar(n);
      assert s[..0] == [];
    }
  }

  lemma {:induction false} DigitRunOfDigits(s: string)
    requires forall i :: 0 <= i < |s| ==> JsText.IsDigit(s[i])
    ensures DigitRun(s, 10) == s
  {
    if s != [] {
      DigitRunOfDigits(s[1..]);
    }
  }

  /** `parseInt` reads back every integer written in decimal. */
  lemma ParseIntReadsDecimal(n: int)
    ensures ParseInt(Some(JsText.IntToString(n))) == Some(n)
  {
    var m: nat := if n < 0 then -n else n;
    ParseUnsignedReadsDecimal(m);
    var s := JsText.IntToString(n);
    assert JsText.TrimStart(s) == s;
    if n < 0 {
      assert s[1..] == JsText.NatToString(m);
    }
  }

  lemma ParseUnsignedReadsDecimal(m: nat)
    ensures ParseUnsigned(JsText.NatToString(m)) == Some(m)
  {
    var digits := JsText.NatToString(m);
    DigitsValueOfNatToString(m);
    assert !HexPrefix(digits);
  }

  /** A run of decimal digits stops where the first non-digit begins. */
  lemma {:induction false} DigitRunStopsAtNonDigit(d: string, t: string)
    requires forall i :: 0 <= i < |d| ==> JsText.IsDigit(d[i])
    requires t == [] || !JsText.IsDigit(t[0])
    ensures DigitRun(d + t, 10) == d
  {
    if d != [] {
      assert (d + t)[1..] == d[1..] + t;
      DigitRunStopsAtNonDigit(d[1..], t);
    } else {
      assert d + t == t;
    }
  }

  /**
    Text after a decimal number is ignored: `parseInt` reads back `n` from
    its decimal form followed by anything that does not begin with a digit
    (for `n == 0`, nor with an `x` that would make a hexadecimal prefix).
  */
  lemma ParseIntIgnoresTrailing(n: int, t: string)
    requires t == [] || !JsText.IsDigit(t[0])
    requires n == 0 && t != [] ==> t[0] != 'x' && t[0] != 'X'
    ensures ParseInt(Some(JsText.IntToString(n) + t)) == Some(n)
  {
    if n < 0 {
      NegativeIgnoresTrailing(-n, t);
    } else {
      NonNegativeIgnoresTrailing(n, t);
    }
  }

  lemma NegativeIgnoresTrailing(m: nat, t: string)
    requires m > 0
    requires t == [] || !JsText.IsDigit(t[0])
    ensures ParseSigned(JsText.TrimStart("-" + JsText.NatToString(m) + t)) == Some(-(m as int))
  {
    var u := JsText.NatToString(m) + t;
    assert "-" + JsText.NatToString(m) + t == "-" + u;
    ParseUnsignedIgnoresTrailing(m, t);
    MinusSignNegates(u, m);
  }

  /** A leading minus sign, kept by the trim, negates what follows. */
  lemma MinusSignNegates(u: string, v: nat)
    requires ParseUnsigned(u) == Some(v)
    ensures ParseSigned(JsText.TrimStart("-" + u)) == Some(-(v as int))
  {
    var s := "-" + u;
    TrimStartKeepsSignOrDigit(s);
    assert s[1..] == u;
  }

  lemma NonNegativeIgnoresTrailing(m: nat, t: string)
    requires t == [] || !JsText.IsDigit(t[0])
    requires m == 0 && t != [] ==> t[0] != 'x' && t[0] != 'X'
    ensures ParseSigned(JsText.TrimStart(JsText.NatToString(m) + t)) == Some(m)
  {
    var u := JsText.NatToString(m);
    var s := u + t;
    assert JsText.TrimStart(s) == s by {
      assert s[0] == u[0] && JsText.IsDigit(u[0]);
      TrimStartKeepsSignOrDigit(s);
    }
    ParseUnsignedIgnoresTrailing(m, t);
  }

  lemma TrimStartKeepsSignOrDigit(s: string)
    requires |s| > 0 && (s[0] == '-' || JsText.IsDigit(s[0]))
    ensures JsText.TrimStart(s) == s
  {
  }

  lemma ParseUnsignedIgnoresTrailing(m: nat, t: string)
    requires t == [] || !JsText.IsDigit(t[0])
    requires m == 0 && t != [] ==> t[0] != 'x' && t[0] != 'X'
    ensures ParseUnsigned(JsText.NatToString(m) + t) == Some(m)
  {
    var digits := JsText.NatToString(m);
    DigitRunStopsAtNonDigit(digits, t);
    DigitsValueOfNatToString(m);
    NoHexPrefix(m, t);
  }

  lemma NoHexPrefix(m: nat, t: string)
    requires m == 0 && t != [] ==> t[0] != 'x' && t[0] != 'X'
    ensures !HexPrefix(JsText.NatToString(m) + t)
  {
    var digits := JsText.NatToString(m);
    if m >= 10 {
      assert digits[..|digits| - 1] == JsText.NatToString(m / 10);
      assert JsText.IsDigit((digits + t)[1]);
    } else if m > 0 {
      assert (digits + t)[0] == JsText.DigitChar(m);
    } else if t != [] {
      assert (digits + t)[1] == t[0];
    }
  }

  /** A `0x` prefix reads the rest in base 16. */
  lemma ParseIntReadsHex()
    ensures ParseInt(Some("0x1A")) == Some(26)
  {
    assert "0x1A"[2..] == "1A";
    assert DigitRun("1A", 16) == "1A" by {
      assert "1A"[1..] == "A";
      assert "A"[1..] == "";
    }
    assert DigitsValue("1A", 16) == 26 by {
      assert "1A"[..1] == "1";
      assert "1"[..0] == "";
    }
  }

  /** A bare `0x`, or text with no leading digit, is NaN. */
  lemma ParseIntRefuses()
    ensures ParseInt(Some("0x")) == None
    ensures ParseInt(Some("abc")) == None
  {
    assert "0x"[2..] == "";
  }

  // ---------------------------------------------------------------------
  // Create
  // ---------------------------------------------------------------------

  /** The required fields that are stored trimmed, in the order they are trimmed. */
  const CreateTextKeys: seq<string> := ["nombre", "producto", "telefono", "dirrecion", "estado"]

  /** The keys of a created document. */
  const DocKeys: set<string> := {"_id", "nombre", "producto", "fechaPedido", "telefono", "dirrecion", "estado"}

  /** Every required field is present and truthy. */
  predicate Complete(body: Record) {
    && HasTruthy(body, "nombre") && HasTruthy(body, "producto") && HasTruthy(body, "fechaPedido")
    && HasTruthy(body, "telefono") && HasTruthy(body, "dirrecion") && HasTruthy(body, "estado")
  }

  /** Every field that is trimmed is a string. */
  predicate TextsAreStrings(body: Record) {
    && "nombre" in body && body["nombre"].Str? && "producto" in body && body["producto"].Str?
    && "telefono" in body && body["telefono"].Str? && "dirrecion" in body && body["dirrecion"].Str?
    && "estado" in body && body["estado"].Str?
  }

  /** The first of `keys` whose value is not a string. */
  function FirstNonString(body: Record, keys: seq<string>): (r: Option<string>)
    requires forall k :: k in keys ==> k in body
    ensures r.None? <==> forall k :: k in keys ==> body[k].Str?
    ensures r.Some? ==> r.value in keys && r.value in body && !body[r.value].Str?
  {
    if keys == [] then None
    else if !body[keys[0]].Str? then Some(keys[0])
    else FirstNonString(body, keys[1..])
  }

  /** The created document: the texts trimmed, the date cast, and the new id. */
  function NewDoc(body: Record, date: Json, newId: string): (doc: Record)
    requires TextsAreStrings(body)
    ensures doc.Keys == DocKeys
    ensures doc["_id"] == Str(newId) && doc["fechaPedido"] == date
    ensures forall k :: k in CreateTextKeys ==> doc[k] == Str(JsText.Trim(body[k].s))
  {
    map k | k in DocKeys :: if k == "_id" then Str(newId) else if k == "fechaPedido" then date else Str(JsText.Trim(body[k].s))
  }

  /**
    `agregarCliente`: 400 when a required field is missing or falsy; 500
    when a field has no `trim` or the date cannot be cast; otherwise the
    document is stored under the new id and returned with 201.
  */
  function Create(store: Store, body: Record, newId: string, toDate: Json -> Result<Json, string>): (r: (Response, Store))
    ensures r.0.status in {201, 400, 500}
    ensures r.0.status == 400 <==> !Complete(body)
    ensures r.0.status == 400 ==> r.0.body == Rejected(MissingFields, AllRequired)
    ensures r.0.status == 500 ==> r.0.body.Rejected? && r.0.body.message == CreateFailed
    ensures r.0.status != 201 ==> r.1 == store
    ensures r.0.status == 201 <==> Complete(body) && TextsAreStrings(body) && toDate(body["fechaPedido"]).Ok?
    ensures r.0.status == 201 ==>
              && r.0.body == Created(NewDoc(body, toDate(body["fechaPedido"]).value, newId))
              && r.1 == store[newId := r.0.body.cliente]
  {
    if !Complete(body) then
      (Response(400, Rejected(MissingFields, AllRequired)), store)
    else
      assert forall k :: k in CreateTextKeys ==> k in body;
      match FirstNonString(body, CreateTextKeys)
      case Some(k) => (Response(500, Rejected(CreateFailed, TrimError(k, body[k]))), store)
      case None =>
        match toDate(body["fechaPedido"])
        case Err(e) => (Response(500, Rejected(CreateFailed, e)), store)
        case Ok(date) =>
          var doc := NewDoc(body, date, newId);
          (Response(201, Created(doc)), store[newId := doc])
  }

  /**
    The presence check runs before trimming: a field of white space alone
    passes it and is stored as "".
  */
  lemma BlankFieldIsStoredEmpty(store: Store, body: Record, newId: string, toDate: Json -> Result<Json, string>)
    requires Complete(body) && TextsAreStrings(body)
    requires JsText.IsBlank(body["nombre"].s)
    requires toDate(body["fechaPedido"]).Ok?
    ensures var r := Create(store, body, newId, toDate);
            r.0.status == 201 && r.1[newId]["nombre"] == Str("")
  {
    JsText.TrimEmptyIffBlank(body["nombre"].s);
  }

  // ---------------------------------------------------------------------
  // List
  // ---------------------------------------------------------------------

  const DefaultLimit := 50
  const MaxLimit := 100

  /** `Math.ceil(n / d)` on naturals. */
  function CeilDiv(n: nat, d: nat): (r: nat)
    requires d > 0
    ensures r * d >= n
    ensures r > 0 ==> (r - 1) * d < n
  {
    (n + d - 1) / d
  }

  /** `skip(skip).limit(limit)` on the sorted collection. */
  function Window(docs: seq<Record>, skip: nat, limit: nat): (r: seq<Record>)
    ensures |r| <= limit
    ensures skip >= |docs| ==> r == []
    ensures skip < |docs| ==> r == docs[skip..if skip + limit < |docs| then skip + limit else |docs|]
  {
    if skip >= |docs| then [] else docs[skip..if skip + limit < |docs| then skip + limit else |docs|]
  }

  /**
    One page of the collection for a page number from 1 and a size in
    1..100: the page's documents, and either the summary of a non-empty
    page or the all-zero summary of an empty one.
  */
  function ListPage(docs: seq<Record>, page: int, limit: int): (r: Response)
    requires page >= 1 && 1 <= limit <= MaxLimit
    ensures r.status == 200 && r.body.Listed?
    ensures var skip := (page - 1) * limit;
            var p := r.body.pagination;
            && skip >= 0
            && r.body.clientes == Window(docs, skip, limit)
            && p.currentPage == page && p.clientesPerPage == limit
            && (r.body.clientes == [] <==> skip >= |docs|)
    ensures var p := r.body.pagination;
            r.body.clientes == [] ==>
              r.body.message == NoneFound && p.totalPages == 0 && p.totalClientes == 0
              && p.hasNextPage.None? && p.hasPrevPage.None?
    ensures var p := r.body.pagination;
            r.body.clientes != [] ==>
              r.body.message == Listed_ && p.totalClientes == |docs|
              && p.totalPages == CeilDiv(|docs|, limit)
              && p.hasNextPage == Some(page < p.totalPages)
              && p.hasPrevPage == Some(page > 1)
  {
    MulMonotone(0, page - 1, limit);
    var skip: nat := (page - 1) * limit;
    var items := Window(docs, skip, limit);
    if items == [] then
      Response(200, Listed(NoneFound, [], Pagination(page, 0, 0, limit, None, None)))
    else
      var totalPages := CeilDiv(|docs|, limit);
      Response(200, Listed(Listed_, items, Pagination(page, totalPages, |docs|, limit, Some(page < totalPages), Some(page > 1))))
  }

  /**
    `get`: the page and page size come from the query (defaults 1 and 50,
    which also replace a 0); a page below 1 or a size outside 1..100 is
    refused with 400, anything else is served.
  */
  function List(docs: seq<Record>, pageQ: Option<string>, limitQ: Option<string>): (r: Response)
    ensures var page := ParamOr(pageQ, 1);
            var limit := ParamOr(limitQ, DefaultLimit);
            && (r.status == 400 <==> page < 1 || limit < 1 || limit > MaxLimit)
            && (r.status == 400 ==> r.body == Rejected(BadPaging, PagingRule))
            && (r.status != 400 ==> r == ListPage(docs, page, limit))
  {
    var page := ParamOr(pageQ, 1);
    var limit := ParamOr(limitQ, DefaultLimit);
    if page < 1 || limit < 1 || limit > MaxLimit then
      Response(400, Rejected(BadPaging, PagingRule))
    else
      ListPage(docs, page, limit)
  }

  /** A non-empty page has a next page exactly when documents remain after it. */
  lemma HasNextMeansMoreDocs(docs: seq<Record>, page: int, limit: int)
    requires page >= 1 && 1 <= limit <= MaxLimit
    requires ListPage(docs, page, limit).body.clientes != []
    ensures ListPage(docs, page, limit).body.pagination.hasNextPage == Some(page * limit < |docs|)
  {
    var t := CeilDiv(|docs|, limit);
    if page < t {
      MulMonotone(page, t - 1, limit);
    } else {
      MulMonotone(t, page, limit);
    }
  }

  lemma MulMonotone(a: int, b: int, c: nat)
    requires a <= b
    ensures a * c <= b * c
  {
  }

  /**
    The pages partition the collection: the document at index `j` is
    listed on page `j / limit + 1`, at position `j % limit`, when the
    page is asked for by its decimal number.
  */
  lemma DocumentIsListedOnItsPage(docs: seq<Record>, limit: nat, j: nat)
    requires 1 <= limit <= MaxLimit && j < |docs|
    ensures var r := List(docs, Some(JsText.IntToString(j / limit + 1)), Some(JsText.IntToString(limit)));
            r.status == 200 && j % limit < |r.body.clientes| && r.body.clientes[j % limit] == docs[j]
  {
    var page := j / limit + 1;
    IndexOnPage(j, limit);
    ListByNumber(docs, page, limit);
    PageHolds(docs, page, limit, j % limit);
  }

  /** Asking for a page and a size by their decimal numbers serves exactly that page. */
  lemma ListByNumber(docs: seq<Record>, page: int, limit: int)
    requires page >= 1 && 1 <= limit <= MaxLimit
    ensures List(docs, Some(JsText.IntToString(page)), Some(JsText.IntToString(limit))) == ListPage(docs, page, limit)
  {
    ParseIntReadsDecimal(page);
    ParseIntReadsDecimal(limit);
  }

  /** Position `i` of a page holds the document `i` places after the documents of the earlier pages. */
  lemma PageHolds(docs: seq<Record>, page: int, limit: int, i: nat)
    requires page >= 1 && 1 <= limit <= MaxLimit && i < limit
    requires (page - 1) * limit + i < |docs|
    ensures var r := ListPage(docs, page, limit);
            i < |r.body.clientes| && r.body.clientes[i] == docs[(page - 1) * limit + i]
  {
  }

  /** Euclidean division: `j` is `j % limit` places into block `j / limit`. */
  lemma IndexOnPage(j: nat, limit: nat)
    requires limit >= 1
    ensures (j / limit + 1 - 1) * limit + j % limit == j
    ensures j / limit + 1 >= 1
    ensures j % limit < limit
  {
  }

  /** Past the last page the summary reports no documents at all, however many there are. */
  lemma PastTheEndReportsNone(docs: seq<Record>, page: nat, limit: nat)
    requires 1 <= limit <= MaxLimit && page >= 1
    requires (page - 1) * limit >= |docs|
    ensures var r := List(docs, Some(JsText.IntToString(page)), Some(JsText.IntToString(limit)));
            r.status == 200 && r.body.clientes == [] && r.body.pagination.totalClientes == 0
  {
    ParseIntReadsDecimal(page);
    ParseIntReadsDecimal(limit);
  }

  // ---------------------------------------------------------------------
  // Get by id
  // ---------------------------------------------------------------------

  const MongoIdFormat := "El ID proporcionado no tiene un formato v" + "á" + "lido de MongoDB"

  /** `getClienteById`: 400 for a malformed id, 404 for an unknown one, else the document. */
  function GetById(store: Store, id: string, validId: string -> bool): (r: Response)
    ensures r.status == 400 <==> !validId(id)
    ensures r.status == 404 <==> validId(id) && id !in store
    ensures r.status == 200 <==> validId(id) && id in store
    ensures r.status == 200 ==> r.body == Found(store[id])
    ensures r.status == 400 ==> r.body == Rejected(InvalidId, MongoIdFormat)
    ensures r.status == 404 ==> r.body == Rejected(NotFound, NoSuchId(id))
  {
    if !validId(id) then Response(400, Rejected(InvalidId, MongoIdFormat))
    else if id !in store then Response(404, Rejected(NotFound, NoSuchId(id)))
    else Response(200, Found(store[id]))
  }

  // ---------------------------------------------------------------------
  // Update
  // ---------------------------------------------------------------------

  /** The texts an update may set, in the order they are trimmed. */
  const PutTextKeys: seq<string> := ["nombre", "producto", "telefono", "dirrecion", "estado"]

  /** The fields an update may write. */
  const ChangeKeys: set<string> := {"nombre", "producto", "telefono", "dirrecion", "estado", "fechaPedido"}

  /** The two fields an update sets whenever they are present, even to "". */
  predicate SetWhenPresent(k: string) {
    k == "dirrecion" || k == "estado"
  }

  /** The update sets text field `k`: present for the last two, truthy for the others. */
  predicate PutSets(body: Record, k: string) {
    if SetWhenPresent(k) then k in body else HasTruthy(body, k)
  }

  /** Setting text field `k` would call `trim` on a value that is not a string. */
  predicate PutThrows(body: Record, k: string) {
    PutSets(body, k) && !body[k].Str?
  }

  /** The first text field whose `trim` would throw. */
  function FirstPutThrow(body: Record, keys: seq<string>): (r: Option<string>)
    ensures r.None? <==> forall k :: k in keys ==> !PutThrows(body, k)
    ensures r.Some? ==> r.value in keys && PutThrows(body, r.value)
  {
    if keys == [] then None
    else if PutThrows(body, keys[0]) then Some(keys[0])
    else FirstPutThrow(body, keys[1..])
  }

  /** No text field would throw. */
  predicate PutTrimmable(body: Record) {
    && !PutThrows(body, "nombre") && !PutThrows(body, "producto") && !PutThrows(body, "telefono")
    && !PutThrows(body, "dirrecion") && !PutThrows(body, "estado")
  }

  /** The fields an update writes: the texts it sets, trimmed, and the cast date when one is given. */
  function Changes(body: Record, date: Option<Json>): (c: Record)
    requires PutTrimmable(body)
    ensures c.Keys <= ChangeKeys
    ensures forall k :: k in c <==> (k in PutTextKeys && PutSets(body, k)) || (k == "fechaPedido" && date.Some?)
    ensures forall k :: k in PutTextKeys && PutSets(body, k) ==> body[k].Str? && c[k] == Str(JsText.Trim(body[k].s))
    ensures date.Some? ==> c["fechaPedido"] == date.value
  {
    map k | k in ChangeKeys && ((k in PutTextKeys && PutSets(body, k)) || (k == "fechaPedido" && date.Some?)) ::
      if k == "fechaPedido" then date.value else Str(JsText.Trim(body[k].s))
  }

  /** The date an update writes: none unless the body's date is truthy; the cast may fail. */
  function PutDate(body: Record, toDate: Json -> Result<Json, string>): (r: Result<Option<Json>, string>)
    ensures r.Err? <==> HasTruthy(body, "fechaPedido") && toDate(body["fechaPedido"]).Err?
    ensures r.Ok? ==> (r.value.Some? <==> HasTruthy(body, "fechaPedido"))
    ensures r.Ok? && r.value.Some? ==> toDate(body["fechaPedido"]) == Ok(r.value.value)
  {
    if !HasTruthy(body, "fechaPedido") then Ok(None)
    else match toDate(body["fechaPedido"])
      case Err(e) => Err(e)
      case Ok(d) => Ok(Some(d))
  }

  /**
    `PutClientes`: 400 for a malformed id and 404 for an unknown one,
    before anything is written; 500 when a field has no `trim` or the date
    cannot be cast; otherwise the written fields are merged into the
    document, which is returned with 200.
  */
  function Put(store: Store, id: string, body: Record, validId: string -> bool, toDate: Json -> Result<Json, string>): (r: (Response, Store))
    ensures r.0.status in {200, 400, 404, 500}
    ensures r.0.status == 400 <==> !validId(id)
    ensures r.0.status == 404 <==> validId(id) && id !in store
    ensures r.0.status == 400 ==> r.0.body == Rejected(InvalidId, InvalidIdFormat)
    ensures r.0.status == 404 ==> r.0.body == Rejected(NotFound, NoSuchId(id))
    ensures r.0.status == 500 ==> r.0.body.Rejected? && r.0.body.message == UpdateFailed
    ensures r.0.status != 200 ==> r.1 == store
    ensures r.0.status == 200 <==> validId(id) && id in store && PutTrimmable(body) && PutDate(body, toDate).Ok?
    ensures r.0.status == 200 ==>
              && r.0.body == Updated(store[id] + Changes(body, PutDate(body, toDate).value))
              && r.1 == store[id := r.0.body.cliente]
  {
    if !validId(id) then
      (Response(400, Rejected(InvalidId, InvalidIdFormat)), store)
    else if id !in store then
      (Response(404, Rejected(NotFound, NoSuchId(id))), store)
    else
      match FirstPutThrow(body, PutTextKeys)
      case Some(k) => (Response(500, Rejected(UpdateFailed, TrimError(k, body[k]))), store)
      case None =>
        match PutDate(body, toDate)
        case Err(e) => (Response(500, Rejected(UpdateFailed, e)), store)
        case Ok(date) =>
          var doc := store[id] + Changes(body, date);
          (Response(200, Updated(doc)), store[id := doc])
  }

  /**
    What a successful update does to the store: a text it sets holds the
    trimmed value, every other field of the document keeps its value, and
    every other document is as it was.
  */
  lemma PutTouchesOnlyItsFields(store: Store, id: string, body: Record, validId: string -> bool, toDate: Json -> Result<Json, string>, k: string)
    requires Put(store, id, body, validId, toDate).0.status == 200
    ensures var doc := Put(store, id, body, validId, toDate).1[id];
            && (k in PutTextKeys && PutSets(body, k) ==> doc[k] == Str(JsText.Trim(body[k].s)))
            && (!(k in PutTextKeys && PutSets(body, k)) && k != "fechaPedido" ==> (k in doc <==> k in store[id]) && (k in doc ==> doc[k] == store[id][k]))
            && (k == "fechaPedido" && !HasTruthy(body, k) ==> (k in doc <==> k in store[id]) && (k in doc ==> doc[k] == store[id][k]))
    ensures var after := Put(store, id, body, validId, toDate).1;
            after.Keys == store.Keys && forall j :: j in store && j != id ==> after[j] == store[j]
  {
  }

  /** An empty update leaves the document as it was. */
  lemma EmptyPutChangesNothing(store: Store, id: string, validId: string -> bool, toDate: Json -> Result<Json, string>)
    requires validId(id) && id in store
    ensures Put(store, id, map[], validId, toDate) == (Response(200, Updated(store[id])), store)
  {
    var c := Changes(map[], None);
    assert c == map[];
    assert store[id] + c == store[id];
    assert store[id := store[id]] == store;
  }

  /** Sending the same update twice has the effect of sending it once. */
  lemma PutIsIdempotent(store: Store, id: string, body: Record, validId: string -> bool, toDate: Json -> Result<Json, string>)
    requires Put(store, id, body, validId, toDate).0.status == 200
    ensures var once := Put(store, id, body, validId, toDate);
            Put(once.1, id, body, validId, toDate) == once
  {
    var once := Put(store, id, body, validId, toDate);
    var c := Changes(body, PutDate(body, toDate).value);
    assert store[id] + c + c == store[id] + c;
    assert once.1[id := store[id] + c] == once.1;
  }

  // ---------------------------------------------------------------------
  // Delete
  // ---------------------------------------------------------------------

  /** `deleteClientes`: 400 for a malformed id, 404 for an unknown one, else the document is removed. */
  function Delete(store: Store, id: string, validId: string -> bool): (r: (Response, Store))
    ensures r.0.status == 400 <==> !validId(id)
    ensures r.0.status == 404 <==> validId(id) && id !in store
    ensures r.0.status == 200 <==> validId(id) && id in store
    ensures r.0.status == 400 ==> r.0.body == Rejected(InvalidId, InvalidIdFormat)
    ensures r.0.status == 404 ==> r.0.body == Rejected(NotFound, NoSuchId(id))
    ensures r.0.status != 200 ==> r.1 == store
    ensures r.0.status == 200 ==>
              && r.1 == store - {id}
              && r.0.body == Deleted(Get(store[id], "_id"), Get(store[id], "nombre"), Get(store[id], "producto"))
  {
    if !validId(id) then (Response(400, Rejected(InvalidId, InvalidIdFormat)), store)
    else if id !in store then (Response(404, Rejected(NotFound, NoSuchId(id))), store)
    else (Response(200, Deleted(Get(store[id], "_id"), Get(store[id], "nombre"), Get(store[id], "producto"))), store - {id})
  }

  // ---------------------------------------------------------------------
  // The store across requests
  // ---------------------------------------------------------------------

  /** Every document holds its own id. */
  predicate WellKeyed(store: Store) {
    forall id :: id in store ==> "_id" in store[id] && store[id]["_id"] == Str(id)
  }

  /** A creation keeps every document holding its own id. */
  lemma CreateKeepsWellKeyed(store: Store, body: Record, newId: string, toDate: Json -> Result<Json, string>)
    requires WellKeyed(store)
    ensures WellKeyed(Create(store, body, newId, toDate).1)
  {
  }

  /** An update never writes `_id`, so every document keeps its own id. */
  lemma PutKeepsWellKeyed(store: Store, id: string, body: Record, validId: string -> bool, toDate: Json -> Result<Json, string>)
    requires WellKeyed(store)
    ensures WellKeyed(Put(store, id, body, validId, toDate).1)
  {
    var p := Put(store, id, body, validId, toDate);
    if p.0.status == 200 {
      MergeKeepsWellKeyed(store, id, Changes(body, PutDate(body, toDate).value));
    }
  }

  lemma MergeKeepsWellKeyed(store: Store, id: string, c: Record)
    requires WellKeyed(store) && id in store && c.Keys <= ChangeKeys
    ensures WellKeyed(store[id := store[id] + c])
  {
    assert "_id" !in c;
  }

  /** A deletion keeps every document holding its own id. */
  lemma DeleteKeepsWellKeyed(store: Store, id: string, validId: string -> bool)
    requires WellKeyed(store)
    ensures WellKeyed(Delete(store, id, validId).1)
  {
  }

  /** A deletion reports the id it removed. */
  lemma DeleteReportsId(store: Store, id: string, validId: string -> bool)
    requires WellKeyed(store) && validId(id) && id in store
    ensures Delete(store, id, validId).0.body.id == Some(Str(id))
  {
  }

  /** A created document can be fetched under its new id. */
  lemma CreatedIsFound(store: Store, body: Record, newId: string, toDate: Json -> Result<Json, string>, validId: string -> bool)
    requires Create(store, body, newId, toDate).0.status == 201 && validId(newId)
    ensures var r := Create(store, body, newId, toDate);
            GetById(r.1, newId, validId) == Response(200, Found(r.0.body.cliente))
  {
  }

  /** A deleted document is no longer found, and the others still are. */
  lemma DeletedIsGone(store: Store, id: string, other: string, validId: string -> bool)
    requires validId(id) && id in store && other != id
    ensures GetById(Delete(store, id, validId).1, id, validId).status == 404
    ensures GetById(Delete(store, id, validId).1, other, validId) == GetById(store, other, validId)
  {
  }

  // ---------------------------------------------------------------------
  // The wire format
  // ---------------------------------------------------------------------

  function PaginationJson(p: Pagination): Json {
    Obj(map["currentPage" := Num(p.currentPage), "totalPages" := Num(p.totalPages),
            "totalClientes" := Num(p.totalClientes), "clientesPerPage" := Num(p.clientesPerPage)]
        + (if p.hasNextPage.Some? then map["hasNextPage" := Bool(p.hasNextPage.value)] else map[])
        + (if p.hasPrevPage.Some? then map["hasPrevPage" := Bool(p.hasPrevPage.value)] else map[]))
  }

  /** `{success, message, data}` as the handlers send it. */
  function Envelope(message: string, data: Json): Json {
    Obj(map["success" := Bool(true), "message" := Str(message), "data" := data])
  }

  /** The JSON text of a reply body; absent properties are left out, as `JSON.stringify` does. */
  function ToJson(b: Body): Json {
    match b
    case Rejected(message, error) => Obj(map["success" := Bool(false), "message" := Str(message), "error" := Str(error)])
    case Created(c) => Envelope(CreatedMessage, Obj(map["cliente" := Obj(c)]))
    case Listed(message, cs, p) =>
      Envelope(message, Obj(map["clientes" := Arr(seq(|cs|, i requires 0 <= i < |cs| => Obj(cs[i]))), "pagination" := PaginationJson(p)]))
    case Found(c) => Envelope(FoundMessage, Obj(map["cliente" := Obj(c)]))
    case Updated(c) => Envelope(UpdatedMessage, Obj(map["cliente" := Obj(c)]))
    case Deleted(id, nombre, producto) =>
      Envelope(DeletedMessage, Obj(map["clienteEliminado" := Obj(
        (if id.Some? then map["id" := id.value] else map[])
        + (if nombre.Some? then map["nombre" := nombre.value] else map[])
        + (if producto.Some? then map["producto" := producto.value] else map[]))]))
  }
}

=== FILE: cliente_hook.dfy ===
/**
  The second client-state hook (`hooks/useDataCliente.jsx`): it loads the
  same list with a normalisation that adds English-named aliases
  (`firstName`, `phone`, `address`, ...), and offers update, add and delete
  calls that report `{success, data}` or `{success: false, error}` to the
  caller instead of setting an error on the page.
*/
module ClienteHook {
  import opened Results
  import opened JsValue
  import JsText
  import Seqs
  import opened ApiClient
  import Search

  datatype State = State(
    clients: seq<Record>,
    selected: Option<Record>,
    showDetailView: bool,
    loading: bool,
    error: Option<string>,
    searchTerm: string,
    sortBy: string)

  const Initial := State([], None, false, true, None, "", "Newest")

  /** What an update, add or delete call resolves to. */
  datatype CallResult = Success(data: Option<Record>) | Failure(error: Json)

  /** The alias keys every normalisation writes, besides `_id`. */
  const AliasKeys: set<string> :=
    {"firstName", "lastName", "email", "idNumber", "birthDate", "phone", "address", "producto", "estado"}

  /** The keys `firstName` is taken from: the list load also accepts the misspelt `firtsName`. */
  const ListNameKeys: seq<string> := ["nombre", "firstName", "firtsName"]
  const SavedNameKeys: seq<string> := ["nombre", "firstName"]

  /** The fields an alias is read from, in order; the alias itself is always among them. */
  function Sources(alias: string, nameKeys: seq<string>): seq<string> {
    match alias
    case "firstName" => nameKeys
    case "birthDate" => ["fechaPedido", "birthDate"]
    case "phone" => ["telefono", "phone"]
    case "address" => ["dirrecion", "address"]
    case _ => [alias]
  }

  /** The value an alias takes when none of its sources is truthy. */
  function Default(alias: string): Json {
    match alias
    case "birthDate" => Null
    case "estado" => Str("pendiente")
    case _ => Str("")
  }

  /**
    The aliases shared by the three normalisations, each the first truthy
    of its source fields, else its default; every other field is kept.
  */
  function WithAliases(raw: Record, nameKeys: seq<string>): (r: Record)
    ensures r.Keys == raw.Keys + AliasKeys
    ensures forall k :: k in raw && k !in AliasKeys ==> r[k] == raw[k]
    ensures forall k :: k in AliasKeys ==> r[k] == FirstTruthy(raw, Sources(k, nameKeys), Default(k))
  {
    map k | k in raw.Keys + AliasKeys :: if k in AliasKeys then FirstTruthy(raw, Sources(k, nameKeys), Default(k)) else raw[k]
  }

  /** The normalisation of a record of the list reply; `_id` falls back to `id`, then to a placeholder. */
  function NormalizeListed(raw: Record, index: nat): (r: Record)
    ensures r.Keys == raw.Keys + AliasKeys + {"_id"}
    ensures forall k :: k in raw && k !in AliasKeys && k != "_id" ==> r[k] == raw[k]
    ensures forall k :: k in AliasKeys ==> r[k] == FirstTruthy(raw, Sources(k, ListNameKeys), Default(k))
    ensures Truthy(r["_id"])
    ensures HasTruthy(raw, "_id") ==> r["_id"] == raw["_id"]
    ensures !HasTruthy(raw, "_id") && HasTruthy(raw, "id") ==> r["_id"] == raw["id"]
    ensures !HasTruthy(raw, "_id") && !HasTruthy(raw, "id") ==> r["_id"] == Str("temp-" + JsText.NatToString(index))
  {
    IdIsNoAlias();
    WithAliases(raw, ListNameKeys)["_id" := Or(Get(raw, "_id"), Or(Get(raw, "id"), Str("temp-" + JsText.NatToString(index))))]
  }

  lemma IdIsNoAlias()
    ensures "_id" !in AliasKeys
  {
  }

  /** The list normalisation fills the aliases the page spells out: a name, a phone, an address and a status. */
  lemma ListedAliases(raw: Record, index: nat)
    ensures var r := NormalizeListed(raw, index);
            && r["firstName"] == FirstTruthy(raw, ["nombre", "firstName", "firtsName"], Str(""))
            && r["phone"] == FirstTruthy(raw, ["telefono", "phone"], Str(""))
            && r["address"] == FirstTruthy(raw, ["dirrecion", "address"], Str(""))
            && r["birthDate"] == FirstTruthy(raw, ["fechaPedido", "birthDate"], Null)
            && r["estado"] == (if HasTruthy(raw, "estado") then raw["estado"] else Str("pendiente"))
            && Truthy(r["estado"])
  {
    var r := NormalizeListed(raw, index);
    assert "firstName" in AliasKeys && Sources("firstName", ListNameKeys) == ListNameKeys;
    assert "phone" in AliasKeys && Sources("phone", ListNameKeys) == ["telefono", "phone"];
    assert "address" in AliasKeys && Sources("address", ListNameKeys) == ["dirrecion", "address"];
    assert "birthDate" in AliasKeys && Sources("birthDate", ListNameKeys) == ["fechaPedido", "birthDate"];
    assert "estado" in AliasKeys && Sources("estado", ListNameKeys) == ["estado"];
    FirstTruthySingle(raw, "estado", Str("pendiente"));
  }

  /**
    A listed record normalised again is unchanged: every alias already holds
    the value its first truthy source gives, or a falsy default that the
    second pass reproduces.
  */
  lemma NormalizeListedIdempotent(raw: Record, i: nat, j: nat)
    ensures NormalizeListed(NormalizeListed(raw, i), j) == NormalizeListed(raw, i)
  {
    var once := NormalizeListed(raw, i);
    var twice := NormalizeListed(once, j);
    IdIsNoAlias();
    SourcesAreKept("estado");
    assert twice.Keys == once.Keys;
    assert twice["_id"] == once["_id"];
    forall k | k in AliasKeys ensures twice[k] == once[k] {
      AliasReread(raw, once, k);
    }
    forall k | k in twice && k !in AliasKeys && k != "_id" ensures twice[k] == once[k] {
    }
    SameEntries(twice, once);
  }

  /** The fields aliases are read from that are not aliases themselves. */
  const SourceKeys: set<string> := {"nombre", "firtsName", "fechaPedido", "telefono", "dirrecion"}

  lemma SourcesAreKept(k: string)
    requires k in AliasKeys
    ensures forall n :: 0 <= n < |Sources(k, ListNameKeys)| ==> Sources(k, ListNameKeys)[n] == k || Sources(k, ListNameKeys)[n] in SourceKeys
    ensures forall s :: s in SourceKeys ==> s !in AliasKeys && s != "_id"
  {
  }

  lemma AliasReread(raw: Record, once: Record, k: string)
    requires k in AliasKeys
    requires forall s :: s in SourceKeys && s in raw ==> s in once && once[s] == raw[s]
    requires forall s :: s in SourceKeys ==> (s in once <==> s in raw)
    requires once.Keys >= AliasKeys && once[k] == FirstTruthy(raw, Sources(k, ListNameKeys), Default(k))
    ensures FirstTruthy(once, Sources(k, ListNameKeys), Default(k)) == once[k]
  {
    var src := Sources(k, ListNameKeys);
    SourcesAreKept(k);
    if k == "estado" {
      assert src == ["estado"];
      assert Default(k) == Str("pendiente");
      assert Truthy(once[k]);
    } else {
      assert !Truthy(Default(k));
      FirstTruthyStable(raw, once, src, k, Default(k));
    }
  }

  /**
    Re-reading an `a || b || ...` chain from a record where only the alias
    `a` changed, to the chain's own value, gives the same value when the
    fallback is falsy.
  */
  lemma {:induction false} FirstTruthyStable(raw: Record, once: Record, keys: seq<string>, a: string, fallback: Json)
    requires forall n :: 0 <= n < |keys| && keys[n] != a ==> Get(once, keys[n]) == Get(raw, keys[n])
    requires a in once && once[a] == FirstTruthy(raw, keys, fallback)
    requires !Truthy(fallback)
    ensures FirstTruthy(once, keys, fallback) == FirstTruthy(raw, keys, fallback)
  {
    if |keys| > 0 {
      if keys[0] != a {
        assert Get(once, keys[0]) == Get(raw, keys[0]);
        if !HasTruthy(raw, keys[0]) {
          FirstTruthyStable(raw, once, keys[1..], a, fallback);
        }
      } else if !Truthy(once[a]) {
        assert !HasTruthy(raw, a);
        FirstTruthyStable(raw, once, keys[1..], a, fallback);
      }
    }
  }

  /**
    `fetchClients`: the same envelope choice and error messages as the
    other hook, with this hook's normalisation.
  */
  function FetchClients(s: State, reply: Reply): (r: State)
    ensures !r.loading
    ensures r == s.(clients := r.clients, error := r.error, loading := false)
    ensures r.selected == s.selected && r.searchTerm == s.searchTerm && r.sortBy == s.sortBy
    ensures r.error.None? <==> LoadList(reply, NormalizeListed).Ok?
    ensures r.error.Some? ==> r.clients == [] && r.error == Some(LoadList(reply, NormalizeListed).error)
    ensures r.error.None? ==> var items := SelectEnvelope(reply.data).value;
              |r.clients| == |items| && forall i :: 0 <= i < |items| ==> r.clients[i] == NormalizeListed(Spread(items[i]), i)
  {
    match LoadList(reply, NormalizeListed)
    case Err(msg) => s.(clients := [], error := Some(msg), loading := false)
    case Ok(rs) => s.(clients := rs, error := None, loading := false)
  }

  /** `error.response?.data?.message || fallback`: the server's message when it sent a truthy one. */
  function CallError(f: Failure, fallback: string): (e: Json)
    ensures f.HttpError? && f.data.Obj? && HasTruthy(f.data.fields, "message") ==> e == f.data.fields["message"]
    ensures !(f.HttpError? && f.data.Obj? && HasTruthy(f.data.fields, "message")) ==> e == Str(fallback)
  {
    Or(if f.HttpError? then OptProp(Some(f.data), "message") else None, Str(fallback))
  }

  /** The fields an update may send. */
  const UpdateKeys: seq<string> := ["nombre", "producto", "fechaPedido", "telefono", "dirrecion", "estado"]

  /** The body of the update request: exactly the updatable fields that are truthy in `updateData`. */
  function UpdatePayload(updateData: Record): (r: Record)
    ensures forall k :: k in r <==> k in UpdateKeys && HasTruthy(updateData, k)
    ensures forall k :: k in r ==> k in updateData && r[k] == updateData[k]
  {
    map k | k in updateData.Keys && k in UpdateKeys && Truthy(updateData[k]) :: updateData[k]
  }

  /** The normalisation of the record an update returns: `_id` falls back to the id that was updated. */
  function NormalizeUpdated(raw: Record, clientId: Json): (r: Record)
    ensures r.Keys == raw.Keys + AliasKeys + {"_id"}
    ensures forall k :: k in raw && k !in AliasKeys && k != "_id" ==> r[k] == raw[k]
    ensures forall k :: k in AliasKeys ==> r[k] == FirstTruthy(raw, Sources(k, SavedNameKeys), Default(k))
    ensures r["_id"] == if HasTruthy(raw, "_id") then raw["_id"] else clientId
  {
    IdIsNoAlias();
    WithAliases(raw, SavedNameKeys)["_id" := Or(Get(raw, "_id"), clientId)]
  }

  /** The selection refers to the record with id `id`. */
  predicate SelectedIs(s: State, id: Json) {
    s.selected.Some? && Get(s.selected.value, "_id") == Some(id)
  }

  /** The update once the reply has been read: the normalised record replaces the entries with that id. */
  function ApplyUpdate(s: State, clientId: Json, outcome: Result<Json, Failure>): (State, CallResult) {
    match outcome
    case Err(f) => (s, Failure(CallError(f, "Error al actualizar cliente")))
    case Ok(server) =>
      var rec := NormalizeUpdated(Spread(server), clientId);
      (s.(clients := Seqs.ReplaceWhere(s.clients, IdIs(Some(clientId)), rec),
          selected := if SelectedIs(s, clientId) then Some(rec) else s.selected),
       Success(Some(rec)))
  }

  /**
    `updateClient(clientId, ...)` once the request settled, reading the
    saved record as the hook does: on success every entry whose `_id` is
    `clientId`, and the selection when it is that record, become the
    normalised saved record, which is also returned; on failure nothing
    changes and the server's message or a default is returned.
  */
  function UpdateClient(s: State, clientId: Json, reply: Reply): (r: (State, CallResult))
    ensures (reply.Failed? || UpdatedRecordAsWritten(reply.data).Err?) ==>
              var f := if reply.Failed? then reply.failure else UpdatedRecordAsWritten(reply.data).error;
              r == (s, Failure(CallError(f, "Error al actualizar cliente")))
    ensures reply.Received? && UpdatedRecordAsWritten(reply.data).Ok? ==>
              var rec := NormalizeUpdated(Spread(UpdatedRecordAsWritten(reply.data).value), clientId);
              && r.1 == Success(Some(rec))
              && |r.0.clients| == |s.clients|
              && (forall i :: 0 <= i < |s.clients| ==>
                    r.0.clients[i] == if Get(s.clients[i], "_id") == Some(clientId) then rec else s.clients[i])
              && r.0.selected == (if SelectedIs(s, clientId) then Some(rec) else s.selected)
              && r.0 == s.(clients := r.0.clients, selected := r.0.selected)
  {
    ApplyUpdate(s, clientId, Settled(reply, UpdatedRecordAsWritten))
  }

  /** `UpdateClient` with the saved record read through the corrected unwrap, `UpdatedRecord`. */
  function UpdateClientCorrected(s: State, clientId: Json, reply: Reply): (r: (State, CallResult))
    ensures (reply.Failed? || UpdatedRecord(reply.data).Err?) ==>
              var f := if reply.Failed? then reply.failure else UpdatedRecord(reply.data).error;
              r == (s, Failure(CallError(f, "Error al actualizar cliente")))
    ensures reply.Received? && UpdatedRecord(reply.data).Ok? ==>
              var rec := NormalizeUpdated(Spread(UpdatedRecord(reply.data).value), clientId);
              && r.1 == Success(Some(rec))
              && |r.0.clients| == |s.clients|
              && (forall i :: 0 <= i < |s.clients| ==>
                    r.0.clients[i] == if Get(s.clients[i], "_id") == Some(clientId) then rec else s.clients[i])
              && r.0.selected == (if SelectedIs(s, clientId) then Some(rec) else s.selected)
              && r.0 == s.(clients := r.0.clients, selected := r.0.selected)
  {
    ApplyUpdate(s, clientId, Settled(reply, UpdatedRecord))
  }

  /** The body of the add request: every field present, with "" and "pendiente" for missing ones. */
  function AddPayload(clientData: Record): (r: Record)
    ensures r.Keys == {"nombre", "producto", "fechaPedido", "telefono", "dirrecion", "estado"}
    ensures r["nombre"] == FirstTruthy(clientData, ["nombre", "firstName"], Str(""))
    ensures r["producto"] == FirstTruthy(clientData, ["producto"], Str(""))
    ensures r["fechaPedido"] == FirstTruthy(clientData, ["fechaPedido", "birthDate"], Str(""))
    ensures r["telefono"] == FirstTruthy(clientData, ["telefono", "phone"], Str(""))
    ensures r["dirrecion"] == FirstTruthy(clientData, ["dirrecion", "address"], Str(""))
    ensures Truthy(r["estado"]) && r["estado"] == FirstTruthy(clientData, ["estado"], Str("pendiente"))
  {
    FirstTruthySingle(clientData, "estado", Str("pendiente"));
    map["nombre" := FirstTruthy(clientData, ["nombre", "firstName"], Str("")),
        "producto" := FirstTruthy(clientData, ["producto"], Str("")),
        "fechaPedido" := FirstTruthy(clientData, ["fechaPedido", "birthDate"], Str("")),
        "telefono" := FirstTruthy(clientData, ["telefono", "phone"], Str("")),
        "dirrecion" := FirstTruthy(clientData, ["dirrecion", "address"], Str("")),
        "estado" := FirstTruthy(clientData, ["estado"], Str("pendiente"))]
  }

  /** The creation once the reply has been read: the normalised record is appended. */
  function ApplyAdd(s: State, outcome: Result<Json, Failure>): (State, CallResult) {
    match outcome
    case Err(f) => (s, Failure(CallError(f, "Error al agregar cliente")))
    case Ok(created) =>
      var rec := WithAliases(Spread(created), SavedNameKeys);
      (s.(clients := s.clients + [rec]), Success(Some(rec)))
  }

  /**
    `addClient` once the request settled, reading the created record as
    the hook does: on success exactly one record, the normalised created
    record, is appended and returned; on failure nothing changes.
  */
  function AddClient(s: State, reply: Reply): (r: (State, CallResult))
    ensures (reply.Failed? || CreatedRecordAsWritten(reply.data).Err?) ==>
              var f := if reply.Failed? then reply.failure else CreatedRecordAsWritten(reply.data).error;
              r == (s, Failure(CallError(f, "Error al agregar cliente")))
    ensures reply.Received? && CreatedRecordAsWritten(reply.data).Ok? ==>
              var rec := WithAliases(Spread(CreatedRecordAsWritten(reply.data).value), SavedNameKeys);
              r == (s.(clients := s.clients + [rec]), Success(Some(rec)))
  {
    ApplyAdd(s, Settled(reply, CreatedRecordAsWritten))
  }

  /** `AddClient` with the created record read through the corrected unwrap, `CreatedRecord`. */
  function AddClientCorrected(s: State, reply: Reply): (r: (State, CallResult))
    ensures (reply.Failed? || CreatedRecord(reply.data).Err?) ==>
              var f := if reply.Failed? then reply.failure else CreatedRecord(reply.data).error;
              r == (s, Failure(CallError(f, "Error al agregar cliente")))
    ensures reply.Received? && CreatedRecord(reply.data).Ok? ==>
              var rec := WithAliases(Spread(CreatedRecord(reply.data).value), SavedNameKeys);
              r == (s.(clients := s.clients + [rec]), Success(Some(rec)))
  {
    ApplyAdd(s, Settled(reply, CreatedRecord))
  }

  /**
    `deleteClient(clientId)` once the request settled: on success every
    entry with that `_id` is removed, the others keep their order, and the
    selection and detail view close only when the deleted record was
    selected; on failure nothing changes.
  */
  function DeleteClient(s: State, clientId: Json, reply: Reply): (r: (State, CallResult))
    ensures reply.Failed? ==> r == (s, Failure(CallError(reply.failure, "Error al eliminar cliente")))
    ensures reply.Received? ==>
              && r.1 == Success(None)
              && r.0 == s.(clients := r.0.clients, selected := r.0.selected, showDetailView := r.0.showDetailView)
              && (forall i :: 0 <= i < |r.0.clients| ==> Get(r.0.clients[i], "_id") != Some(clientId))
              && (forall i :: 0 <= i < |s.clients| && Get(s.clients[i], "_id") != Some(clientId) ==> s.clients[i] in r.0.clients)
              && (forall c :: Get(c, "_id") != Some(clientId) ==> multiset(r.0.clients)[c] == multiset(s.clients)[c])
              && Seqs.SubsequenceOf(r.0.clients, s.clients)
              && (SelectedIs(s, clientId) ==> r.0.selected.None? && !r.0.showDetailView)
              && (!SelectedIs(s, clientId) ==> r.0.selected == s.selected && r.0.showDetailView == s.showDetailView)
  {
    match reply
    case Failed(f) => (s, Failure(CallError(f, "Error al eliminar cliente")))
    case Received(_, _) =>
      Seqs.FilterIsSubsequence(s.clients, IdIsNot(Some(clientId)));
      var kept := Seqs.Filter(s.clients, IdIsNot(Some(clientId)));
      (if SelectedIs(s, clientId) then s.(clients := kept, selected := None, showDetailView := false)
       else s.(clients := kept),
       Success(None))
  }

  /** The fields the search box looks in. */
  const SearchKeys: seq<string> := ["firstName", "lastName", "idNumber", "email", "phone", "producto", "nombre"]

  /** `filteredClients`: the records whose joined search fields contain the search term, case ignored. */
  function FilteredClients(s: State): (r: seq<Record>)
    ensures |r| <= |s.clients|
    ensures forall i :: 0 <= i < |r| ==> r[i] in s.clients && Search.Matches(r[i], SearchKeys, s.searchTerm)
    ensures forall i :: 0 <= i < |s.clients| && Search.Matches(s.clients[i], SearchKeys, s.searchTerm) ==> s.clients[i] in r
    ensures forall c :: Search.Matches(c, SearchKeys, s.searchTerm) ==> multiset(r)[c] == multiset(s.clients)[c]
    ensures forall c :: !Search.Matches(c, SearchKeys, s.searchTerm) ==> multiset(r)[c] == 0
  {
    Search.FilterBy(s.clients, SearchKeys, s.searchTerm)
  }

  /** The selection, when there is one, is one of the listed records. */
  predicate SelectionListed(s: State) {
    s.selected.Some? ==> s.selected.value in s.clients
  }

  /** An update keeps the selection among the listed records. */
  lemma UpdateKeepsSelectionListed(s: State, clientId: Json, reply: Reply)
    requires SelectionListed(s)
    ensures SelectionListed(UpdateClient(s, clientId, reply).0)
  {
    var r := UpdateClient(s, clientId, reply).0;
    if s.selected.Some? && r != s {
      var i :| 0 <= i < |s.clients| && s.clients[i] == s.selected.value;
      assert r.clients[i] == r.selected.value;
    }
  }

  /** An add keeps the selection among the listed records. */
  lemma AddKeepsSelectionListed(s: State, reply: Reply)
    requires SelectionListed(s)
    ensures SelectionListed(AddClient(s, reply).0)
  {
    var r := AddClient(s, reply).0;
    if s.selected.Some? && r != s {
      var i :| 0 <= i < |s.clients| && s.clients[i] == s.selected.value;
      assert r.clients[i] == s.clients[i];
    }
  }

  /** A delete keeps the selection among the listed records: it is cleared when its record goes. */
  lemma DeleteKeepsSelectionListed(s: State, clientId: Json, reply: Reply)
    requires SelectionListed(s)
    ensures SelectionListed(DeleteClient(s, clientId, reply).0)
  {
    if s.selected.Some? && !SelectedIs(s, clientId) && reply.Received? {
      var i :| 0 <= i < |s.clients| && s.clients[i] == s.selected.value;
      assert Get(s.clients[i], "_id") != Some(clientId);
    }
  }

  /** Deleting an id no listed record carries leaves the list as it was. */
  lemma DeleteAbsentIdKeepsList(s: State, clientId: Json, status: int, data: Json)
    requires forall i :: 0 <= i < |s.clients| ==> Get(s.clients[i], "_id") != Some(clientId)
    ensures DeleteClient(s, clientId, Received(status, data)).0.clients == s.clients
  {
    Seqs.FilterKeepsAll(s.clients, IdIsNot(Some(clientId)));
  }
}

=== FILE: edit_modal.dfy ===
/**
  The edit dialog (`hooks/Empleados/EditEmployeeModal.jsx`): loading a
  record into the form, editing one input, and building the request body
  `handleSave` hands to `onSave`. Date parsing and formatting are
  parameters: `formatDate` stands for the `Date`/`toISOString` round trip
  the dialog uses to fill the date input (its failures already caught and
  turned into ""), and `toIso` for the conversion on save, whose failure
  (`None`) is an uncaught `RangeError`.
*/
module EditModal {
  import opened Results
  import opened JsValue
  import JsText

  /** The text inputs, in the order `handleSave` reads them. */
  const TextKeys: seq<string> := ["nombre", "producto", "telefono", "dirrecion"]

  const DateKey := "fechaPedido"

  /** The inputs of the dialog. */
  const FormKeys: set<string> := {"nombre", "producto", "telefono", "dirrecion", "fechaPedido"}

  /** The dialog's form state, one entry per input. */
  type EditForm = Record

  /** The value of the date input for a stored date: "" for a falsy or missing one. */
  function DateForInput(v: Option<Json>, formatDate: Json -> string): (s: string)
    ensures !TruthyOpt(v) ==> s == ""
  {
    if TruthyOpt(v) then formatDate(v.value) else ""
  }

  /**
    Loading a record: each text input takes the record's value when that
    is truthy and "" otherwise; the date input takes the formatted date.
  */
  function Load(cliente: Record, formatDate: Json -> string): (r: EditForm)
    ensures r.Keys == FormKeys
    ensures forall i :: 0 <= i < |TextKeys| ==> r[TextKeys[i]] == Or(Get(cliente, TextKeys[i]), Str(""))
    ensures r[DateKey] == Str(DateForInput(Get(cliente, DateKey), formatDate))
  {
    map k | k in FormKeys :: if k == DateKey then Str(DateForInput(Get(cliente, k), formatDate)) else Or(Get(cliente, k), Str(""))
  }

  /** The effect that fills the form: it runs only while the dialog is open with a record. */
  function Opened(form: EditForm, cliente: Option<Record>, isOpen: bool, formatDate: Json -> string): (r: EditForm)
    ensures cliente.Some? && isOpen ==> r == Load(cliente.value, formatDate)
    ensures cliente.None? || !isOpen ==> r == form
  {
    if cliente.Some? && isOpen then Load(cliente.value, formatDate) else form
  }

  /** `handleInputChange`: the named input takes the typed text. */
  function HandleInputChange(form: EditForm, name: string, value: string): (r: EditForm)
    ensures r.Keys == form.Keys + {name}
    ensures r[name] == Str(value)
    ensures forall k :: k in form && k != name ==> r[k] == form[k]
  {
    form[name := Str(value)]
  }

  /** Typing an input's old text back restores the form. */
  lemma RetypingRestores(form: EditForm, name: string, value: string)
    requires name in form && form[name].Str?
    ensures HandleInputChange(HandleInputChange(form, name, value), name, form[name].s) == form
  {
    var r := HandleInputChange(HandleInputChange(form, name, value), name, form[name].s);
    SameEntries(r, form);
  }

  /** Edits to two different inputs do not interfere. */
  lemma EditsCommute(form: EditForm, a: string, u: string, b: string, v: string)
    requires a != b
    ensures HandleInputChange(HandleInputChange(form, a, u), b, v) == HandleInputChange(HandleInputChange(form, b, v), a, u)
  {
    var x := HandleInputChange(HandleInputChange(form, a, u), b, v);
    var y := HandleInputChange(HandleInputChange(form, b, v), a, u);
    SameEntries(x, y);
  }

  /** What pressing save does. */
  datatype SaveOutcome =
    | NothingToSave            // the "no changes" alert; `onSave` is not called
    | CallOnSave(payload: Record)  // `onSave` is called once, with this body
    | Crash(error: string)     // an exception escapes the handler

  /** A text input whose truthy value has no `trim` method. */
  predicate Untrimmable(form: EditForm, k: string) {
    HasTruthy(form, k) && !form[k].Str?
  }

  /** A text input is sent when it holds a string that is not blank. */
  predicate Sends(form: EditForm, k: string) {
    k in form && form[k].Str? && JsText.Trim(form[k].s) != ""
  }

  /** The first of `keys` whose value `trim` would throw on. */
  function FirstUntrimmable(form: EditForm, keys: seq<string>): (r: Option<string>)
    ensures r.None? <==> forall i :: 0 <= i < |keys| ==> !Untrimmable(form, keys[i])
    ensures r.Some? ==> r.value in keys && Untrimmable(form, r.value)
  {
    if keys == [] then None
    else if Untrimmable(form, keys[0]) then Some(keys[0])
    else FirstUntrimmable(form, keys[1..])
  }

  function TrimError(k: string): string {
    "TypeError: formData." + k + ".trim is not a function"
  }

  const InvalidDate := "RangeError: Invalid time value"

  /** The text part of the body: every sent input, trimmed. */
  function TextPayload(form: EditForm): (r: Record)
    ensures forall k :: k in r <==> k in TextKeys && Sends(form, k)
    ensures forall k :: k in r ==> Sends(form, k) && r[k] == Str(JsText.Trim(form[k].s))
  {
    map k | k in TextKeys && Sends(form, k) :: Str(JsText.Trim(form[k].s))
  }

  /** The body for a form whose texts all have `trim`, given the converted date if there is one. */
  function Body(form: EditForm, iso: Option<string>): (r: Record)
    ensures forall k :: k in r <==> (k in TextKeys && Sends(form, k)) || (k == DateKey && iso.Some?)
    ensures forall k :: k in TextKeys && Sends(form, k) ==> r[k] == Str(JsText.Trim(form[k].s))
    ensures iso.Some? ==> r[DateKey] == Str(iso.value)
  {
    if iso.Some? then TextPayload(form)[DateKey := Str(iso.value)] else TextPayload(form)
  }

  /** The converted date, when the date input is filled; the conversion itself may fail. */
  function SentDate(form: EditForm, toIso: Json -> Option<string>): (r: Result<Option<string>, string>)
    ensures r.Err? <==> HasTruthy(form, DateKey) && toIso(form[DateKey]).None?
    ensures r.Ok? ==> (r.value.Some? <==> HasTruthy(form, DateKey))
    ensures r.Ok? && r.value.Some? ==> toIso(form[DateKey]) == r.value
  {
    if !HasTruthy(form, DateKey) then Ok(None)
    else match toIso(form[DateKey])
      case None => Err(InvalidDate)
      case Some(iso) => Ok(Some(iso))
  }

  /** No text input would make `trim` throw. */
  predicate AllTrimmable(form: EditForm) {
    forall i :: 0 <= i < |TextKeys| ==> !Untrimmable(form, TextKeys[i])
  }

  /** Some text input is sent. */
  predicate SomeTextSent(form: EditForm) {
    exists i :: 0 <= i < |TextKeys| && Sends(form, TextKeys[i])
  }

  /**
    `handleSave`: the text inputs, then the date, are copied into the body;
    a body with no entry is not sent.
  */
  function HandleSave(form: EditForm, toIso: Json -> Option<string>): (r: SaveOutcome)
    ensures r.Crash? <==> !AllTrimmable(form) || SentDate(form, toIso).Err?
    ensures r.NothingToSave? <==> AllTrimmable(form) && !SomeTextSent(form) && !HasTruthy(form, DateKey)
    ensures r.CallOnSave? ==> |r.payload| > 0 && r.payload == Body(form, SentDate(form, toIso).value)
  {
    match FirstUntrimmable(form, TextKeys)
    case Some(k) => Crash(TrimError(k))
    case None =>
      match SentDate(form, toIso)
      case Err(e) => Crash(e)
      case Ok(iso) =>
        var body := Body(form, iso);
        if |body| == 0 then
          NothingToSave
        else
          assert iso.None? && !HasTruthy(form, DateKey) ==> SomeTextSent(form) by {
            if iso.None? {
              var k :| k in body;
              assert k in TextKeys && Sends(form, k);
              var i :| 0 <= i < |TextKeys| && TextKeys[i] == k;
            }
          }
          CallOnSave(body)
  }

  /** A blank text input is never sent, whatever else the form holds. */
  lemma BlankIsNeverSent(form: EditForm, toIso: Json -> Option<string>, k: string)
    requires k in TextKeys && k in form && form[k].Str? && JsText.IsBlank(form[k].s)
    ensures var r := HandleSave(form, toIso); r.CallOnSave? ==> k !in r.payload
  {
    assert !Sends(form, k) by {
      JsText.TrimEmptyIffBlank(form[k].s);
    }
  }

  /** Building the text body from a body already built changes nothing. */
  lemma TextPayloadIsStable(form: EditForm)
    ensures TextPayload(TextPayload(form)) == TextPayload(form)
  {
    var p := TextPayload(form);
    forall k | k in p ensures Sends(p, k) && JsText.Trim(p[k].s) == p[k].s {
      JsText.TrimIdempotent(form[k].s);
    }
    SameEntries(TextPayload(p), p);
  }

  /**
    Opening a record and saving without editing sends exactly the record's
    own non-blank texts, trimmed: the "" the dialog puts in place of a
    missing value is never sent.
  */
  lemma LoadThenSaveSendsRecordTexts(cliente: Record, formatDate: Json -> string)
    ensures TextPayload(Load(cliente, formatDate)) == TextPayload(cliente)
  {
    var form := Load(cliente, formatDate);
    forall i | 0 <= i < |TextKeys|
      ensures Sends(form, TextKeys[i]) <==> Sends(cliente, TextKeys[i])
      ensures Sends(form, TextKeys[i]) ==> form[TextKeys[i]] == cliente[TextKeys[i]]
    {
    }
    TextPayloadCongruent(form, cliente);
  }

  /** Two forms that send the same texts have the same text body. */
  lemma TextPayloadCongruent(a: EditForm, b: EditForm)
    requires forall i :: 0 <= i < |TextKeys| ==> (Sends(a, TextKeys[i]) <==> Sends(b, TextKeys[i]))
    requires forall i :: 0 <= i < |TextKeys| && Sends(a, TextKeys[i]) && Sends(b, TextKeys[i]) ==> a[TextKeys[i]] == b[TextKeys[i]]
    ensures TextPayload(a) == TextPayload(b)
  {
    var p, q := TextPayload(a), TextPayload(b);
    forall k | k in TextKeys ensures (k in p <==> k in q) && (k in p ==> p[k] == q[k]) {
      var i :| 0 <= i < |TextKeys| && TextKeys[i] == k;
    }
    SameEntries(p, q);
  }

  /** A record holding a number (or any other non-string) in a text field cannot be saved unedited. */
  lemma LoadedNonStringCrashes(cliente: Record, formatDate: Json -> string, toIso: Json -> Option<string>, i: nat)
    requires i < |TextKeys| && HasTruthy(cliente, TextKeys[i]) && !cliente[TextKeys[i]].Str?
    ensures HandleSave(Load(cliente, formatDate), toIso).Crash?
  {
    var form := Load(cliente, formatDate);
    assert Untrimmable(form, TextKeys[i]);
  }
}

=== FILE: empleado_hook.dfy ===
/**
  The client-state hook the client list page reads
  (`hooks/Empleados/hooks/useDataEmpleado.jsx`): loading and normalising
  the list, the search filter, selection, the confirmed delete, and the
  optimistic edit with its reconciliation and rollback. React state
  updates are modelled as pure transitions on `State`; each network call
  is an oracle `Reply`.
*/
module EmpleadoHook {
  import opened Results
  import opened JsValue
  import JsText
  import Seqs
  import opened ApiClient
  import Search

  datatype State = State(
    clientes: seq<Record>,
    selected: Option<Record>,
    showDetailView: bool,
    loading: bool,
    error: Option<string>,
    searchTerm: string,
    sortBy: string,
    showConfirmDelete: bool,
    showSuccessAlert: bool,
    showEditAlert: bool,
    successType: string,
    uploading: bool)

  /** The state the hook starts from, before the initial fetch settles. */
  const Initial := State([], None, false, true, None, "", "Newest", false, false, false, "delete", false)

  /** The text fields that normalisation defaults to "". */
  const TextFields: seq<string> := ["nombre", "producto", "telefono", "dirrecion"]

  /** Every key normalisation writes. */
  const NormalizedKeys: set<string> := {"nombre", "producto", "telefono", "dirrecion", "fechaPedido", "_id"}

  /** The placeholder id a record without `_id` or `id` gets from its position in the reply. */
  function TempId(index: nat): Json {
    Str("temp-" + JsText.NatToString(index))
  }

  /**
    One record of the list reply, with every field the page shows present:
    the text fields default to "", `fechaPedido` to null, and `_id` falls
    back to `id` and then to a placeholder; all other fields are kept.
  */
  function Normalize(raw: Record, index: nat): (r: Record)
    ensures forall k :: k !in NormalizedKeys ==> (k in r <==> k in raw)
    ensures forall k :: k !in NormalizedKeys && k in raw ==> r[k] == raw[k]
    ensures forall i :: 0 <= i < |TextFields| ==>
              TextFields[i] in r && r[TextFields[i]] == if HasTruthy(raw, TextFields[i]) then raw[TextFields[i]] else Str("")
    ensures "fechaPedido" in r && r["fechaPedido"] == if HasTruthy(raw, "fechaPedido") then raw["fechaPedido"] else Null
    ensures "_id" in r && Truthy(r["_id"])
    ensures HasTruthy(raw, "_id") ==> r["_id"] == raw["_id"]
    ensures !HasTruthy(raw, "_id") && HasTruthy(raw, "id") ==> r["_id"] == raw["id"]
    ensures !HasTruthy(raw, "_id") && !HasTruthy(raw, "id") ==> r["_id"] == TempId(index)
  {
    raw["nombre" := Or(Get(raw, "nombre"), Str(""))]
       ["producto" := Or(Get(raw, "producto"), Str(""))]
       ["telefono" := Or(Get(raw, "telefono"), Str(""))]
       ["dirrecion" := Or(Get(raw, "dirrecion"), Str(""))]
       ["fechaPedido" := Or(Get(raw, "fechaPedido"), Null)]
       ["_id" := Or(Get(raw, "_id"), Or(Get(raw, "id"), TempId(index)))]
  }

  /** Normalising a normalised record again, at any position, changes nothing. */
  lemma NormalizeIdempotent(raw: Record, i: nat, j: nat)
    ensures Normalize(Normalize(raw, i), j) == Normalize(raw, i)
  {
    var once := Normalize(raw, i);
    var twice := Normalize(once, j);
    assert forall k :: k in twice <==> k in once;
    forall k | k in twice ensures twice[k] == once[k] {
      if k in TextFields {
        var t :| 0 <= t < |TextFields| && TextFields[t] == k;
      }
    }
  }

  /**
    `fetchClientes`: the list reply's records, normalised, replace the list
    and clear the error; an unknown reply shape, a `null` record or a failed
    call leave an empty list and an error message. Loading ends either way.
  */
  function FetchClientes(s: State, reply: Reply): (r: State)
    ensures !r.loading
    ensures r == s.(clientes := r.clientes, error := r.error, loading := false)
    ensures r.selected == s.selected && r.searchTerm == s.searchTerm && r.sortBy == s.sortBy
    ensures r.error.None? <==> LoadList(reply, Normalize).Ok?
    ensures r.error.Some? ==> r.clientes == [] && r.error == Some(LoadList(reply, Normalize).error)
    ensures r.error.None? ==> var items := SelectEnvelope(reply.data).value;
              |r.clientes| == |items| && forall i :: 0 <= i < |items| ==> r.clientes[i] == Normalize(Spread(items[i]), i)
  {
    match LoadList(reply, Normalize)
    case Err(msg) => s.(clientes := [], error := Some(msg), loading := false)
    case Ok(rs) => s.(clientes := rs, error := None, loading := false)
  }

  /** `filterClientes`: the records whose name, product, phone or address contain the search term. */
  function FilterClientes(clientes: seq<Record>, term: string): (r: seq<Record>)
    ensures |r| <= |clientes|
    ensures forall i :: 0 <= i < |r| ==> r[i] in clientes && Search.Matches(r[i], TextFields, term)
    ensures forall i :: 0 <= i < |clientes| && Search.Matches(clientes[i], TextFields, term) ==> clientes[i] in r
    ensures forall c :: Search.Matches(c, TextFields, term) ==> multiset(r)[c] == multiset(clientes)[c]
    ensures forall c :: !Search.Matches(c, TextFields, term) ==> multiset(r)[c] == 0
  {
    Search.FilterBy(clientes, TextFields, term)
  }

  const DeleteError := "Error al eliminar el cliente"

  /**
    `confirmDelete`, once the user confirmed: with no selection the
    property read throws before any request and an error is shown; a
    successful delete removes every record with the selected `_id` and
    clears the selection; a failed one changes nothing but the error.
  */
  function ConfirmDelete(s: State, reply: Reply): (r: State)
    ensures !r.showConfirmDelete
    ensures s.selected.None? || reply.Failed? ==>
              r == s.(showConfirmDelete := false, error := Some(DeleteError))
    ensures s.selected.Some? && reply.Received? ==>
              && r == s.(clientes := r.clientes, selected := None, showDetailView := false,
                         showConfirmDelete := false, showSuccessAlert := true, successType := "delete")
              && (forall i :: 0 <= i < |r.clientes| ==> Get(r.clientes[i], "_id") != Get(s.selected.value, "_id"))
              && (forall i :: 0 <= i < |s.clientes| && Get(s.clientes[i], "_id") != Get(s.selected.value, "_id")
                    ==> s.clientes[i] in r.clientes)
              && (forall c :: Get(c, "_id") != Get(s.selected.value, "_id")
                    ==> multiset(r.clientes)[c] == multiset(s.clientes)[c])
              && Seqs.SubsequenceOf(r.clientes, s.clientes)
  {
    var s1 := s.(showConfirmDelete := false);
    if s.selected.None? then
      s1.(error := Some(DeleteError))
    else
      var id := Get(s.selected.value, "_id");
      match reply
      case Failed(_) => s1.(error := Some(DeleteError))
      case Received(_, _) =>
        Seqs.FilterIsSubsequence(s.clientes, IdIsNot(id));
        s1.(clientes := Seqs.Filter(s.clientes, IdIsNot(id)), showDetailView := false, selected := None,
            successType := "delete", showSuccessAlert := true)
  }

  /**
    Selecting a record and then confirming its deletion removes it: the
    selection closes and no listed record carries its `_id` any more.
  */
  lemma SelectThenDeleteRemovesIt(s: State, c: Record, reply: Reply)
    requires HasTruthy(c, "_id") && reply.Received?
    ensures var r := ConfirmDelete(SelectCliente(s, Some(c)), reply);
            && r.selected.None? && !r.showDetailView
            && forall i :: 0 <= i < |r.clientes| ==> Get(r.clientes[i], "_id") != Some(c["_id"])
  {
  }

  /** Without a selection no request is made, so the server's answer cannot matter. */
  lemma DeleteWithoutSelectionIgnoresReply(s: State, a: Reply, b: Reply)
    requires s.selected.None?
    ensures ConfirmDelete(s, a) == ConfirmDelete(s, b)
  {
  }

  /** `selectCliente`: only a record with a truthy `_id` can be selected. */
  function SelectCliente(s: State, c: Option<Record>): (r: State)
    ensures c.Some? && HasTruthy(c.value, "_id") ==> r == s.(selected := c, showDetailView := true)
    ensures !(c.Some? && HasTruthy(c.value, "_id")) ==> r == s.(error := Some("Cliente inválido seleccionado"))
  {
    if c.None? || !HasTruthy(c.value, "_id") then s.(error := Some("Cliente inválido seleccionado"))
    else s.(selected := c, showDetailView := true)
  }

  /** `{...original, ...changes, _id: original._id}`. */
  function Overlay(original: Record, changes: Record): (r: Record)
    requires "_id" in original
    ensures r.Keys == original.Keys + changes.Keys
    ensures r["_id"] == original["_id"]
    ensures forall k :: k in changes && k != "_id" ==> r[k] == changes[k]
    ensures forall k :: k in original && k !in changes ==> r[k] == original[k]
  {
    (original + changes)["_id" := original["_id"]]
  }

  /** An edit in flight: the record as it was, and as it is shown until the server answers. */
  datatype PendingEdit = PendingEdit(original: Record, optimistic: Record)

  const NoSelectionError := "No hay cliente seleccionado para actualizar"
  const NoIdError := "El cliente seleccionado no tiene un ID válido"

  /**
    The synchronous half of `handleSaveEdit`, before the request goes out:
    without a selection, or with one lacking a truthy `_id`, only an error
    is set; otherwise the selection and every list entry with its `_id`
    show the edited record at once, the edit modal closes and the saving
    indicator turns on.
  */
  function BeginEdit(s: State, changes: Record): (r: Result<(State, PendingEdit), State>)
    ensures s.selected.None? ==> r == Err(s.(error := Some(NoSelectionError)))
    ensures s.selected.Some? && !HasTruthy(s.selected.value, "_id") ==> r == Err(s.(error := Some(NoIdError)))
    ensures s.selected.Some? && HasTruthy(s.selected.value, "_id") ==> r.Ok?
    ensures r.Ok? ==>
      var (t, p) := r.value;
      var id := s.selected.value["_id"];
      && p.original == s.selected.value
      && p.optimistic == Overlay(p.original, changes)
      && t.selected == Some(p.optimistic)
      && |t.clientes| == |s.clientes|
      && (forall i :: 0 <= i < |s.clientes| ==>
            t.clientes[i] == if Get(s.clientes[i], "_id") == Some(id) then p.optimistic else s.clientes[i])
      && !t.showEditAlert && t.uploading
      && t == s.(selected := t.selected, clientes := t.clientes, showEditAlert := false, uploading := true)
  {
    if s.selected.None? then Err(s.(error := Some(NoSelectionError)))
    else if !HasTruthy(s.selected.value, "_id") then Err(s.(error := Some(NoIdError)))
    else
      var original := s.selected.value;
      var optimistic := Overlay(original, changes);
      var id := Some(original["_id"]);
      Ok((s.(selected := Some(optimistic),
             clientes := Seqs.ReplaceWhere(s.clientes, IdIs(id), optimistic),
             showEditAlert := false,
             uploading := true),
          PendingEdit(original, optimistic)))
  }

  /** The message a failed save shows. */
  function SaveErrorMessage(f: Failure): (m: string)
    ensures f.NoResponse? ==> m == "No se pudo conectar con el servidor. Cambios no guardados."
    ensures f.Thrown? ==> m == f.message
  {
    match f
    case HttpError(status, data) =>
      "Error " + JsText.IntToString(status) + ": " + ToStr(Or(OptProp(Some(data), "message"), Str("Error del servidor")))
    case NoResponse(_, _) => "No se pudo conectar con el servidor. Cambios no guardados."
    case Thrown(m) => m
  }

  /** The record after the server answered: the optimistic one overlaid with the server's fields, id kept. */
  function Reconciled(p: PendingEdit, server: Json): (r: Record)
    requires "_id" in p.original
    ensures r.Keys == p.optimistic.Keys + Spread(server).Keys + {"_id"}
    ensures r["_id"] == p.original["_id"]
    ensures forall k :: k in Spread(server) && k != "_id" ==> r[k] == Spread(server)[k]
    ensures forall k :: k in p.optimistic && k !in Spread(server) && k != "_id" ==> r[k] == p.optimistic[k]
  {
    (p.optimistic + Spread(server))["_id" := p.original["_id"]]
  }

  /** The settlement of an edit once the reply has been read: a failure rolls back, a record is reconciled. */
  function Settle(t: State, p: PendingEdit, outcome: Result<Json, Failure>): State
    requires "_id" in p.original
  {
    var id := Some(p.original["_id"]);
    match outcome
    case Err(f) =>
      t.(selected := Some(p.original),
         clientes := Seqs.ReplaceWhere(t.clientes, IdIs(id), p.original),
         error := Some(SaveErrorMessage(f)),
         showEditAlert := true,
         uploading := false)
    case Ok(server) =>
      var fin := Reconciled(p, server);
      var t1 := if fin != p.optimistic
                then t.(selected := Some(fin), clientes := Seqs.ReplaceWhere(t.clientes, IdIs(id), fin))
                else t;
      t1.(successType := "edit", showSuccessAlert := true, uploading := false)
  }

  /**
    The asynchronous half of `handleSaveEdit`, once the request settles,
    reading the saved record as the hook does. On success the reconciled
    record is written back only when it differs from the optimistic one; on
    failure the selection and every entry with the edited id return to the
    record as it was before the edit, the error is shown and the modal
    reopens. The saving indicator ends off.
  */
  function SettleEdit(t: State, p: PendingEdit, reply: Reply): (r: State)
    requires "_id" in p.original
    ensures !r.uploading
    ensures (reply.Failed? || UpdatedRecordAsWritten(reply.data).Err?) ==>
              var f := if reply.Failed? then reply.failure else UpdatedRecordAsWritten(reply.data).error;
              r == t.(selected := Some(p.original),
                      clientes := Seqs.ReplaceWhere(t.clientes, IdIs(Some(p.original["_id"])), p.original),
                      error := Some(SaveErrorMessage(f)),
                      showEditAlert := true,
                      uploading := false)
    ensures reply.Received? && UpdatedRecordAsWritten(reply.data).Ok? ==>
              var fin := Reconciled(p, UpdatedRecordAsWritten(reply.data).value);
              && r == t.(clientes := r.clientes, selected := r.selected,
                         successType := "edit", showSuccessAlert := true, uploading := false)
              && (fin == p.optimistic ==> r.clientes == t.clientes && r.selected == t.selected)
              && (fin != p.optimistic ==>
                    r.selected == Some(fin)
                    && r.clientes == Seqs.ReplaceWhere(t.clientes, IdIs(Some(p.original["_id"])), fin))
  {
    Settle(t, p, Settled(reply, UpdatedRecordAsWritten))
  }

  /** `SettleEdit` with the saved record read through the corrected unwrap, `UpdatedRecord`. */
  function SettleEditCorrected(t: State, p: PendingEdit, reply: Reply): (r: State)
    requires "_id" in p.original
    ensures !r.uploading
    ensures (reply.Failed? || UpdatedRecord(reply.data).Err?) ==>
              var f := if reply.Failed? then reply.failure else UpdatedRecord(reply.data).error;
              r == t.(selected := Some(p.original),
                      clientes := Seqs.ReplaceWhere(t.clientes, IdIs(Some(p.original["_id"])), p.original),
                      error := Some(SaveErrorMessage(f)),
                      showEditAlert := true,
                      uploading := false)
    ensures reply.Received? && UpdatedRecord(reply.data).Ok? ==>
              var fin := Reconciled(p, UpdatedRecord(reply.data).value);
              && r == t.(clientes := r.clientes, selected := r.selected,
                         successType := "edit", showSuccessAlert := true, uploading := false)
              && (fin == p.optimistic ==> r.clientes == t.clientes && r.selected == t.selected)
              && (fin != p.optimistic ==>
                    r.selected == Some(fin)
                    && r.clientes == Seqs.ReplaceWhere(t.clientes, IdIs(Some(p.original["_id"])), fin))
  {
    Settle(t, p, Settled(reply, UpdatedRecord))
  }

  /** `handleSaveEdit` as a whole: the optimistic step, then the settlement of the request. */
  function SaveEdit(s: State, changes: Record, reply: Reply): (r: State)
    ensures BeginEdit(s, changes).Ok? ==> !r.uploading
    ensures s.selected.None? || !HasTruthy(s.selected.value, "_id") ==> r == BeginEdit(s, changes).error
  {
    match BeginEdit(s, changes)
    case Err(e) => e
    case Ok((t, p)) => SettleEdit(t, p, reply)
  }

  /**
    Writing back only when the reconciled record differs is the same as
    always writing it back: the list entries with the edited id already
    hold the optimistic record.
  */
  lemma ConditionalWriteBackIsUnconditional(s: State, changes: Record, server: Json)
    requires BeginEdit(s, changes).Ok?
    ensures var (t, p) := BeginEdit(s, changes).value;
            var fin := Reconciled(p, server);
            var r := Settle(t, p, Ok(server));
            r.selected == Some(fin) && r.clientes == Seqs.ReplaceWhere(s.clientes, IdIs(Some(p.original["_id"])), fin)
  {
    var (t, p) := BeginEdit(s, changes).value;
    var id := Some(p.original["_id"]);
    var fin := Reconciled(p, server);
    Seqs.ReplaceTwice(s.clientes, IdIs(id), p.optimistic, fin);
    if fin == p.optimistic {
      Seqs.ReplaceTwice(s.clientes, IdIs(id), p.optimistic, p.optimistic);
    }
  }

  /**
    A failed save undoes the optimistic step exactly: when every list entry
    with the selected id equalled the selection beforehand, the list and the
    selection come back unchanged.
  */
  lemma RollbackRestores(s: State, changes: Record, f: Failure)
    requires BeginEdit(s, changes).Ok?
    requires forall i :: 0 <= i < |s.clientes| && Get(s.clientes[i], "_id") == Get(s.selected.value, "_id")
               ==> s.clientes[i] == s.selected.value
    ensures var r := SaveEdit(s, changes, Failed(f));
            r.clientes == s.clientes && r.selected == s.selected && r.showEditAlert && !r.uploading
            && r.error == Some(SaveErrorMessage(f))
  {
    var (t, p) := BeginEdit(s, changes).value;
    var id := Some(p.original["_id"]);
    Seqs.ReplaceTwice(s.clientes, IdIs(id), p.optimistic, p.original);
    Seqs.ReplaceWithSame(s.clientes, IdIs(id), p.original);
  }
}

=== FILE: js_text.dfy ===
/**
  The handful of JavaScript string operations the application relies on:
  `trim`, `toLowerCase`, `includes`, `Array.prototype.join`, the decimal
  rendering of an integer, and the `\D` character class of the phone
  formatter. Strings are sequences of Unicode code points.
*/
module JsText {

  /** The characters `String.prototype.trim` removes: white space and line terminators. */
  predicate IsWhitespace(c: char) {
    || c == ' ' || c == '\t' || c == '\n' || c == '\r'
    || c == '\U{000B}' || c == '\U{000C}' || c == '\U{00A0}' || c == '\U{FEFF}'
    || c == '\U{1680}' || ('\U{2000}' <= c <= '\U{200A}')
    || c == '\U{2028}' || c == '\U{2029}' || c == '\U{202F}' || c == '\U{205F}' || c == '\U{3000}'
  }

  /** True when every character of `s` is white space (vacuously for ""). */
  predicate IsBlank(s: string) {
    forall i :: 0 <= i < |s| ==> IsWhitespace(s[i])
  }

  /** `s.trimStart()`. */
  function TrimStart(s: string): (r: string)
    ensures |r| <= |s|
  {
    if |s| > 0 && IsWhitespace(s[0]) then TrimStart(s[1..]) else s
  }

  /** `s.trimEnd()`. */
  function TrimEnd(s: string): (r: string)
    ensures |r| <= |s|
  {
    if |s| > 0 && IsWhitespace(s[|s| - 1]) then TrimEnd(s[..|s| - 1]) else s
  }

  /** `trimStart` drops exactly the leading white space. */
  lemma {:induction false} TrimStartDropsBlanks(s: string)
    ensures var r := TrimStart(s);
            && r == s[|s| - |r|..]
            && (|r| > 0 ==> !IsWhitespace(r[0]))
            && (forall j :: 0 <= j < |s| - |r| ==> IsWhitespace(s[j]))
  {
    if |s| > 0 && IsWhitespace(s[0]) {
      TrimStartDropsBlanks(s[1..]);
    }
  }

  /** `trimEnd` drops exactly the trailing white space. */
  lemma {:induction false} TrimEndDropsBlanks(s: string)
    ensures var r := TrimEnd(s);
            && r == s[..|r|]
            && (|r| > 0 ==> !IsWhitespace(r[|r| - 1]))
            && (forall j :: |r| <= j < |s| ==> IsWhitespace(s[j]))
  {
    if |s| > 0 && IsWhitespace(s[|s| - 1]) {
      TrimEndDropsBlanks(s[..|s| - 1]);
    }
  }

  /** `r` is the block of `s` at index `i`, with nothing but white space around it. */
  predicate InfixAmidBlanks(s: string, r: string, i: nat) {
    && i + |r| <= |s|
    && r == s[i..i + |r|]
    && (forall j :: 0 <= j < i ==> IsWhitespace(s[j]))
    && (forall j :: i + |r| <= j < |s| ==> IsWhitespace(s[j]))
  }

  /** `s.trim()`. */
  function Trim(s: string): (r: string)
    ensures |r| <= |s|
  {
    TrimEnd(TrimStart(s))
  }

  /**
    `trim` keeps the longest infix of `s` that neither starts nor ends with
    white space, and it is empty exactly when `s` is all white space.
  */
  lemma TrimKeepsCore(s: string)
    ensures var r := Trim(s);
            && (|r| > 0 ==> !IsWhitespace(r[0]) && !IsWhitespace(r[|r| - 1]))
            && InfixAmidBlanks(s, r, |s| - |TrimStart(s)|)
            && (r == "" <==> IsBlank(s))
  {
    var a := TrimStart(s);
    var r := TrimEnd(a);
    TrimStartDropsBlanks(s);
    TrimEndDropsBlanks(a);
    var i := |s| - |a|;
    assert r == s[i..][..|r|];
    if |r| > 0 {
      assert r[0] == a[0];
    }
    forall j | i + |r| <= j < |s| ensures IsWhitespace(s[j]) {
      assert s[j] == a[j - i];
    }
    if r == "" {
      forall j | 0 <= j < |s| ensures IsWhitespace(s[j]) { }
    }
  }

  /** A string is trimmed to "" exactly when it is all white space. */
  lemma TrimEmptyIffBlank(s: string)
    ensures Trim(s) == "" <==> IsBlank(s)
  {
    TrimKeepsCore(s);
  }

  /** Trimming an already trimmed string changes nothing. */
  lemma TrimIdempotent(s: string)
    ensures Trim(Trim(s)) == Trim(s)
  {
    var r := Trim(s);
    TrimKeepsCore(s);
    if |r| > 0 {
      assert TrimStart(r) == r;
      assert TrimEnd(r) == r;
    }
  }

  /** `toLowerCase` on the Basic Latin and Latin-1 letters (enough for Spanish text). */
  function LowerChar(c: char): (r: char)
    ensures 'A' <= c <= 'Z' ==> r as int == c as int + 32
    ensures !('A' <= c <= 'Z') && !('\U{00C0}' <= c <= '\U{00DE}') ==> r == c
  {
    if 'A' <= c <= 'Z' then (c as int + 32) as char
    else if '\U{00C0}' <= c <= '\U{00DE}' && c != '\U{00D7}' then (c as int + 32) as char
    else c
  }

  function ToLower(s: string): (r: string)
    ensures |r| == |s|
    ensures forall i :: 0 <= i < |s| ==> r[i] == LowerChar(s[i])
  {
    if s == [] then [] else [LowerChar(s[0])] + ToLower(s[1..])
  }

  /** `s.includes(t)`: `t` occurs as a contiguous block of `s`. */
  predicate Contains(s: string, t: string) {
    exists i :: 0 <= i <= |s| && OccursAt(s, t, i)
  }

  /** `t` appears in `s` starting at index `i`. */
  predicate OccursAt(s: string, t: string, i: nat) {
    i + |t| <= |s| && s[i..i + |t|] == t
  }

  lemma ContainsEmpty(s: string)
    ensures Contains(s, "")
  {
    assert OccursAt(s, "", 0);
  }

  /** `parts.join(sep)`. */
  function Join(parts: seq<string>, sep: string): (r: string)
    ensures |parts| == 1 ==> r == parts[0]
  {
    if |parts| == 0 then ""
    else if |parts| == 1 then parts[0]
    else parts[0] + sep + Join(parts[1..], sep)
  }

  function DigitChar(d: nat): (c: char)
    requires d < 10
    ensures '0' <= c <= '9'
    ensures c as int - '0' as int == d
  {
    ['0', '1', '2', '3', '4', '5', '6', '7', '8', '9'][d]
  }

  /** The decimal rendering of a natural number, as `String(n)` and template literals produce it. */
  function NatToString(n: nat): (r: string)
    ensures |r| > 0
    ensures forall i :: 0 <= i < |r| ==> IsDigit(r[i])
  {
    if n < 10 then [DigitChar(n)] else NatToString(n / 10) + [DigitChar(n % 10)]
  }

  /** Distinct numbers have distinct decimal renderings. */
  lemma {:induction false} NatToStringInjective(a: nat, b: nat)
    ensures NatToString(a) == NatToString(b) ==> a == b
  {
    var sa, sb := NatToString(a), NatToString(b);
    if sa == sb {
      if a >= 10 && b >= 10 {
        assert sa[..|sa| - 1] == NatToString(a / 10);
        assert sb[..|sb| - 1] == NatToString(b / 10);
        NatToStringInjective(a / 10, b / 10);
        assert sa[|sa| - 1] == DigitChar(a % 10);
        assert sb[|sb| - 1] == DigitChar(b % 10);
      } else if a < 10 && b < 10 {
        assert sa[0] == DigitChar(a);
        assert sb[0] == DigitChar(b);
      }
    }
  }

  function IntToString(n: int): (r: string)
    ensures |r| > 0
  {
    if n < 0 then "-" + NatToString(-n) else NatToString(n)
  }

  /** The complement of the regular-expression class `\D`: an ASCII decimal digit. */
  predicate IsDigit(c: char) {
    '0' <= c <= '9'
  }

  /** `s.replace(/\D/g, '')`: the digits of `s`, in order. */
  function Digits(s: string): (r: string)
    ensures |r| <= |s|
    ensures forall i :: 0 <= i < |r| ==> IsDigit(r[i])
  {
    if s == [] then [] else (if IsDigit(s[0]) then [s[0]] else []) + Digits(s[1..])
  }

  lemma {:induction false} DigitsAppend(a: string, b: string)
    ensures Digits(a + b) == Digits(a) + Digits(b)
  {
    if a == [] {
      assert a + b == b;
    } else {
      assert (a + b)[1..] == a[1..] + b;
      DigitsAppend(a[1..], b);
    }
  }

  lemma {:induction false} DigitsOfDigits(s: string)
    requires forall i :: 0 <= i < |s| ==> IsDigit(s[i])
    ensures Digits(s) == s
  {
    if s != [] {
      DigitsOfDigits(s[1..]);
    }
  }
}

=== FILE: js_value.dfy ===
/**
  JSON-shaped JavaScript values as they travel between the browser and the
  server, with the pieces of JavaScript semantics the application leans on:
  truthiness, property access (and its TypeError on `null`), `a || b`
  chains, object spread, and the string conversion `Array.prototype.join`
  applies to its elements.
*/
module JsValue {
  import opened Results
  import JsText

  /** A JSON value. Numbers are restricted to integers. */
  datatype Json =
    | Null
    | Bool(b: bool)
    | Num(n: int)
    | Str(s: string)
    | Arr(items: seq<Json>)
    | Obj(fields: map<string, Json>)

  /** A plain object; a key that is not present reads as `undefined`. */
  type Record = map<string, Json>

  /** JavaScript truthiness: `null`, `false`, `0` and `""` are falsy; arrays and objects are truthy. */
  predicate Truthy(j: Json) {
    match j
    case Null => false
    case Bool(b) => b
    case Num(n) => n != 0
    case Str(s) => s != ""
    case Arr(_) => true
    case Obj(_) => true
  }

  /** Truthiness of a value that may be `undefined`. */
  predicate TruthyOpt(v: Option<Json>) {
    v.Some? && Truthy(v.value)
  }

  /** `r.k` on an object. */
  function Get(r: Record, k: string): (v: Option<Json>)
    ensures v.Some? <==> k in r
    ensures v.Some? ==> v.value == r[k]
  {
    if k in r then Some(r[k]) else None
  }

  /** `r.k` is present and truthy. */
  predicate HasTruthy(r: Record, k: string) {
    k in r && Truthy(r[k])
  }

  /**
    `v.k` on any value other than `null`: objects look the key up; booleans,
    numbers, strings and arrays have no property of the names this
    application reads, so the access yields `undefined`.
  */
  function Prop(v: Json, k: string): (r: Option<Json>)
    requires !v.Null?
    ensures r.Some? ==> v.Obj? && k in v.fields && r.value == v.fields[k]
  {
    if v.Obj? then Get(v.fields, k) else None
  }

  /** `v?.k`: optional chaining, which turns `null` and `undefined` into `undefined`. */
  function OptProp(v: Option<Json>, k: string): (r: Option<Json>)
    ensures r.Some? ==> v.Some? && v.value.Obj? && k in v.value.fields
  {
    if v.Some? && !v.value.Null? then Prop(v.value, k) else None
  }

  /** `a || b` where `a` may be `undefined`. */
  function Or(a: Option<Json>, b: Json): (r: Json)
    ensures TruthyOpt(a) ==> r == a.value
    ensures !TruthyOpt(a) ==> r == b
  {
    if TruthyOpt(a) then a.value else b
  }

  /** `a || b` where either side may be `undefined`. */
  function OrOpt(a: Option<Json>, b: Option<Json>): (r: Option<Json>)
    ensures TruthyOpt(a) ==> r == a
    ensures !TruthyOpt(a) ==> r == b
  {
    if TruthyOpt(a) then a else b
  }

  /**
    `r.k1 || r.k2 || ... || fallback`: the value of the first key whose value
    is truthy, otherwise `fallback`.
  */
  function FirstTruthy(r: Record, keys: seq<string>, fallback: Json): Json {
    if |keys| == 0 then fallback
    else if HasTruthy(r, keys[0]) then r[keys[0]]
    else FirstTruthy(r, keys[1..], fallback)
  }

  /**
    The chain yields the value of its first truthy key, and the fallback
    exactly when no key is truthy.
  */
  lemma {:induction false} FirstTruthyPicksFirst(r: Record, keys: seq<string>, fallback: Json)
    ensures (forall i :: 0 <= i < |keys| ==> !HasTruthy(r, keys[i])) ==> FirstTruthy(r, keys, fallback) == fallback
    ensures forall i :: 0 <= i < |keys| && HasTruthy(r, keys[i]) && (forall j :: 0 <= j < i ==> !HasTruthy(r, keys[j]))
              ==> FirstTruthy(r, keys, fallback) == r[keys[i]]
  {
    if |keys| > 0 {
      FirstTruthyPicksFirst(r, keys[1..], fallback);
      forall i | 0 < i < |keys| && HasTruthy(r, keys[i]) && (forall j :: 0 <= j < i ==> !HasTruthy(r, keys[j]))
        ensures FirstTruthy(r, keys, fallback) == r[keys[i]]
      {
        assert keys[1..][i - 1] == keys[i];
        assert forall j :: 0 <= j < i - 1 ==> keys[1..][j] == keys[j + 1];
      }
    }
  }

  /** A chain of one key: its value when truthy, else the fallback. */
  lemma FirstTruthySingle(r: Record, k: string, fallback: Json)
    ensures FirstTruthy(r, [k], fallback) == if HasTruthy(r, k) then r[k] else fallback
  {
    assert [k][1..] == [];
  }

  /** The keys `0`, `1`, ..., `n - 1`, written in decimal: the indices of a sequence of length `n`. */
  function IndexKeys(n: nat): (ks: set<string>)
    ensures forall i :: 0 <= i < n ==> JsText.NatToString(i) in ks
  {
    if n == 0 then {} else IndexKeys(n - 1) + {JsText.NatToString(n - 1)}
  }

  /** Every key of `IndexKeys(n)` is some index below `n`. */
  lemma {:induction false} IndexKeysAreIndices(n: nat, k: string)
    requires k in IndexKeys(n)
    ensures exists i :: 0 <= i < n && k == JsText.NatToString(i)
  {
    if k != JsText.NatToString(n - 1) {
      IndexKeysAreIndices(n - 1, k);
    }
  }

  /**
    The entries `{...xs}` makes of an array: element `i` under the key `i`
    written in decimal (`IndexedHolds`), and no other key.
  */
  function Indexed(xs: seq<Json>): (r: Record)
    ensures r.Keys == IndexKeys(|xs|)
  {
    if xs == [] then map[]
    else
      var n := |xs| - 1;
      var front := Indexed(xs[..n]);
      assert front.Keys + {JsText.NatToString(n)} == IndexKeys(|xs|);
      front[JsText.NatToString(n) := xs[n]]
  }

  /** The key of index `i` holds element `i`: a later index never overwrites it. */
  lemma {:induction false} IndexedHolds(xs: seq<Json>, i: nat)
    requires i < |xs|
    ensures JsText.NatToString(i) in Indexed(xs) && Indexed(xs)[JsText.NatToString(i)] == xs[i]
  {
    var n := |xs| - 1;
    if i < n {
      JsText.NatToStringInjective(i, n);
      IndexedHolds(xs[..n], i);
    }
  }

  /** A string's characters as the one-character strings indexing it yields. */
  function Chars(s: string): (r: seq<Json>)
    ensures |r| == |s|
    ensures forall i :: 0 <= i < |s| ==> r[i] == Str([s[i]])
  {
    seq(|s|, i requires 0 <= i < |s| => Str([s[i]]))
  }

  /**
    `{...v}`: the own enumerable properties of an object; a string or an
    array contributes one entry per index, keyed by the index in decimal;
    `null`, booleans and numbers contribute none.
  */
  function Spread(v: Json): Record {
    match v
    case Obj(fields) => fields
    case Arr(items) => Indexed(items)
    case Str(s) => Indexed(Chars(s))
    case _ => map[]
  }

  /**
    Spreading a string or an array gives its indices as keys, each holding
    its element: `{...'ab'}` is `{0: 'a', 1: 'b'}`.
  */
  lemma SpreadIndexes(v: Json, i: nat)
    requires v.Str? || v.Arr?
    ensures v.Str? && i < |v.s| ==> Spread(v)[JsText.NatToString(i)] == Str([v.s[i]])
    ensures v.Arr? && i < |v.items| ==> Spread(v)[JsText.NatToString(i)] == v.items[i]
    ensures Spread(v).Keys == IndexKeys(if v.Str? then |v.s| else |v.items|)
  {
    if v.Str? && i < |v.s| {
      IndexedHolds(Chars(v.s), i);
    } else if v.Arr? && i < |v.items| {
      IndexedHolds(v.items, i);
    }
  }

  /** `String(v)`, the conversion template literals use. */
  function ToStr(v: Json): string
    decreases v, 1
  {
    match v
    case Null => "null"
    case Bool(b) => if b then "true" else "false"
    case Num(n) => JsText.IntToString(n)
    case Str(s) => s
    case Arr(items) => JsText.Join(JoinParts(v, items), ",")
    case Obj(_) => "[object Object]"
  }

  /** The string each element of `items` contributes to a join (`null` contributes ""). */
  function JoinParts(parent: Json, items: seq<Json>): (parts: seq<string>)
    requires forall i :: 0 <= i < |items| ==> items[i] < parent
    ensures |parts| == |items|
    decreases parent, 0, |items|
  {
    if items == [] then []
    else [if items[0].Null? then "" else ToStr(items[0])] + JoinParts(parent, items[1..])
  }

  /** The string `[a, b, ...].join(' ')` contributes for one element that may be `undefined`. */
  function JoinPart(v: Option<Json>): (s: string)
    ensures v.Some? && v.value.Str? ==> s == v.value.s
    ensures v.None? || v == Some(Null) ==> s == ""
  {
    if v.None? || v.value.Null? then "" else ToStr(v.value)
  }

  /** `[r.k1, r.k2, ...].join(sep)`. */
  function JoinFields(r: Record, keys: seq<string>, sep: string): string {
    JsText.Join(seq(|keys|, i requires 0 <= i < |keys| => JoinPart(Get(r, keys[i]))), sep)
  }

  /** Two records with the same keys and the same value under each key are equal. */
  lemma SameEntries(a: Record, b: Record)
    requires a.Keys == b.Keys
    requires forall k :: k in a ==> a[k] == b[k]
    ensures a == b
  {
  }
}

=== FILE: registration_form.dfy ===
/**
  The new-client form (`Pages/RegistroClientes.jsx`): per-field
  validation, the `0000-0000` phone formatter, clearing a field's error as
  it is edited, the request the submit sends, and what the page does with
  the server's answer.
*/
module RegistrationForm {
  import opened Results
  import opened JsValue
  import JsText
  import opened ApiClient

  /** The fields the user fills in, in the order they are validated. */
  datatype Field = Nombre | Producto | FechaPedido | Telefono | Dirrecion
  {
    /** The field's key in the form state and in the request. */
    function Key(): string {
      match this
      case Nombre => "nombre"
      case Producto => "producto"
      case FechaPedido => "fechaPedido"
      case Telefono => "telefono"
      case Dirrecion => "dirrecion"
    }

    /** The name the validation alert uses for the field. */
    function Label(): string {
      match this
      case Nombre => "Nombre"
      case Producto => "Producto"
      case FechaPedido => "Fecha del pedido"
      case Telefono => "Tel" + "é" + "fono"
      case Dirrecion => "Direcci" + "ó" + "n"
    }

    /** The message validation stores for the field when it is missing. */
    function Required(): string {
      match this
      case Nombre => "El nombre es requerido"
      case Producto => "El producto es requerido"
      case FechaPedido => "La fecha del pedido es requerida"
      case Telefono => "El tel" + "é" + "fono es requerido"
      case Dirrecion => "La direcci" + "ó" + "n es requerida"
    }
  }

  const FieldOrder: seq<Field> := [Nombre, Producto, FechaPedido, Telefono, Dirrecion]

  /** The form's values; `estado` has no input and is always "pendiente" at creation. */
  datatype Form = Form(nombre: string, producto: string, fechaPedido: string, telefono: string, dirrecion: string, estado: string)
  {
    function Value(f: Field): string {
      match f
      case Nombre => nombre
      case Producto => producto
      case FechaPedido => fechaPedido
      case Telefono => telefono
      case Dirrecion => dirrecion
    }

    function With(f: Field, v: string): (r: Form)
      ensures r.Value(f) == v
      ensures forall g :: g != f ==> r.Value(g) == Value(g)
      ensures r.estado == estado
    {
      match f
      case Nombre => this.(nombre := v)
      case Producto => this.(producto := v)
      case FechaPedido => this.(fechaPedido := v)
      case Telefono => this.(telefono := v)
      case Dirrecion => this.(dirrecion := v)
    }
  }

  const EmptyForm := Form("", "", "", "", "", "pendiente")

  /** A field is missing when it is blank; the date, which is never trimmed, only when it is empty. */
  predicate Missing(form: Form, f: Field) {
    if f == FechaPedido then form.fechaPedido == "" else JsText.IsBlank(form.Value(f))
  }

  /**
    `validateForm`: one entry per missing field, holding its message. The
    entries are inserted in `FieldOrder`, which is the order the alert
    lists them in.
  */
  function ValidateForm(form: Form): (errors: map<Field, string>)
    ensures forall f :: f in errors <==> Missing(form, f)
    ensures forall f :: f in errors ==> errors[f] == f.Required()
  {
    FieldOrderHasAll();
    TrimmedEmptyIffBlank(form);
    map f | f in FieldOrder && (if f == FechaPedido then form.fechaPedido == "" else JsText.Trim(form.Value(f)) == "") :: f.Required()
  }

  lemma FieldOrderHasAll()
    ensures forall f :: f in FieldOrder
    ensures forall i, j :: 0 <= i < j < |FieldOrder| ==> FieldOrder[i] != FieldOrder[j]
  {
    forall f ensures f in FieldOrder {
      match f
      case Nombre => assert FieldOrder[0] == f;
      case Producto => assert FieldOrder[1] == f;
      case FechaPedido => assert FieldOrder[2] == f;
      case Telefono => assert FieldOrder[3] == f;
      case Dirrecion => assert FieldOrder[4] == f;
    }
  }

  lemma TrimmedEmptyIffBlank(form: Form)
    ensures forall f :: JsText.Trim(form.Value(f)) == "" <==> JsText.IsBlank(form.Value(f))
  {
    forall f ensures JsText.Trim(form.Value(f)) == "" <==> JsText.IsBlank(form.Value(f)) {
      JsText.TrimEmptyIffBlank(form.Value(f));
    }
  }

  /** The fields with an error entry, in the order the entries were inserted. */
  function ErrorFields(errors: map<Field, string>): (r: seq<Field>)
    ensures forall f :: f in r <==> f in errors
    ensures forall i, j :: 0 <= i < j < |r| ==> r[i] != r[j]
  {
    FieldOrderHasAll();
    FilterFields(FieldOrder, errors)
  }

  /** When every field has an entry, the entries come in `FieldOrder`. */
  lemma {:induction false} FilterFieldsKeepsAll(fs: seq<Field>, errors: map<Field, string>)
    requires forall i, j :: 0 <= i < j < |fs| ==> fs[i] != fs[j]
    requires forall i :: 0 <= i < |fs| ==> fs[i] in errors
    ensures FilterFields(fs, errors) == fs
  {
    if fs != [] {
      FilterFieldsKeepsAll(fs[1..], errors);
    }
  }

  function FilterFields(fs: seq<Field>, errors: map<Field, string>): (r: seq<Field>)
    requires forall i, j :: 0 <= i < j < |fs| ==> fs[i] != fs[j]
    ensures forall f :: f in r <==> f in fs && f in errors
    ensures forall i, j :: 0 <= i < j < |r| ==> r[i] != r[j]
  {
    if fs == [] then []
    else (if fs[0] in errors then [fs[0]] else []) + FilterFields(fs[1..], errors)
  }

  /**
    The phone formatter: the digits of the input; from four digits on, the
    first four, a hyphen, and at most four more.
  */
  function FormatPhone(value: string): (r: string)
    ensures |r| <= 9
    ensures var d := JsText.Digits(value);
            if |d| >= 4 then r == d[..4] + "-" + d[4..if |d| < 8 then |d| else 8] else r == d
  {
    var numbers := JsText.Digits(value);
    if |numbers| >= 4 then numbers[..4] + "-" + Slice(numbers, 4, 8) else numbers
  }

  /** `numbers.slice(start, end)` on a string. */
  function Slice(s: string, start: nat, end: nat): (r: string)
    requires start <= end
    ensures r == s[if start < |s| then start else |s|..if end < |s| then end else |s|]
  {
    var a := if start < |s| then start else |s|;
    var b := if end < |s| then end else |s|;
    s[a..b]
  }

  /** Joining two digit strings around a hyphen and stripping non-digits gives them back joined. */
  lemma DigitsAroundHyphen(a: string, b: string)
    requires forall i :: 0 <= i < |a| ==> JsText.IsDigit(a[i])
    requires forall i :: 0 <= i < |b| ==> JsText.IsDigit(b[i])
    ensures JsText.Digits(a + "-" + b) == a + b
  {
    var ah := a + "-";
    JsText.DigitsAppend(ah, b);
    DigitsAppendHyphen(a);
    JsText.DigitsOfDigits(b);
  }

  lemma DigitsAppendHyphen(a: string)
    requires forall i :: 0 <= i < |a| ==> JsText.IsDigit(a[i])
    ensures JsText.Digits(a + "-") == a
  {
    JsText.DigitsAppend(a, "-");
    assert JsText.Digits("-") == [];
    JsText.DigitsOfDigits(a);
  }

  /** The digits a formatted phone keeps: the first eight of the input's. */
  lemma FormatPhoneKeepsDigits(value: string)
    ensures var d := JsText.Digits(value);
            JsText.Digits(FormatPhone(value)) == d[..if |d| < 8 then |d| else 8]
  {
    var d := JsText.Digits(value);
    if |d| >= 4 {
      var hi := if |d| < 8 then |d| else 8;
      DigitsAroundHyphen(d[..4], d[4..hi]);
      assert d[..4] + d[4..hi] == d[..hi];
    } else {
      JsText.DigitsOfDigits(d);
    }
  }

  /** Formatting a formatted phone changes nothing. */
  lemma FormatPhoneIdempotent(value: string)
    ensures FormatPhone(FormatPhone(value)) == FormatPhone(value)
  {
    FormatPhoneKeepsDigits(value);
  }

  /** The page's form state: the values and the validation entries currently shown. */
  datatype Page = Page(form: Form, errors: map<Field, string>, loading: bool)

  const InitialPage := Page(EmptyForm, map[], false)

  /**
    `handleInputChange`: the edited field takes the new value, formatted
    when it is the phone; a truthy error entry for that field is blanked;
    nothing else changes.
  */
  function HandleInputChange(p: Page, f: Field, value: string): (r: Page)
    ensures r.form.Value(f) == if f == Telefono then FormatPhone(value) else value
    ensures forall g :: g != f ==> r.form.Value(g) == p.form.Value(g)
    ensures r.form.estado == p.form.estado && r.loading == p.loading
    ensures r.errors.Keys == p.errors.Keys
    ensures forall g :: g in p.errors && g != f ==> r.errors[g] == p.errors[g]
    ensures f in p.errors ==> r.errors[f] == ""
  {
    var v := if f == Telefono then FormatPhone(value) else value;
    var errors := if f in p.errors && p.errors[f] != "" then p.errors[f := ""] else p.errors;
    p.(form := p.form.With(f, v), errors := errors)
  }

  /** What a submit does before any answer: refuse with the missing fields' labels, or send a request. */
  datatype Submission = Refused(labels: seq<string>) | Send(body: Record)

  /** The request body: trimmed texts, the date as entered, and the initial status. */
  function Payload(form: Form): (r: Record)
    ensures r.Keys == {"nombre", "producto", "fechaPedido", "telefono", "dirrecion", "estado"}
    ensures r["estado"] == Str("pendiente")
  {
    map["nombre" := Str(JsText.Trim(form.nombre)),
        "producto" := Str(JsText.Trim(form.producto)),
        "fechaPedido" := Str(form.fechaPedido),
        "telefono" := Str(JsText.Trim(form.telefono)),
        "dirrecion" := Str(JsText.Trim(form.dirrecion)),
        "estado" := Str("pendiente")]
  }

  /** Each field reaches the request under its own key, trimmed unless it is the date. */
  lemma PayloadCarriesForm(form: Form, f: Field)
    ensures f.Key() in Payload(form)
    ensures Payload(form)[f.Key()] == if f == FechaPedido then Str(form.fechaPedido) else Str(JsText.Trim(form.Value(f)))
  {
    match f
    case Nombre =>
    case Producto =>
    case FechaPedido =>
    case Telefono =>
    case Dirrecion =>
  }

  /**
    `handleSubmit` up to the request: the validation entries replace the
    shown ones; with any entry no request is made and the alert lists the
    missing fields' labels; otherwise the payload is sent.
  */
  function Submit(p: Page): (r: (Page, Submission))
    ensures r.0.errors == ValidateForm(p.form) && r.0.form == p.form
    ensures r.1.Refused? <==> exists f :: Missing(p.form, f)
    ensures r.1.Refused? ==> var fs := ErrorFields(ValidateForm(p.form));
              |r.1.labels| == |fs| && forall i :: 0 <= i < |fs| ==> r.1.labels[i] == fs[i].Label()
    ensures r.1.Send? ==> r.1.body == Payload(p.form) && r.0 == p.(errors := ValidateForm(p.form), loading := true)
    ensures r.1.Refused? ==> r.0 == p.(errors := ValidateForm(p.form))
  {
    var errors := ValidateForm(p.form);
    SomeErrorIffMissing(p.form);
    if |errors| > 0 then
      var fs := ErrorFields(errors);
      (p.(errors := errors), Refused(seq(|fs|, i requires 0 <= i < |fs| => fs[i].Label())))
    else
      (p.(errors := errors, loading := true), Send(Payload(p.form)))
  }

  lemma SomeErrorIffMissing(form: Form)
    ensures |ValidateForm(form)| > 0 <==> exists f :: Missing(form, f)
  {
    var errors := ValidateForm(form);
    if |errors| > 0 {
      var f :| f in errors;
    } else {
      assert errors == map[];
    }
  }

  /** The alert the page shows once the request settled. */
  datatype Notice = Created | ErrorAlert(message: Json) | Silent

  const Forbidden := "No tienes permisos para realizar esta acci" + "ó" + "n."
  const Unavailable := "El servicio no est" + "á" + " disponible."
  const InternalError := "Error interno del servidor. Int" + "é" + "ntalo m" + "á" + "s tarde."
  const Unreachable := "No se pudo conectar con el servidor. " + "Verifica tu conexi" + "ó" + "n a internet."
  const BadSetup := "Error al configurar la petici" + "ó" + "n."

  /** The server's explanation of an error reply: its `message`, else its `error`, else a default. */
  function ServerMessage(data: Json): (m: Json)
    ensures data.Obj? && HasTruthy(data.fields, "message") ==> m == data.fields["message"]
    ensures data.Obj? && !HasTruthy(data.fields, "message") && HasTruthy(data.fields, "error") ==> m == data.fields["error"]
    ensures !(data.Obj? && (HasTruthy(data.fields, "message") || HasTruthy(data.fields, "error"))) ==> m == Str("Error del servidor")
  {
    Or(OptProp(Some(data), "message"), Or(OptProp(Some(data), "error"), Str("Error del servidor")))
  }

  /** The text of the error alert for a failed submit. */
  function SubmitErrorMessage(f: Failure): (m: Json)
    ensures f.HttpError? && f.status == 400 ==> m == ServerMessage(f.data)
    ensures f.HttpError? && f.status == 401 ==> m == Str(Forbidden)
    ensures f.HttpError? && f.status == 404 ==> m == Str(Unavailable)
    ensures f.HttpError? && f.status == 500 ==> m == Str(InternalError)
    ensures f.HttpError? && f.status !in {400, 401, 404, 500} ==>
              m == Str("Error del servidor (" + JsText.IntToString(f.status) + "): " + ToStr(ServerMessage(f.data)))
    ensures f.NoResponse? ==> m == Str(Unreachable)
    ensures f.Thrown? ==> m == Str(BadSetup)
  {
    match f
    case HttpError(status, data) =>
      var message := ServerMessage(data);
      if status == 400 then message
      else if status == 401 then Str(Forbidden)
      else if status == 404 then Str(Unavailable)
      else if status == 500 then Str(InternalError)
      else Str("Error del servidor (" + JsText.IntToString(status) + "): " + ToStr(message))
    case NoResponse(_, _) => Str(Unreachable)
    case Thrown(_) => Str(BadSetup)
  }

  /**
    A status without a text of its own is named in the alert: the message
    contains the status in decimal, right after "Error del servidor (".
  */
  lemma OtherStatusIsNamed(status: int, data: Json)
    requires status !in {400, 401, 404, 500}
    ensures var m := SubmitErrorMessage(HttpError(status, data));
            m.Str? && JsText.Contains(m.s, JsText.IntToString(status))
  {
    var prefix := "Error del servidor (";
    var num := JsText.IntToString(status);
    var m := SubmitErrorMessage(HttpError(status, data)).s;
    assert m == prefix + num + ("): " + ToStr(ServerMessage(data)));
    assert m[|prefix|..|prefix| + |num|] == num;
    assert JsText.OccursAt(m, num, |prefix|);
  }

  /**
    The rest of `handleSubmit`: a 200 or 201 reply empties the form and the
    validation entries and announces the creation; another success status
    changes nothing; a failure keeps the form for another try and shows
    why. Loading ends in every case.
  */
  function Settle(p: Page, reply: Reply): (r: (Page, Notice))
    ensures !r.0.loading
    ensures reply.Received? && reply.status in {200, 201} ==> r == (Page(EmptyForm, map[], false), Created)
    ensures reply.Received? && reply.status !in {200, 201} ==> r == (p.(loading := false), Silent)
    ensures reply.Failed? ==> r == (p.(loading := false), ErrorAlert(SubmitErrorMessage(reply.failure)))
  {
    match reply
    case Received(status, _) =>
      if status == 200 || status == 201 then (Page(EmptyForm, map[], false), Created)
      else (p.(loading := false), Silent)
    case Failed(f) => (p.(loading := false), ErrorAlert(SubmitErrorMessage(f)))
  }

  /** A page showing the emptied form (as after a successful creation) refuses to submit, listing every field in order. */
  lemma ResetFormIsRefused(p: Page)
    requires p.form == EmptyForm
    ensures var s := Submit(p).1;
            s.Refused? && s.labels == seq(|FieldOrder|, i requires 0 <= i < |FieldOrder| => FieldOrder[i].Label())
  {
    EmptyFormLacksAll();
    assert Missing(EmptyForm, Nombre);
  }

  lemma EmptyFormLacksAll()
    ensures ErrorFields(ValidateForm(EmptyForm)) == FieldOrder
  {
    var errors := ValidateForm(EmptyForm);
    forall f ensures f in errors {
      assert Missing(EmptyForm, f);
    }
    FieldOrderHasAll();
    FilterFieldsKeepsAll(FieldOrder, errors);
  }

  /** A sent request never carries a blank field, and its texts carry no surrounding white space. */
  lemma SentFieldsAreFilled(p: Page, f: Field)
    requires Submit(p).1.Send?
    ensures var v := Submit(p).1.body[f.Key()];
            v.Str? && v.s != "" && (f != FechaPedido ==> v.s == JsText.Trim(v.s))
  {
    PayloadCarriesForm(p.form, f);
    assert !Missing(p.form, f);
    JsText.TrimEmptyIffBlank(p.form.Value(f));
    JsText.TrimIdempotent(p.form.Value(f));
  }
}

=== FILE: results.dfy ===
/** Optional values and success-or-error results shared by every module of the model. */
module Results {

  /** A value that may be missing (JavaScript `undefined` for an absent property). */
  datatype Option<+T> = None | Some(value: T) {

    /** The wrapped value, or `default` when there is none. */
    function GetOr(default: T): T {
      match this
      case Some(v) => v
      case None => default
    }
  }

  /** The outcome of an operation that either produces a value or fails with an error. */
  datatype Result<+T, +E> = Ok(value: T) | Err(error: E)
}

=== FILE: search.dfy ===
/**
  The search box filter both hooks apply: a record passes when the
  lower-cased space-join of some of its fields contains the lower-cased
  search term.
*/
module Search {
  import opened JsValue
  import JsText
  import Seqs

  /** `[c.k1, c.k2, ...].join(' ').toLowerCase()`. */
  function SearchText(c: Record, keys: seq<string>): string {
    JsText.ToLower(JoinFields(c, keys, " "))
  }

  predicate Matches(c: Record, keys: seq<string>, term: string) {
    JsText.Contains(SearchText(c, keys), JsText.ToLower(term))
  }

  function MatchesFor(keys: seq<string>, term: string): Record -> bool {
    c => Matches(c, keys, term)
  }

  /** `records.filter(c => <search text of c>.includes(term.toLowerCase()))`. */
  function FilterBy(records: seq<Record>, keys: seq<string>, term: string): (r: seq<Record>)
    ensures |r| <= |records|
    ensures forall i :: 0 <= i < |r| ==> r[i] in records && Matches(r[i], keys, term)
    ensures forall i :: 0 <= i < |records| && Matches(records[i], keys, term) ==> records[i] in r
    ensures forall c :: Matches(c, keys, term) ==> multiset(r)[c] == multiset(records)[c]
    ensures forall c :: !Matches(c, keys, term) ==> multiset(r)[c] == 0
  {
    assert forall c :: MatchesFor(keys, term)(c) == Matches(c, keys, term);
    Seqs.Filter(records, MatchesFor(keys, term))
  }

  /** The kept records appear in their original relative order. */
  lemma FilterByPreservesOrder(records: seq<Record>, keys: seq<string>, term: string)
    ensures Seqs.SubsequenceOf(FilterBy(records, keys, term), records)
  {
    Seqs.FilterIsSubsequence(records, MatchesFor(keys, term));
  }

  /** An empty term keeps every record, in order. */
  lemma EmptyTermKeepsAll(records: seq<Record>, keys: seq<string>)
    ensures FilterBy(records, keys, "") == records
  {
    forall i | 0 <= i < |records| ensures MatchesFor(keys, "")(records[i]) {
      JsText.ContainsEmpty(SearchText(records[i], keys));
    }
    Seqs.FilterKeepsAll(records, MatchesFor(keys, ""));
  }

  /** The case of the term does not matter: it is lower-cased before the comparison. */
  lemma TermCaseIgnored(c: Record, keys: seq<string>, term: string)
    ensures Matches(c, keys, term) <==> Matches(c, keys, JsText.ToLower(term))
  {
    var t := JsText.ToLower(term);
    assert JsText.ToLower(t) == t by {
      forall i | 0 <= i < |t| ensures JsText.LowerChar(t[i]) == t[i] {
        LowerCharIdempotent(term[i]);
      }
    }
  }

  lemma LowerCharIdempotent(c: char)
    ensures JsText.LowerChar(JsText.LowerChar(c)) == JsText.LowerChar(c)
  {
  }
}

=== FILE: seqs.dfy ===
/**
  The array methods the hooks and the list page use, over immutable
  sequences: `filter`, `map` with a conditional replacement, `slice`, and
  appending one element.
*/
module Seqs {

  /** `a` is `b` with some elements removed, the rest kept in order. */
  predicate SubsequenceOf<T(==)>(a: seq<T>, b: seq<T>)
    decreases |b|
  {
    if a == [] then true
    else if b == [] then false
    else (a[0] == b[0] && SubsequenceOf(a[1..], b[1..])) || SubsequenceOf(a, b[1..])
  }

  /** `xs.filter(p)`. */
  function Filter<T(==,!new)>(xs: seq<T>, p: T -> bool): (r: seq<T>)
    ensures |r| <= |xs|
    ensures forall i :: 0 <= i < |r| ==> r[i] in xs && p(r[i])
    ensures forall i :: 0 <= i < |xs| && p(xs[i]) ==> xs[i] in r
    ensures forall x :: p(x) ==> multiset(r)[x] == multiset(xs)[x]
    ensures forall x :: !p(x) ==> multiset(r)[x] == 0
  {
    if xs == [] then []
    else
      assert xs == [xs[0]] + xs[1..];
      if p(xs[0]) then [xs[0]] + Filter(xs[1..], p)
      else Filter(xs[1..], p)
  }

  /** The kept elements appear in their original relative order. */
  lemma {:induction false} FilterIsSubsequence<T(!new)>(xs: seq<T>, p: T -> bool)
    ensures SubsequenceOf(Filter(xs, p), xs)
  {
    if xs != [] {
      FilterIsSubsequence(xs[1..], p);
      var r := Filter(xs, p);
      if p(xs[0]) {
        assert r[1..] == Filter(xs[1..], p);
      } else if r != [] {
        assert SubsequenceOf(r, xs[1..]);
      }
    }
  }

  /** A predicate every element satisfies keeps the whole sequence. */
  lemma {:induction false} FilterKeepsAll<T(!new)>(xs: seq<T>, p: T -> bool)
    requires forall i :: 0 <= i < |xs| ==> p(xs[i])
    ensures Filter(xs, p) == xs
  {
    if xs != [] {
      FilterKeepsAll(xs[1..], p);
    }
  }

  /** Filtering distributes over concatenation. */
  lemma {:induction false} FilterAppend<T(!new)>(xs: seq<T>, ys: seq<T>, p: T -> bool)
    ensures Filter(xs + ys, p) == Filter(xs, p) + Filter(ys, p)
  {
    if xs == [] {
      assert xs + ys == ys;
    } else {
      assert (xs + ys)[1..] == xs[1..] + ys;
      FilterAppend(xs[1..], ys, p);
    }
  }

  /** Two predicates that agree on every element filter alike. */
  lemma {:induction false} FilterCongruent<T(!new)>(xs: seq<T>, p: T -> bool, q: T -> bool)
    requires forall i :: 0 <= i < |xs| ==> p(xs[i]) == q(xs[i])
    ensures Filter(xs, p) == Filter(xs, q)
  {
    if xs != [] {
      FilterCongruent(xs[1..], p, q);
    }
  }

  /** `xs.map(x => p(x) ? y : x)`: every element `p` selects is replaced by `y`. */
  function ReplaceWhere<T>(xs: seq<T>, p: T -> bool, y: T): (r: seq<T>)
    ensures |r| == |xs|
    ensures forall i :: 0 <= i < |xs| ==> r[i] == if p(xs[i]) then y else xs[i]
  {
    seq(|xs|, i requires 0 <= i < |xs| => if p(xs[i]) then y else xs[i])
  }

  /**
    Replacing with a value the predicate still selects, then replacing
    again, is the same as the second replacement alone: the first one
    neither adds nor removes selected positions.
  */
  lemma ReplaceTwice<T>(xs: seq<T>, p: T -> bool, y: T, z: T)
    requires p(y)
    ensures ReplaceWhere(ReplaceWhere(xs, p, y), p, z) == ReplaceWhere(xs, p, z)
  {
  }

  /** Replacing every selected element by the value it already holds changes nothing. */
  lemma ReplaceWithSame<T>(xs: seq<T>, p: T -> bool, y: T)
    requires forall i :: 0 <= i < |xs| && p(xs[i]) ==> xs[i] == y
    ensures ReplaceWhere(xs, p, y) == xs
  {
  }

  /** The index `Array.prototype.slice` derives from a relative position: negative counts from the end. */
  function SliceIndex(k: int, len: nat): (r: nat)
    ensures r <= len
    ensures 0 <= k <= len ==> r == k
    ensures k > len ==> r == len
  {
    if k < 0 then (if len + k < 0 then 0 else len + k)
    else if k > len then len
    else k
  }

  /** `s.slice(start, end)`. */
  function Slice<T>(s: seq<T>, start: int, end: int): (r: seq<T>)
    ensures |r| <= |s|
    ensures 0 <= start <= end <= |s| ==> r == s[start..end]
    ensures 0 <= start && |s| <= start ==> r == []
  {
    var a := SliceIndex(start, |s|);
    var b := SliceIndex(end, |s|);
    if b <= a then [] else s[a..b]
  }
}

=== FILE: sorting.dfy ===
/**
  `Array.prototype.sort` with a numeric comparator `(a, b) => key(a) - key(b)`:
  a stable sort into ascending key order, modelled as insertion sort.
*/
module Sorting {
  import Seqs

  /** Every element's key is at most the key of every later element. */
  predicate SortedBy<T>(xs: seq<T>, key: T -> int) {
    forall i, j :: 0 <= i < j < |xs| ==> key(xs[i]) <= key(xs[j])
  }

  /** The elements whose key is `k`. */
  function KeyIs<T>(key: T -> int, k: int): T -> bool {
    x => key(x) == k
  }

  /** `x` placed before the first element of `ys` whose key is not smaller than its own. */
  function Insert<T(==)>(x: T, ys: seq<T>, key: T -> int): (r: seq<T>)
    ensures multiset(r) == multiset(ys) + multiset{x}
    ensures |r| == |ys| + 1
    ensures forall i :: 0 <= i < |r| ==> r[i] == x || r[i] in ys
  {
    if ys == [] || key(x) <= key(ys[0]) then
      [x] + ys
    else
      assert ys == [ys[0]] + ys[1..];
      [ys[0]] + Insert(x, ys[1..], key)
  }

  /** Inserting into a sorted sequence keeps it sorted. */
  lemma {:induction false} InsertSorted<T>(x: T, ys: seq<T>, key: T -> int)
    requires SortedBy(ys, key)
    ensures SortedBy(Insert(x, ys, key), key)
  {
    if ys != [] && key(x) > key(ys[0]) {
      var rest := Insert(x, ys[1..], key);
      InsertSorted(x, ys[1..], key);
      forall j | 0 <= j < |rest| ensures key(ys[0]) <= key(rest[j]) {
        if rest[j] != x {
          var m :| 0 <= m < |ys[1..]| && ys[1..][m] == rest[j];
          assert ys[m + 1] == rest[j];
        }
      }
      ConsSorted(ys[0], rest, key);
    }
  }

  /** An element no larger than anything in a sorted sequence can go in front of it. */
  lemma ConsSorted<T>(x: T, rest: seq<T>, key: T -> int)
    requires SortedBy(rest, key)
    requires forall j :: 0 <= j < |rest| ==> key(x) <= key(rest[j])
    ensures SortedBy([x] + rest, key)
  {
    var r := [x] + rest;
    forall i, j | 0 <= i < j < |r| ensures key(r[i]) <= key(r[j]) {
      assert r[j] == rest[j - 1];
      if i > 0 { assert r[i] == rest[i - 1]; }
    }
  }

  /** The stable ascending sort of `xs` by `key`. */
  function SortBy<T(==)>(xs: seq<T>, key: T -> int): (r: seq<T>)
    ensures multiset(r) == multiset(xs)
    ensures |r| == |xs|
    ensures SortedBy(r, key)
  {
    if xs == [] then []
    else
      assert xs == [xs[0]] + xs[1..];
      InsertSorted(xs[0], SortBy(xs[1..], key), key);
      Insert(xs[0], SortBy(xs[1..], key), key)
  }

  /** Inserting never reorders elements of equal key: `x` lands before every element with its key. */
  lemma {:induction false} InsertKeepsTies<T(!new)>(x: T, ys: seq<T>, key: T -> int, k: int)
    ensures Seqs.Filter(Insert(x, ys, key), KeyIs(key, k)) == Seqs.Filter([x] + ys, KeyIs(key, k))
  {
    if ys != [] && key(x) > key(ys[0]) {
      var p := KeyIs(key, k);
      InsertKeepsTies(x, ys[1..], key, k);
      assert ([ys[0]] + Insert(x, ys[1..], key))[1..] == Insert(x, ys[1..], key);
      assert ([x] + ys)[1..] == ys;
      assert ys[1..] == ([x] + ys[1..])[1..];
      if p(x) {
        assert !p(ys[0]);
        assert Seqs.Filter(ys, p) == Seqs.Filter(ys[1..], p);
      } else {
        assert Seqs.Filter([x] + ys[1..], p) == Seqs.Filter(ys[1..], p);
      }
    }
  }

  /**
    The sort is stable: the elements sharing any one key appear in the
    result in the order they had in the input.
  */
  lemma {:induction false} SortByIsStable<T(!new)>(xs: seq<T>, key: T -> int, k: int)
    ensures Seqs.Filter(SortBy(xs, key), KeyIs(key, k)) == Seqs.Filter(xs, KeyIs(key, k))
  {
    if xs != [] {
      var p := KeyIs(key, k);
      var tail := SortBy(xs[1..], key);
      SortByIsStable(xs[1..], key, k);
      InsertKeepsTies(xs[0], tail, key, k);
      assert ([xs[0]] + tail)[1..] == tail;
      assert Seqs.Filter([xs[0]] + tail, p) == (if p(xs[0]) then [xs[0]] else []) + Seqs.Filter(tail, p);
    }
  }

  /** Stability stated for any predicate that singles out the elements of one key. */
  lemma SortByKeepsOrderWithin<T(!new)>(xs: seq<T>, key: T -> int, k: int, p: T -> bool)
    requires forall x :: p(x) == (key(x) == k)
    ensures Seqs.Filter(SortBy(xs, key), p) == Seqs.Filter(xs, p)
  {
    var r := SortBy(xs, key);
    SortByIsStable(xs, key, k);
    Seqs.FilterCongruent(r, KeyIs(key, k), p);
    Seqs.FilterCongruent(xs, KeyIs(key, k), p);
  }

  /** Sorting an already sorted sequence changes nothing. */
  lemma {:induction false} SortBySorted<T>(xs: seq<T>, key: T -> int)
    requires SortedBy(xs, key)
    ensures SortBy(xs, key) == xs
  {
    if xs != [] {
      SortBySorted(xs[1..], key);
      assert SortedBy(xs[1..], key);
    }
  }
}

=== FILE: wire.dfy ===
/**
  The two ends of the HTTP exchange side by side: what the backend's
  replies look like once serialised, and what the browser code reads out
  of them. These lemmas are where the client and the server are checked
  against each other.
*/
module Wire {
  import opened Results
  import opened JsValue
  import JsText
  import ApiClient
  import ClienteController
  import RegistrationForm
  import EmpleadoHook
  import ClienteHook

  /** The JSON objects a list reply carries for its documents. */
  function Items(cs: seq<Record>): (items: seq<Json>)
    ensures |items| == |cs|
    ensures forall i :: 0 <= i < |cs| ==> items[i] == Obj(cs[i])
  {
    seq(|cs|, i requires 0 <= i < |cs| => Obj(cs[i]))
  }

  /** The list reply's documents are found under `data.clientes`. */
  lemma ListReplyEnvelope(message: string, cs: seq<Record>, p: ClienteController.Pagination)
    ensures ApiClient.SelectEnvelope(ClienteController.ToJson(ClienteController.Listed(message, cs, p))) == Ok(Items(cs))
  {
    var inner := map["clientes" := Arr(Items(cs)), "pagination" := ClienteController.PaginationJson(p)];
    var body := ClienteController.Envelope(message, Obj(inner));
    assert body == ClienteController.ToJson(ClienteController.Listed(message, cs, p));
    assert Prop(body, "data") == Some(Obj(inner));
    assert OptProp(Prop(body, "data"), "clientes") == Some(Arr(Items(cs)));
  }

  /**
    A page the backend serves loads in the browser as exactly its
    documents, each passed through the hook's normalisation with its index.
  */
  lemma ServedPageLoads(docs: seq<Record>, pageQ: Option<string>, limitQ: Option<string>, normalize: (Record, nat) -> Record)
    requires ClienteController.List(docs, pageQ, limitQ).status == 200
    ensures var cs := ClienteController.List(docs, pageQ, limitQ).body.clientes;
            var reply := ApiClient.Received(200, ClienteController.ToJson(ClienteController.List(docs, pageQ, limitQ).body));
            ApiClient.LoadList(reply, normalize) == Ok(seq(|cs|, i requires 0 <= i < |cs| => normalize(cs[i], i)))
  {
    var b := ClienteController.List(docs, pageQ, limitQ).body;
    var cs := b.clientes;
    ListReplyEnvelope(b.message, cs, b.pagination);
    var r := ApiClient.LoadList(ApiClient.Received(200, ClienteController.ToJson(b)), normalize);
    var items := Items(cs);
    forall i | 0 <= i < |cs| ensures !items[i].Null? && Spread(items[i]) == cs[i] {
      assert items[i] == Obj(cs[i]);
    }
    assert r.Ok?;
    assert r.value == seq(|cs|, i requires 0 <= i < |cs| => normalize(cs[i], i));
  }

  /**
    Whatever the registration page sends passes the backend's checks, and
    the stored texts are the ones the page sent (they are already trimmed).
  */
  lemma SubmittedFormIsStored(p: RegistrationForm.Page, store: ClienteController.Store, newId: string,
                              toDate: Json -> Result<Json, string>, f: RegistrationForm.Field)
    requires RegistrationForm.Submit(p).1.Send?
    requires toDate(RegistrationForm.Submit(p).1.body["fechaPedido"]).Ok?
    requires f != RegistrationForm.Field.FechaPedido
    ensures var body := RegistrationForm.Submit(p).1.body;
            var r := ClienteController.Create(store, body, newId, toDate);
            r.0.status == 201 && r.1[newId][f.Key()] == body[f.Key()]
  {
    var body := RegistrationForm.Submit(p).1.body;
    SentBodyPassesChecks(p);
    RegistrationForm.SentFieldsAreFilled(p, f);
    assert f.Key() in ClienteController.CreateTextKeys;
  }

  /** The body the registration page sends has every field the backend requires, as a string. */
  lemma SentBodyPassesChecks(p: RegistrationForm.Page)
    requires RegistrationForm.Submit(p).1.Send?
    ensures ClienteController.Complete(RegistrationForm.Submit(p).1.body)
    ensures ClienteController.TextsAreStrings(RegistrationForm.Submit(p).1.body)
  {
    var body := RegistrationForm.Submit(p).1.body;
    forall g: RegistrationForm.Field ensures body[g.Key()].Str? && body[g.Key()].s != "" {
      RegistrationForm.SentFieldsAreFilled(p, g);
    }
    assert RegistrationForm.Field.Nombre.Key() == "nombre";
    assert RegistrationForm.Field.Producto.Key() == "producto";
    assert RegistrationForm.Field.FechaPedido.Key() == "fechaPedido";
    assert RegistrationForm.Field.Telefono.Key() == "telefono";
    assert RegistrationForm.Field.Dirrecion.Key() == "dirrecion";
  }

  // ---------------------------------------------------------------------
  // Unwrapping the record of an update or creation reply
  // ---------------------------------------------------------------------

  /**
    As written, the hooks take `response.data.cliente`, then
    `response.data.data`, then `response.data`; the backend nests the
    record one level deeper, so what they keep is the wrapper
    `{cliente: ...}`, which has no `_id`, no `nombre`, nothing of the record.
  */
  lemma UpdateReplyAsWrittenKeepsWrapper(doc: Record)
    ensures var r := ApiClient.UpdatedRecordAsWritten(ClienteController.ToJson(ClienteController.Updated(doc)));
            r == Ok(Obj(map["cliente" := Obj(doc)])) && Spread(r.value).Keys == {"cliente"}
  {
    var data := ClienteController.ToJson(ClienteController.Updated(doc));
    assert Prop(data, "cliente") == None;
    assert Prop(data, "data") == Some(Obj(map["cliente" := Obj(doc)]));
  }

  /** The corrected unwrapping finds the updated record itself. */
  lemma UpdateReplyIsUnwrapped(doc: Record)
    ensures ApiClient.UpdatedRecord(ClienteController.ToJson(ClienteController.Updated(doc))) == Ok(Obj(doc))
  {
    var data := ClienteController.ToJson(ClienteController.Updated(doc));
    assert Prop(data, "cliente") == None;
    assert OptProp(Prop(data, "data"), "cliente") == Some(Obj(doc));
  }

  /** As written, a creation reply is unwrapped to `{cliente: ...}` too. */
  lemma CreateReplyAsWrittenKeepsWrapper(doc: Record)
    ensures var r := ApiClient.CreatedRecordAsWritten(ClienteController.ToJson(ClienteController.Created(doc)));
            r == Ok(Obj(map["cliente" := Obj(doc)])) && Spread(r.value).Keys == {"cliente"}
  {
    var data := ClienteController.ToJson(ClienteController.Created(doc));
    assert Prop(data, "data") == Some(Obj(map["cliente" := Obj(doc)]));
  }

  /** The corrected unwrapping finds the created record itself. */
  lemma CreateReplyIsUnwrapped(doc: Record)
    ensures ApiClient.CreatedRecord(ClienteController.ToJson(ClienteController.Created(doc))) == Ok(Obj(doc))
  {
    var data := ClienteController.ToJson(ClienteController.Created(doc));
    assert OptProp(Prop(data, "data"), "cliente") == Some(Obj(doc));
  }

  // What the hooks make of those replies
  // ---------------------------------------------------------------------

  /** The backend's reply to an update of `doc`. */
  function UpdateReply(status: int, doc: Record): ApiClient.Reply {
    ApiClient.Received(status, ClienteController.ToJson(ClienteController.Updated(doc)))
  }

  /** The backend's reply to the creation of `doc`. */
  function CreateReply(status: int, doc: Record): ApiClient.Reply {
    ApiClient.Received(status, ClienteController.ToJson(ClienteController.Created(doc)))
  }

  /**
    As written, saving an edit against the backend's update reply merges
    none of the saved document's fields: the record becomes the optimistic
    one with an extra `cliente` field holding the document.
  */
  lemma EditAsWrittenAddsWrapperField(s: EmpleadoHook.State, changes: Record, status: int, doc: Record)
    requires EmpleadoHook.BeginEdit(s, changes).Ok?
    ensures var (t, p) := EmpleadoHook.BeginEdit(s, changes).value;
            EmpleadoHook.SaveEdit(s, changes, UpdateReply(status, doc)).selected
              == Some(p.optimistic["cliente" := Obj(doc)]["_id" := p.original["_id"]])
  {
    var (t, p) := EmpleadoHook.BeginEdit(s, changes).value;
    var wrapper := map["cliente" := Obj(doc)];
    UpdateReplyAsWrittenKeepsWrapper(doc);
    EmpleadoHook.ConditionalWriteBackIsUnconditional(s, changes, Obj(wrapper));
    assert p.optimistic + wrapper == p.optimistic["cliente" := Obj(doc)];
  }

  /** With the corrected unwrap, every field of the saved document but `_id` lands in the record. */
  lemma EditCorrectedMergesDocument(s: EmpleadoHook.State, changes: Record, status: int, doc: Record)
    requires EmpleadoHook.BeginEdit(s, changes).Ok?
    ensures var (t, p) := EmpleadoHook.BeginEdit(s, changes).value;
            var r := EmpleadoHook.SettleEditCorrected(t, p, UpdateReply(status, doc));
            && r.selected == Some(EmpleadoHook.Reconciled(p, Obj(doc)))
            && forall k :: k in doc && k != "_id" ==> r.selected.value[k] == doc[k]
  {
    UpdateReplyIsUnwrapped(doc);
    EmpleadoHook.ConditionalWriteBackIsUnconditional(s, changes, Obj(doc));
  }

  /** A record holding only the `cliente` wrapper has none of the alias sources, so every alias is its default. */
  lemma WrapperAliasesAreDefaults(doc: Record)
    ensures var rec := ClienteHook.WithAliases(map["cliente" := Obj(doc)], ClienteHook.SavedNameKeys);
            && rec.Keys == ClienteHook.AliasKeys + {"cliente"}
            && forall k :: k in ClienteHook.AliasKeys ==> rec[k] == ClienteHook.Default(k)
  {
    var raw := map["cliente" := Obj(doc)];
    forall k | k in ClienteHook.AliasKeys
      ensures FirstTruthy(raw, ClienteHook.Sources(k, ClienteHook.SavedNameKeys), ClienteHook.Default(k)) == ClienteHook.Default(k)
    {
      FirstTruthyPicksFirst(raw, ClienteHook.Sources(k, ClienteHook.SavedNameKeys), ClienteHook.Default(k));
    }
  }

  /**
    As written, `updateClient` against the backend's update reply replaces
    the listed record with one of default aliases under the updated id:
    the saved document's fields are not among them.
  */
  lemma UpdateAsWrittenBlanksRecord(s: ClienteHook.State, clientId: Json, status: int, doc: Record)
    ensures var r := ClienteHook.UpdateClient(s, clientId, UpdateReply(status, doc));
            && r.1.Success? && r.1.data.Some?
            && r.1.data.value.Keys == ClienteHook.AliasKeys + {"_id", "cliente"}
            && r.1.data.value["_id"] == clientId
            && forall k :: k in ClienteHook.AliasKeys ==> r.1.data.value[k] == ClienteHook.Default(k)
  {
    UpdateReplyAsWrittenKeepsWrapper(doc);
    WrapperAliasesAreDefaults(doc);
    ClienteHook.IdIsNoAlias();
  }

  /** With the corrected unwrap, the listed record becomes the saved document, normalised. */
  lemma UpdateCorrectedKeepsDocument(s: ClienteHook.State, clientId: Json, status: int, doc: Record)
    ensures ClienteHook.UpdateClientCorrected(s, clientId, UpdateReply(status, doc)).1
              == ClienteHook.Success(Some(ClienteHook.NormalizeUpdated(doc, clientId)))
  {
    UpdateReplyIsUnwrapped(doc);
  }

  /** As written, `addClient` appends a record without `_id` whose aliases are all defaults. */
  lemma AddAsWrittenAppendsBlank(s: ClienteHook.State, status: int, doc: Record)
    ensures var r := ClienteHook.AddClient(s, CreateReply(status, doc));
            && r.1.Success? && r.1.data.Some?
            && r.0.clients == s.clients + [r.1.data.value]
            && "_id" !in r.1.data.value
            && forall k :: k in ClienteHook.AliasKeys ==> r.1.data.value[k] == ClienteHook.Default(k)
  {
    CreateReplyAsWrittenKeepsWrapper(doc);
    WrapperAliasesAreDefaults(doc);
    ClienteHook.IdIsNoAlias();
  }

  /** With the corrected unwrap, the appended record is the created document with its aliases, `_id` included. */
  lemma AddCorrectedAppendsDocument(s: ClienteHook.State, status: int, doc: Record)
    ensures var r := ClienteHook.AddClientCorrected(s, CreateReply(status, doc));
            r.0.clients == s.clients + [ClienteHook.WithAliases(doc, ClienteHook.SavedNameKeys)]
            && ("_id" in doc ==> r.0.clients[|s.clients|]["_id"] == doc["_id"])
  {
    CreateReplyIsUnwrapped(doc);
    ClienteHook.IdIsNoAlias();
  }
}
